=== FILE: README.md ===
# Food-delivery bot core in Dafny

This project models the core of a WhatsApp food-delivery bot. The model is written in Dafny.

- Customers order a meal through a scripted conversation: welcome, meal selection, delivery location, payment confirmation.
- A confirmed order is written to an order registry and put on a rider queue.
- Riders work through a plain-text command surface: `orders`, `book`, `pickup`, `delivered`, `myorders`, `payment`.
- Booking an order creates a booking and a payment hold. The hold is released when the rider confirms delivery.
- Users are kept in two interchangeable user stores:
  - an in-memory store, with a per-order lock table for `bookOrder`;
  - a Firestore-backed store.

Every store is modelled as an immutable value. Every operation is a pure function from the old state to a pair `(new state, result)`. Values the program would obtain from its surroundings are passed in as parameters:

- the clock (`now`);
- generated order and booking ids (`Env`);
- the availability of the session database (`up` / `sessionsUp`);
- storage faults while creating an order (`OrderFault`).

JavaScript's loose values (`undefined`, `null`, numbers, strings, objects) are modelled by `Common.Value`. A document is a `map<string, Value>`.

The modules follow the source files:

| module | file | models |
|---|---|---|
| `Common` | (shared) | `Option`, `Result`, JavaScript values, property lookup, the `a \|\| b` default |
| `Text` | (shared) | ASCII case mapping, `trim`, `split`, `join`, `includes`, each with a reference definition |
| `SessionStore` | `src/services/stateService.js` | per-phone conversation step and session data |
| `Engine` | `src/bot/engine.js` | the customer conversation state machine and order creation |
| `RiderService` | `src/services/riderService.js` | the rider queue, bookings and payment holds |
| `RiderBot` | `src/bot/riderBot.js` | rider command parsing and dispatch |
| `Users` | `services/user-store.js` (shared parts) | user and order records, areas, earnings, state patches, an ordered table |
| `MemoryUserStore` | `services/user-store.js` | the in-memory user store |
| `FirestoreUserStore` | `services/firestore-user-store.js` | the Firestore user store |

Two invariants are proved over every rider operation that uses the corrected pickup (`RiderService.ConfirmPickup`), and over every rider command the bot dispatches with it:

- **payment coupling** (`RiderService.PaymentCoupled`): a payment hold is released exactly when its booking is delivered;
- **booking exclusivity** (`RiderService.BookingsExclusive`): no order has two bookings.

Booking exclusivity also holds with the pickup as written. Payment coupling does not: a pickup after delivery breaks it (see "Findings").

Behaviour worth noting:

- **Payment hold amount.** `bookOrder` stores the full order price as the hold amount (`src/services/riderService.js:114`). `RiderService.Lifecycle` states this.
- **Order registry on booking.** Booking through the rider service changes only the queue entry (`src/services/riderService.js:100-107`). The order registry entry keeps its status.
- **Three separate writes.** The booking, the queue update and the payment hold are written one after another. The model applies them as one step. Interleavings are listed under "Left out".
- **Delivery before pickup.** `confirmDelivery` does not check the booking's status, so a booking can be delivered straight from `booked`.
- **Which order is booked.** The in-memory `bookOrder` books the last matching buyer in insertion order (`services/user-store.js:231-236`). The Firestore one books the first document its query returns (`services/firestore-user-store.js:272-276`). The query has no `orderBy`, so the database returns documents in document-id order. The model takes the first match in the table's enumeration order, which stands in for that order.
- **Firestore `getUser` result.** The Firestore `getUser` returns the stored record as it was before the `lastInteraction` update (`services/firestore-user-store.js:58-60`). The in-memory store returns the updated record. `FirestoreUserStore.GetUserReturnsPreviousInteraction` states the difference.
- **Promo code from a new user.** A promo code from a user with no session creates a session that has data but no step. The next message then goes to the welcome handler (`Engine.PromoOnNewSessionLeavesNoStep`, `Engine.AfterNewSessionPromo`).

## Model

| member | source | states |
|---|---|---|
| RiderService.AddToRiderQueue | src/services/riderService.js:21-40 | queuing an order adds exactly one pending entry carrying the order's phone, meal, location and price; all other entries, bookings and payments are untouched |
| RiderService.GetPendingOrders | src/services/riderService.js:46-66 | the result holds exactly the queue entries whose status is pending_booking, unchanged |
| RiderService.BookOrder | src/services/riderService.js:74-126 | an order id the client refuses as a document path fails first with the client's message; otherwise booking fails with "Order not available for booking" exactly when the order is not pending; a refused booking id fails before any write; every failure changes nothing; on success it returns the new booking id and creates the booking, marks the queue entry booked and creates a held payment for the full price |
| RiderService.ConfirmPickupAsWritten | src/services/riderService.js:133-147 | as written: any existing booking becomes in_transit with a pickup time whatever its status; a refused path or a missing booking fails with no change |
| RiderService.PickupAfterDeliveryBreaksCoupling | src/services/riderService.js:133-168 | as written, a pickup after delivery leaves a released payment on a booking that is no longer delivered |
| RiderService.ConfirmPickup | src/services/riderService.js:133-147 | corrected pickup: succeeds exactly on a valid path to a booking in status booked and then agrees with the code; otherwise fails with no change |
| RiderService.ConfirmDelivery | src/services/riderService.js:154-175 | an existing booking becomes delivered with the delivery time; its payment is released at the same time if it exists; success exactly when the path is accepted and both records exist; a refused path or a missing booking fails with no change |
| RiderService.GetRiderBookings | src/services/riderService.js:182-203 | exactly the rider's bookings whose status is booked or in_transit |
| RiderService.GetPaymentStatus | src/services/riderService.js:210-221 | an id the client refuses as a path gives the client's message; otherwise the stored payment hold exactly when one exists, else "Payment record not found" |
| RiderService.IsRegisteredRider | src/services/riderService.js:228-235 | yes only when the read succeeds and the phone has a registry document; a failed read is caught and answers no |
| RiderService.PathError | src/services/riderService.js:77 | the document path check every `doc(id)` runs: an empty id, an id with `//`, or an id with an even number of non-empty segments is refused with the client's message; an accepted id is never empty |
| RiderService.DocIdPasses | src/services/riderService.js:77 | a slash-free id passes the path check exactly when it is non-empty |
| RiderService.OneSlashRefused | src/services/riderService.js:212 | an id of two slash-free segments is refused: the path it completes names a collection, not a document |
| RiderService.AddPreservesCoupling | src/services/riderService.js:21-33 | queuing an order keeps every payment released iff its booking is delivered |
| RiderService.BookPreservesCoupling | src/services/riderService.js:100-118 | booking keeps payment coupling: the new booking is booked and its payment held |
| RiderService.PickupPreservesCoupling | src/services/riderService.js:137-140 | the corrected pickup keeps payment coupling |
| RiderService.DeliveryPreservesCoupling | src/services/riderService.js:159-168 | delivery keeps payment coupling |
| RiderService.DeliveryReleasesPayment | src/services/riderService.js:155-168 | for a slash-free id, after delivery the booking is delivered and its payment released, both stamped with the same time |
| RiderService.AddPreservesExclusive | src/services/riderService.js:21-33 | queuing a new order keeps at most one booking per order |
| RiderService.BookPreservesExclusive | src/services/riderService.js:100-107 | booking with a fresh booking id keeps at most one booking per order |
| RiderService.PickupPreservesExclusive | src/services/riderService.js:137-140 | pickup keeps at most one booking per order |
| RiderService.DeliveryPreservesExclusive | src/services/riderService.js:159-162 | delivery keeps at most one booking per order |
| RiderService.PickupAsWrittenPreservesExclusive | src/services/riderService.js:137-140 | the pickup as written also keeps at most one booking per order |
| RiderService.QueuedOrderIsPending | src/services/riderService.js:21-66 | a queued order is listed by the pending-orders query with its phone and price |
| RiderService.BookedOrderIsActive | src/services/riderService.js:74-221 | after a booking the order is no longer pending, the booking is among the rider's active bookings, and its payment reads back as held for the full price |
| RiderService.PickedUpBookingStaysActive | src/services/riderService.js:133-203 | a picked-up booking stays among its rider's active bookings, in transit |
| RiderService.DeliveredBookingLeavesActive | src/services/riderService.js:154-221 | for a slash-free id, a delivered booking leaves every rider's active bookings and its payment reads back as released |
| RiderService.AtMostOneBookingPerOrder | src/services/riderService.js:74-107 | under the exclusivity invariant, two bookings of the same order are the same booking |
| RiderService.SecondBookingFails | src/services/riderService.js:77-80 | once an order is booked, a second booking of it by any rider fails and changes nothing |
| RiderService.Lifecycle | src/services/riderService.js:74-175 | with slash-free ids, book, pickup, deliver on a pending order all succeed; they end with a delivered booking, a released payment of the full price and a booked queue entry |
| RiderBot.SingleTokenIffNoSpace | src/bot/riderBot.js:37-49 | a command has a single token exactly when its text holds no space |
| RiderBot.TokensAsWrittenAreLowered | src/bot/riderBot.js:36-37 | splitting the lowered, trimmed command equals lowering each token of the trimmed command |
| RiderBot.ParseCommandAsWritten | src/bot/riderBot.js:36-38 | as written: action and argument are lower-case, space-free tokens; there is no argument iff the trimmed command has no space |
| RiderBot.ParseCommand | src/bot/riderBot.js:36-38 | corrected parse: the action is lower-case, the argument keeps its case; there is no argument iff the trimmed command has no space |
| RiderBot.ParseAgreesUpToIdCase | src/bot/riderBot.js:36-50 | both parses agree on the action and on whether an argument is present; the written argument is the lowered corrected one |
| RiderBot.ListPendingOrders | src/bot/riderBot.js:87-107 | "no pending orders" exactly when the queue has no pending entry; otherwise the list is exactly the pending entries |
| RiderBot.HandleBookOrder | src/bot/riderBot.js:112-123 | the reply is the booking confirmation exactly when the booking succeeds; otherwise an error reply and no change: the client's message for a refused path, "Order not available for booking" for an order that is not pending |
| RiderBot.HandlePickup | src/bot/riderBot.js:128-145 | an id the client refuses as a path gets the client's message before any ownership check; a rider who does not own the booking gets "not your booking"; neither changes anything; as written the owner's pickup always succeeds and is answered with the drop-off location; corrected, it succeeds only on a booked booking and otherwise gets the not-awaiting-pickup error with no change |
| RiderBot.HandleDeliveryConfirm | src/bot/riderBot.js:150-168 | a refused path gets the client's message and a non-owner "not your booking", with no change; the owner delivers and is told the order price, or gets the missing-payment error |
| RiderBot.ListRiderActiveOrders | src/bot/riderBot.js:173-192 | "no active orders" exactly when the rider has no booked or in-transit booking; otherwise exactly those bookings |
| RiderBot.CheckPaymentStatus | src/bot/riderBot.js:197-208 | a refused path gets the client's message; otherwise the hold's amount and status when it exists, else the not-found error |
| RiderBot.Dispatch | src/bot/riderBot.js:42-77 | an unknown action gets the help text; a known action without its argument gets that action's usage line; each action with its argument reaches its own handler; only book, pickup and delivered change state |
| RiderBot.HandleRiderCommandAsWritten | src/bot/riderBot.js:34-82 | as written: an unknown action gets the help text, a bare action that needs an argument its usage line, and every other command reaches its handler with the id lower-cased; pickup accepts a booking in any status |
| RiderBot.HandleRiderCommand | src/bot/riderBot.js:34-82 | corrected: an unknown action gets the help text; a one-word command that needs an argument gets its usage line; every other command reaches its handler with the id as typed; pickup accepts only a booked booking |
| RiderBot.NonOwnerCannotTouchBooking | src/bot/riderBot.js:128-168 | no command by a rider changes another rider's booking or its payment |
| RiderBot.DispatchPreservesCoupling | src/bot/riderBot.js:42-77 | with the corrected pickup, every rider command keeps payment coupling |
| RiderBot.PickupAfterDeliveryAsWritten | src/bot/riderBot.js:128-145 | as written, the owner's pickup of a delivered booking (slash-free id) is answered "picked up", puts it back in transit with its payment released, and breaks payment coupling; the corrected bot refuses it and changes nothing |
| RiderBot.DispatchPreservesExclusive | src/bot/riderBot.js:42-77 | every rider command with a fresh booking id keeps at most one booking per order |
| RiderBot.DispatchKeepsRegistry | src/services/riderService.js:228-235 | no rider command writes the registry, so the registration answer for every phone is the same before and after any command |
| RiderBot.PaymentQueryIgnoresRider | src/bot/riderBot.js:67-71 | the payment query gives the same answer to every rider |
| RiderBot.BookedOrderListed | src/bot/riderBot.js:112-192 | after a successful book, the rider's myorders list holds the booking for that order and the orders list no longer holds the order |
| RiderBot.QueuedOrderListed | src/bot/riderBot.js:87-107 | a queued order is listed by the orders command |
| RiderBot.DeliveredOrderUnlisted | src/bot/riderBot.js:150-208 | after the owner's delivered (slash-free id), the booking leaves the myorders list and the payment command reports it released |
| RiderBot.ParseBookOrd1AsWritten | src/bot/riderBot.js:36-38 | the corrected parse of "book ORD-1" keeps the argument "ORD-1"; as written it is lower-cased, which differs from "ORD-1" |
| RiderBot.BookUppercaseId | src/bot/riderBot.js:36-50 | as written, "book ORD-1" against a pending ORD-1 fails with "Order not available for booking"; the corrected command books it |
| RiderBot.BookCaseSensitive | src/bot/riderBot.js:36-50 | whenever a book command's id names a pending order and its lower-cased form names none, the command as written fails with "Order not available for booking" and the corrected one books the order |
| RiderBot.BookRoute | src/bot/riderBot.js:46-50 | a book command with an id reaches the booking handler, with the id lower-cased as written and unchanged when corrected |
| RiderBot.ParseJoined | src/bot/riderBot.js:36-38 | a trimmed command of space-separated tokens parses to its first two tokens, the action lower-cased; as written the id is lower-cased too |
| RiderBot.BookOutcome | src/bot/riderBot.js:112-123 | with slash-free ids, book succeeds on a pending order and answers "Order not available for booking" for an id the queue does not hold |
| RiderBot.ParseDoubledSpace | src/bot/riderBot.js:36-38 | "book  ORD-1", with a doubled space, parses to the action book and an empty id under both parsers |
| RiderBot.DoubledSpaceEmptyId | src/bot/riderBot.js:46-50 | "book  ORD-1" is answered with the client's empty-path message and changes nothing, as written and corrected |
| RiderBot.SlashIdRefused | src/bot/riderBot.js:128-135 | an id with one slash gets the client's path message from book, pickup, delivered and payment alike, with no change and before any ownership check |
| SessionStore.GetUserState | src/services/stateService.js:22-41 | a stored session is returned as is; a missing session or an unavailable database gives the welcome step with empty data |
| SessionStore.UpdateUserState | src/services/stateService.js:51-70 | sets the step; replaces the data only when new data is non-empty, and then by what the database keeps of it (so `{cart: {}}` leaves no data); data with nothing to drop is stored as given; no other phone's session changes; nothing changes when the database is unavailable |
| SessionStore.GetSessionData | src/services/stateService.js:77-85 | the stored data, or an empty object when there is none or the database is unavailable |
| SessionStore.MergeSessionData | src/services/stateService.js:93-103 | the new data is what the database keeps of the old data overwritten key by key by the new fields: a new kept value is read back, a new null or empty object deletes its key; a stepped session keeps its step, and when the new data holds a kept value a phone without a session gets a session with no step; no other session changes |
| SessionStore.ClearSession | src/services/stateService.js:110-118 | removes exactly this phone's session |
| SessionStore.UpdateThenRead | src/services/stateService.js:55-65 | reading after an update returns the new step, and what the database kept of the new data when it was non-empty |
| SessionStore.MergeThenStep | src/services/stateService.js:93-98 | merging then setting the step reads back the merged data as the database keeps it |
| SessionStore.ClearThenRead | src/services/stateService.js:110-118 | after clearing, the session reads as a new one |
| SessionStore.MergeIdempotent | src/services/stateService.js:95-98 | merging the same data twice equals merging it once |
| SessionStore.StoredSpec | src/services/stateService.js:61-65 | the database keeps exactly the values that are not null or an empty object; keeping is idempotent; data is kept as given exactly when it holds no such value |
| SessionStore.GetStored | src/services/stateService.js:78-80 | a property holding a kept value reads the same before and after the database drops what it drops |
| SessionStore.StoredUnion | src/services/stateService.js:94-96 | merging kept values filters only the old part |
| SessionStore.UpdateKeepsNormal | src/services/stateService.js:51-70 | an update leaves every stored data object non-empty and free of null and empty objects |
| SessionStore.MergeKeepsNormal | src/services/stateService.js:93-103 | a merge keeps the same database invariant |
| SessionStore.ClearKeepsNormal | src/services/stateService.js:110-118 | a clear keeps the same database invariant |
| SessionStore.MergeKeptData | src/services/stateService.js:93-103 | in such a database, merging kept values reads back as the plain shallow merge |
| Engine.MealTable | src/bot/engine.js:133-147 | a message names a meal exactly when it is one of the menu keys; each meal costs 320 and has a name; meal ids map to themselves |
| Engine.MenuNumbersMatchIds | src/bot/engine.js:133-140 | menu numbers 1, 2 and 3 pick the same meals as their ids |
| Engine.OrderFor | src/bot/engine.js:255-267 | the order document copies phone, meal, location and price from the session; the promo code defaults to null and free delivery to false |
| Engine.CreateOrder | src/bot/engine.js:250-281 | an order is created exactly when storage works and no copied field is undefined; it is then stored pending_booking and queued; failure before any write changes nothing |
| Engine.QueueEntryMatchesOrder | src/bot/engine.js:255-273 | the queued entry carries the stored order's meal, location and price |
| Engine.ApplyPromo | src/bot/engine.js:238-244 | applying a promo changes only this phone's session, and nothing when the database is unavailable |
| Engine.PromoEffect | src/bot/engine.js:238-244 | the promo code (upper-cased) and free delivery are merged into the session data as the database keeps it, and the step is kept |
| Engine.HandleWelcome | src/bot/engine.js:104-124 | the welcome handler touches neither orders nor the rider queue |
| Engine.WelcomeEffect | src/bot/engine.js:104-124 | "order" shows the menu and moves to meal selection; its `{cart: {}}` is dropped by the database, so the session data reads as empty; "account" gets the coming-soon text; anything else gets the welcome buttons |
| Engine.HandleFoodSelection | src/bot/engine.js:130-160 | meal selection touches neither orders nor the rider queue |
| Engine.FoodSelectionEffect | src/bot/engine.js:130-160 | a known meal is merged into the session data as the database keeps it and the step moves to order confirmation with the meal's name and price; an unknown one shows the menu again |
| Engine.HandleConfirmOrder | src/bot/engine.js:166-185 | the location step touches neither orders nor the rider queue |
| Engine.ConfirmOrderEffect | src/bot/engine.js:166-185 | a trimmed location shorter than 3 UTF-16 code units (JavaScript's `length`) is rejected; otherwise it is stored, the step moves to payment and the payment prompt shows the session's meal and price |
| Engine.PaymentConfirmEffect | src/bot/engine.js:191-211 | confirming creates the order; the reply is the generic error exactly when creation fails; on success the step moves to order complete and the confirmation shows the order |
| Engine.HandlePayment | src/bot/engine.js:191-224 | only a confirmation can touch orders or the rider queue; a confirmation is tested first, so a message that also says cancel is never answered as cancelled; a cancellation gets the cancel text and moves the session to WELCOME; any other text changes nothing; no other phone's session changes |
| Engine.PaymentOtherEffect | src/bot/engine.js:212-224 | "cancel" returns to the welcome step; any other message repeats the payment prompt; neither touches orders |
| Engine.HandleMessage | src/bot/engine.js:56-98 | a promo code is answered before any step handler and touches neither orders nor the rider queue; a session at ORDER_COMPLETE, without a step or at an unknown step gets the welcome buttons; the per-step effects are in Engine.MessageEffect, Engine.StepFollowsDiagram and Engine.HandleMessagePreservesWellFormed |
| Engine.PromoCodeIgnoresCase | src/bot/engine.js:230-233 | the promo test ignores case: a message is a code exactly when its lower-cased form is, and exactly when its upper-cased form (the form stored with the order) is |
| Engine.OtherStepsWelcome | src/bot/engine.js:84-92 | any other or missing step answers with the welcome buttons, sets the step to welcome and touches no order |
| Engine.MessageEffect | src/bot/engine.js:56-98 | a message changes only the sender's session; orders and the rider queue change only in the payment step; the generic error comes only from a failed order creation and leaves the sessions unchanged |
| Engine.PaymentConfirmSucceeds | src/bot/engine.js:250-270 | with storage working and a well-formed payment session, order creation succeeds with the generated id |
| Engine.StepFollowsDiagram | src/bot/engine.js:56-98 | the step after any message is given by the conversation diagram of the current step and the message; at order confirmation the location length counts UTF-16 code units |
| Engine.TwoEmojiLocationAccepted | src/bot/engine.js:166-177 | two office-building emoji are two code points but four UTF-16 units long, so at order confirmation they are accepted and the step moves to payment |
| Engine.LongLocationAccepted | src/bot/engine.js:166-177 | a location of at least three UTF-16 code units is never answered as invalid and moves order confirmation to payment |
| Engine.PromoKeepsStep | src/bot/engine.js:64-68 | a promo code keeps the current step and records the upper-cased code with free delivery |
| Engine.PromoOnNewSessionLeavesNoStep | src/bot/engine.js:64-68 | a promo code from a user with no session creates a session without a step |
| Engine.AfterNewSessionPromo | src/bot/engine.js:64-92 | the message after such a promo is answered with the welcome buttons |
| Engine.WellFormedAfterWelcome | src/bot/engine.js:104-124 | the welcome handler keeps every session well-formed: from order confirmation on a meal is stored, and from payment on a location too |
| Engine.WellFormedAfterFoodSelection | src/bot/engine.js:130-160 | meal selection keeps every session well-formed |
| Engine.WellFormedAfterConfirmOrder | src/bot/engine.js:166-185 | the location step keeps every session well-formed |
| Engine.WellFormedAfterPayment | src/bot/engine.js:191-224 | the payment step keeps every session well-formed |
| Engine.WellFormedAfterPromo | src/bot/engine.js:238-244 | a promo keeps every session well-formed |
| Engine.PromoKeepsOrderData | src/bot/engine.js:238-244 | the promo merge keeps a chosen meal and a given location |
| Engine.MealMergeChosen | src/bot/engine.js:149-153 | merging a known meal leaves a chosen meal with a name and a positive price |
| Engine.LocationMergeGiven | src/bot/engine.js:172-175 | merging an accepted location keeps the chosen meal and records the location |
| Engine.HandleMessagePreservesWellFormed | src/bot/engine.js:56-98 | every message keeps every session well-formed |
| Engine.ConfirmCreatesQueuedOrder | src/bot/engine.js:194-199 | confirming payment from a well-formed payment session stores a pending order for the phone, queues it for riders and completes the conversation |
| Engine.ConfirmationEchoesSession | src/bot/engine.js:204-210 | the confirmation shows the order id and the session's meal, location and price |
| Engine.ConfirmationWithoutPlaceholders | src/bot/engine.js:205-210 | the confirmation is built from the session's meal, location and price |
| MemoryUserStore.GetUser | services/user-store.js:22-45 | returns the stored user with a fresh lastInteraction, or a new idle user; stores what it returns |
| MemoryUserStore.GetUserIdempotent | services/user-store.js:22-45 | fetching a user twice at the same time equals fetching once |
| MemoryUserStore.SetRole | services/user-store.js:48-57 | an unknown role fails and changes nothing; a known role is set, and the state is awaiting_location for riders and onboarding otherwise |
| MemoryUserStore.SetRiderAreaAsWritten | services/user-store.js:62-70 | as written: the user is fetched first; a code the property check rejects fails; an accepted code, inherited property names included, is stored and the state becomes browsing_menu |
| MemoryUserStore.SetRiderArea | services/user-store.js:62-70 | corrected: an unknown area code fails after the user is fetched; a real area is stored and the state becomes browsing_menu |
| MemoryUserStore.RiderAreaCorrectionAgrees | services/user-store.js:62-70 | the corrected and as-written operations agree on real areas and on every code that is not an inherited property name |
| MemoryUserStore.ConstructorStoredAsArea | services/user-store.js:64-69 | as written, "constructor" is stored as the rider's area, so not every stored area is real; the corrected operation refuses it |
| MemoryUserStore.SetRiderAreaKeepsAreasKnown | services/user-store.js:62-70 | the corrected operation keeps every stored area a real one |
| MemoryUserStore.SavedUserReadBack | services/user-store.js:22-45 | a written record is what the next fetch returns, with a fresh lastInteraction |
| MemoryUserStore.RiderAreaReadBack | services/user-store.js:62-70 | after picking an area, fetching the rider shows that area and browsing_menu |
| MemoryUserStore.SetState | services/user-store.js:81-86 | the state is set unless the patch holds one; each patched field takes the patch's value and each unpatched field is kept |
| MemoryUserStore.StateReadBack | services/user-store.js:81-86 | what setState returns is what the next fetch returns |
| MemoryUserStore.SetOrder | services/user-store.js:89-99 | the user's current order becomes a new pending-payment order for the meal |
| MemoryUserStore.ConfirmPayment | services/user-store.js:102-111 | with a current order, it is marked payment-confirmed with the transaction, receipt and time; without one nothing but the fetch happens |
| MemoryUserStore.OrderThenPayment | services/user-store.js:89-111 | ordering then paying leaves a confirmed order for that meal and transaction |
| MemoryUserStore.SetLocation | services/user-store.js:114-124 | the address is stored and the state becomes order_confirmed |
| MemoryUserStore.LocationReadBack | services/user-store.js:114-124 | after giving an address, fetching the buyer shows it and order_confirmed |
| MemoryUserStore.GetActiveOrders | services/user-store.js:127-139 | the result is exactly the projections of users that have an active order |
| MemoryUserStore.ActiveOrdersExact | services/user-store.js:127-139 | a user appears among active orders exactly when their order is payment-confirmed |
| MemoryUserStore.Assignment | services/user-store.js:177-183 | the assignment record keeps the given fields, records the rider, status assigned and the time, and defaults its id |
| MemoryUserStore.AssignDelivery | services/user-store.js:172-185 | a non-rider is refused; a rider gets the assignment record as current delivery |
| MemoryUserStore.AssignmentReadBack | services/user-store.js:172-185 | after an assignment, fetching the rider shows the delivery returned |
| MemoryUserStore.GetAvailableDeliveries | services/user-store.js:188-212 | fetches the rider, then returns exactly the offers of deliverable buyers |
| MemoryUserStore.OffersAreDeliverable | services/user-store.js:193-208 | every offer belongs to a deliverable buyer and carries the earnings of the order price |
| MemoryUserStore.GetOrdersByArea | services/user-store.js:274-290 | exactly the deliverable orders located in the area |
| MemoryUserStore.AreaOrdersAreDeliverable | services/user-store.js:276-287 | every area order belongs to a deliverable buyer located in that area |
| MemoryUserStore.CleanupOldSessions | services/user-store.js:293-302 | keeps exactly the users active within the last day, unchanged |
| MemoryUserStore.FreshUserSurvivesCleanup | services/user-store.js:293-302 | a user fetched within a day survives cleanup |
| MemoryUserStore.Commit | services/user-store.js:259-261 | the booked buyer's order is assigned to the rider, the rider's delivery is stored, and nobody else changes |
| MemoryUserStore.BookOrder | services/user-store.js:217-271 | a locked order is refused with no change; "not found" changes nothing; the lock table is left as it was |
| MemoryUserStore.NotFoundExact | services/user-store.js:228-241 | booking reports "not found" exactly when the order is unlocked and no buyer's confirmed order is bookable |
| MemoryUserStore.BookablesAfterCommit | services/user-store.js:259-261 | after the commit the bookable buyers are the old ones minus the booked buyer |
| MemoryUserStore.BookingEffect | services/user-store.js:231-266 | a successful booking picks the last bookable buyer, assigns the order to the rider, records the delivery, and leaves that buyer no longer bookable |
| MemoryUserStore.LastMatchIsLastBookable | services/user-store.js:231-236 | the backward scan finds the last bookable buyer in insertion order |
| MemoryUserStore.GetUserKeepsBookables | services/user-store.js:244 | fetching a user does not change who is bookable |
| MemoryUserStore.RepeatBookingNotFound | services/user-store.js:231-241 | when one buyer was bookable, booking the same order again reports "not found" |
| MemoryUserStore.NullLocationWritesNothing | services/user-store.js:244-257 | a buyer without a usable address is refused, and no order or delivery is written |
| FirestoreUserStore.GetUser | services/firestore-user-store.js:31-61 | creates a missing user; for an existing user stores a fresh lastInteraction but returns the record as read |
| FirestoreUserStore.GetUserReturnsPreviousInteraction | services/firestore-user-store.js:58-60 | the second fetch returns the first fetch's time while storing the new one |
| FirestoreUserStore.SetRole | services/firestore-user-store.js:66-78 | an unknown role fails; a missing user fails as a missing document; otherwise role and state are updated |
| FirestoreUserStore.SetRiderAreaAsWritten | services/firestore-user-store.js:142-153 | as written: a code the property check rejects fails before any write; a missing user fails; an accepted code, inherited property names included, is stored and the state becomes browsing_menu |
| FirestoreUserStore.SetRiderArea | services/firestore-user-store.js:142-153 | corrected: an unknown area code fails before any write; a missing user fails; a real area is stored and the state becomes browsing_menu |
| FirestoreUserStore.RiderAreaCorrectionAgrees | services/firestore-user-store.js:142-153 | the corrected and as-written operations agree on real areas and on every code that is not an inherited property name |
| FirestoreUserStore.ConstructorStoredAsArea | services/firestore-user-store.js:143-150 | as written, "constructor" is stored as a known rider's area, so not every stored area is real; the corrected operation refuses it with no write |
| FirestoreUserStore.SetRiderAreaKeepsAreasKnown | services/firestore-user-store.js:142-153 | the corrected operation keeps every stored area a real one |
| FirestoreUserStore.StoredUserReadBack | services/firestore-user-store.js:31-61 | fetching a known user returns its document as the last update left it |
| FirestoreUserStore.RiderAreaReadBack | services/firestore-user-store.js:142-153 | after picking an area, fetching the rider shows that area and browsing_menu |
| FirestoreUserStore.SetState | services/firestore-user-store.js:83-87 | a missing user fails; otherwise the state is set unless the patch holds one, each patched field takes the patch's value, every other field (lastInteraction too) is kept, and the data written is returned |
| FirestoreUserStore.StateReadBack | services/firestore-user-store.js:83-87 | the next fetch after setState shows the state and patch written |
| FirestoreUserStore.SetOrder | services/firestore-user-store.js:92-106 | a missing user fails; otherwise the current order becomes a new pending-payment order |
| FirestoreUserStore.Paid | services/firestore-user-store.js:111-118 | the dotted-field update marks the order paid with the transaction, receipt and time, and keeps the meal fields of a previous order |
| FirestoreUserStore.ConfirmPayment | services/firestore-user-store.js:111-118 | a missing user fails; otherwise the order is replaced by its paid form |
| FirestoreUserStore.OrderThenPayment | services/firestore-user-store.js:92-118 | ordering then paying leaves a confirmed order for that meal and transaction |
| FirestoreUserStore.SetLocation | services/firestore-user-store.js:123-137 | a missing user fails; otherwise the area is stored and the state becomes order_confirmed |
| FirestoreUserStore.LocationReadBack | services/firestore-user-store.js:123-137 | after giving an area, fetching the buyer shows the location returned and order_confirmed |
| FirestoreUserStore.GetActiveOrders | services/firestore-user-store.js:168-187 | exactly the projections of users with an active order |
| FirestoreUserStore.ActiveOrdersExact | services/firestore-user-store.js:168-187 | a user appears among active orders exactly when their order is confirmed and they have a location |
| FirestoreUserStore.GetAvailableDeliveries | services/firestore-user-store.js:233-257 | exactly the offers of deliverable buyers |
| FirestoreUserStore.OffersAreBuyersActiveOrders | services/firestore-user-store.js:233-257 | every offer's buyer is deliverable and appears among the active orders |
| FirestoreUserStore.GetOrdersByArea | services/firestore-user-store.js:328-350 | exactly the area projections of users in that area |
| FirestoreUserStore.AreaOrderIsOffer | services/firestore-user-store.js:328-350 | every order in an area is also offered to riders, with that area as its location |
| FirestoreUserStore.OfferInAreaIsAreaOrder | services/firestore-user-store.js:328-350 | every offer located in an area is listed among that area's orders |
| FirestoreUserStore.AreaOrdersAreOffers | services/firestore-user-store.js:328-350 | a buyer has an order in an area exactly when they have an offer located there |
| FirestoreUserStore.Commit | services/firestore-user-store.js:287-315 | the buyer's order is assigned to the rider with the time, the rider's delivery is stored, and nobody else changes |
| FirestoreUserStore.BookOrder | services/firestore-user-store.js:262-323 | a locked order is refused; every refusal changes nothing; a booking needs an existing rider and a delivery with no undefined value |
| FirestoreUserStore.NotFoundExact | services/firestore-user-store.js:272-281 | "not found" exactly when the order is unlocked and no buyer's order is bookable |
| FirestoreUserStore.FirstMatchIsFirstBookable | services/firestore-user-store.js:272-284 | the scan finds the first bookable buyer in the table's enumeration order |
| FirestoreUserStore.BookablesAfterCommit | services/firestore-user-store.js:290-313 | after the commit the bookable buyers are the old ones minus the booked buyer |
| FirestoreUserStore.BookingEffect | services/firestore-user-store.js:283-318 | a successful booking picks the first bookable buyer in the table's enumeration order, assigns it to the rider with the time, records the delivery with the buyer's area, and leaves that buyer no longer bookable |
| FirestoreUserStore.UndefinedAreaRefused | services/firestore-user-store.js:296-322 | when the first bookable buyer's location has no area, the delivery would hold undefined: the booking is refused and nothing is written |
| FirestoreUserStore.RepeatBookingNotFound | services/firestore-user-store.js:272-281 | when one buyer was bookable, booking the same order again reports "not found" |
| FirestoreUserStore.PaymentWithoutOrderIsNeverBookable | services/firestore-user-store.js:111-118 | paying without an order leaves a confirmed order with no meal, which no rider can book |
| Users.ParseRole | services/user-store.js:50-52 | a role parses exactly when it is buyer, seller or rider, and prints back to the same text |
| Users.ParseRoleName | services/user-store.js:50-52 | every role's name parses back to the role |
| Users.StateForRole | services/user-store.js:55 | riders start awaiting a location; all other roles start onboarding |
| Users.NewOrder | services/user-store.js:91-97 | a new order is pending payment for the meal, with no transaction and no rider |
| Users.NewUser | services/user-store.js:24-39 | a new user is idle, with no role, order, delivery or location |
| Users.DisplayName | services/user-store.js:199 | the profile name when it is non-empty, otherwise "Customer" |
| Users.Earnings | services/user-store.js:205 | rider earnings are 15 % of the price rounded to the nearest whole unit, and NaN without a price |
| Users.EarningsUnique | services/user-store.js:205 | the rounded earnings are the only integer within half a unit of 15 % of the price |
| Users.EarningsBounded | services/user-store.js:205 | earnings on a non-negative price lie between zero and the price |
| Users.ConstructorAcceptedAsArea | services/user-store.js:64 | the written area check accepts "constructor", which is no area |
| Users.AreaCheckRefines | services/user-store.js:64 | every real area passes the written check, and the two checks agree except on inherited property names |
| Users.GetAreas | services/user-store.js:73-78 | lists every area code with its name, in order, and a code is listed exactly when it is an area |
| Users.Put | services/user-store.js:23-24 | writing a user replaces its row and appends a new phone to the enumeration order |
| Users.Filter | services/user-store.js:297-301 | keeps exactly the rows satisfying the predicate, unchanged |
| Users.LastMatch | services/user-store.js:231-236 | returns the last index whose user matches, or none when nobody matches |
| Users.FirstMatch | services/firestore-user-store.js:272-276 | returns the first index whose user matches, or none when nobody matches |
| Users.DeliveryRecord | services/user-store.js:245-257 | the delivery record carries the order id, buyer, display name, earnings, drop-off and area with status assigned |
| Users.AssignedTo | services/user-store.js:260-261 | the order becomes assigned to the rider and keeps its meal, price and transaction |
| Text.TrimSpec | src/bot/engine.js:105 | trim removes exactly the leading and trailing whitespace |
| Text.TrimLowerCommute | src/bot/riderBot.js:36 | trimming and lower-casing commute |
| Text.Split | src/bot/riderBot.js:37 | split gives at least one piece; no piece holds the separator; joining the pieces gives back the input |
| Text.SplitJoin | src/bot/riderBot.js:37 | splitting a join of separator-free pieces gives back the pieces |
| Text.SplitSpaceLower | src/bot/riderBot.js:36-37 | splitting on spaces commutes with lower-casing |
| Text.ContainsSpec | src/bot/engine.js:108 | `includes` holds exactly when the needle occurs at some position |
| Text.ToLowerIdempotent | src/bot/riderBot.js:36 | lower-casing twice equals lower-casing once |
| Text.Utf16Length | src/bot/engine.js:169 | `length` counts UTF-16 code units: at least one and at most two per code point |
| Text.Utf16LengthAppend | src/bot/engine.js:169 | the length of a concatenation is the sum of the lengths |
| Text.Utf16LengthBmp | src/bot/engine.js:169 | `length` equals the code-point count exactly when no code point lies above U+FFFF |
| Common.Or | src/bot/engine.js:181-182 | `a \|\| b` is truthy exactly when one operand is; it gives a when a is truthy and b otherwise |

## Left out

- Floating point: coordinates are not modelled.
- Users.Earnings: `Math.round(price * 0.15)` is stated over exact rationals. Binary floating-point error near .5 boundaries is not modelled.
- Text: case mapping covers ASCII letters only; other letters keep their case. Whitespace for `trim` is the ECMAScript WhiteSpace and LineTerminator set. `length` counts UTF-16 code units (`Text.Utf16Length`).
- Concurrency: asynchronous interleavings between awaits are not modelled, and neither is lock contention across requests. Each operation is one atomic step on an immutable state.
- RiderService.BookOrder: the three writes are one step. The window in which a booking exists without its payment hold is not modelled. `ConfirmDelivery` models the missing-hold case on its own.
- Listings (`addListing`, `getAllListings`) and the admin listings (`getAllUsers`, `getSellers`, `getRiders`): these are plain reads outside the ordering and booking flow.
- Firestore `cleanupOldSessions`: the in-memory version is modelled. The Firestore one is a batch delete over a query on `lastInteraction`.
- Firestore `getAvailableDeliveries`: its rider argument is never used by the code, so the model has no such parameter.
- Kitchen notification (`notifyKitchen` in `src/bot/engine.js`): writes a `kitchen_notifications` document that nothing in this core reads; a failure is swallowed, so the reply and the modelled state are unaffected.
- Outbound messages: replies are returned as values. Templates and their text are not part of this model.
- `index.js`, `src/bot/templates.js`, `services/roho-messages.js`, `src/bot/riderEngine.js`, `services/firebase-init.js`, `src/config/firebase.js` and `scripts/setup-rider-groups.js` are not part of this model.
- The realtime database rejects a write holding an `undefined` value: the write throws and the session store's catch swallows it. Every session write the model makes holds defined values only; the one path that would write `undefined` is the prototype lookup under Engine.MealTable.
- Engine.MealTable: the meal table is a plain object, so at `src/bot/engine.js:142` a prototype name such as `constructor` also finds a value (a function with a `name` but no `id` or `price`). The model resolves only the six listed keys. As written, that message would try to merge `undefined` fields into the session (rejected and swallowed) and still move the step to CONFIRM_ORDER without a stored meal.
- Engine.FoodSelectionEffect: at SELECTING_FOOD a prototype name such as `constructor` or `__proto__` re-shows the menu in the model, while the source answers with the confirm prompt and moves to CONFIRM_ORDER; see Engine.MealTable.
- Engine.StepFollowsDiagram: the diagram keeps SELECTING_FOOD on a prototype name, while the source moves to CONFIRM_ORDER; see Engine.MealTable.
- Engine.WellFormedAfterFoodSelection: holds for the modelled lookup only; the prototype-name path under Engine.MealTable would leave a CONFIRM_ORDER session without a meal.
- Engine.HandleMessagePreservesWellFormed: holds for the modelled lookup only, for the same reason as Engine.WellFormedAfterFoodSelection.
- RiderBot.DispatchPreservesCoupling: stated for the corrected pickup. With the pickup as written, coupling fails (RiderBot.PickupAfterDeliveryAsWritten).
- MemoryUserStore.SetState: the patch covers role, state, current order, current delivery, preferred area and location. A patch of `phone`, `profile`, `lastInteraction`, `createdAt` or any other property is not modelled; no caller in the repository passes a patch.
- FirestoreUserStore.SetState: the same patch fields as MemoryUserStore.SetState.
- FirestoreUserStore.BookOrder: the buyer chosen is the first match in the table's enumeration order. This stands in for the document-id order an unordered query returns; the model does not compute document ids. A document without a `profile` object would throw when `profile.name` is read; every user the model creates has one. The refusal text for an `undefined` value is only the start of the client library's message.
- FirestoreUserStore.FirstMatchIsFirstBookable: "first" is in the table's enumeration order, which stands in for document-id order (see FirestoreUserStore.BookOrder).
- FirestoreUserStore.BookingEffect: "first" is in the table's enumeration order, which stands in for document-id order (see FirestoreUserStore.BookOrder).
- Session availability: one flag per message says whether the session database is reachable. A database failing part-way through a message is not modelled.
- Firestore `NOT_FOUND` on `update`: modelled as the `NoDocument` error.
- Conversation steps are a datatype. Step names the code never sets are `Other(name)`.
- Session timestamps (`createdAt`, `lastUpdated`): not stored.
- SessionStore.Stored: the database drops `null` and empty objects only at the top level of the session data. A nested object that holds nothing but such values would also be dropped by the database; no caller writes one.
- Document paths: ids that pass the client's path check but hold a slash (a padded `/ORD-1`, which the client resolves to `ORD-1`, or a nested `a/b/c`) are looked up by the model as the literal key, so they fail as missing documents. RiderService.BookOrder, RiderService.GetPaymentStatus, RiderBot.HandleBookOrder, RiderBot.HandlePickup, RiderBot.HandleDeliveryConfirm and RiderBot.CheckPaymentStatus inherit this.
- RiderService.ConfirmPickupAsWritten: a booking id with a slash that the client still resolves to a document (such as `/BOOK-1`) is looked up as the literal key; see "Document paths".
- RiderService.ConfirmPickup: the same literal-key lookup of slash-holding booking ids; see "Document paths".
- RiderService.ConfirmDelivery: the same literal-key lookup of slash-holding booking ids; see "Document paths".
- RiderService.AddToRiderQueue: the path check is not modelled for it. Its id is the generated `ORD-…` id, which the check always accepts. The same holds for the rider registry lookup by phone and for the user stores' documents keyed by phone.
- RiderBot.HandleRiderCommand: the outer catch that answers "Error processing command. Try again." is not modelled, since no modelled operation throws.

## Findings

| source | as written | input that shows it | evidently intended | confidence | as-written member | corrected member |
|---|---|---|---|---|---|---|
| src/bot/riderBot.js:36-50 | the whole command is lower-cased before splitting, so the order or booking id loses its case | `book ORD-1` while `ORD-1` is pending: the lookup uses `ord-1` and fails | lower-case only the action word and keep the id as typed | not executed | RiderBot.HandleRiderCommandAsWritten, RiderBot.BookUppercaseId | RiderBot.HandleRiderCommand, RiderBot.ParseAgreesUpToIdCase |
| src/services/riderService.js:133-147 | `confirmPickup` sets `in_transit` without checking the booking's current status | `confirmPickup("BOOK-1")` after `confirmDelivery("BOOK-1")`: the booking returns to `in_transit` while its payment stays released | pickup only from status `booked`, so booking status never regresses and released matches delivered | not executed | RiderService.ConfirmPickupAsWritten, RiderService.PickupAfterDeliveryBreaksCoupling, RiderBot.PickupAfterDeliveryAsWritten | RiderService.ConfirmPickup, RiderService.PickupPreservesCoupling, RiderBot.DispatchPreservesCoupling |
| services/user-store.js:64 | the area check `!this.areas[areaCode]` follows the object's prototype chain | `setRiderArea(phone, "constructor")`: the code is accepted and stored as the rider's area | accept only the listed area codes | not executed | Users.ConstructorAcceptedAsArea, MemoryUserStore.SetRiderAreaAsWritten, MemoryUserStore.ConstructorStoredAsArea | Users.AreaCheckRefines, MemoryUserStore.SetRiderArea, MemoryUserStore.SetRiderAreaKeepsAreasKnown |
| services/firestore-user-store.js:143 | the same prototype-chain area check in the Firestore store | `setRiderArea(phone, "constructor")` for a known user: the code is accepted and stored as the rider's area | accept only the listed area codes | not executed | FirestoreUserStore.SetRiderAreaAsWritten, FirestoreUserStore.ConstructorStoredAsArea | FirestoreUserStore.SetRiderArea, FirestoreUserStore.SetRiderAreaKeepsAreasKnown |

=== FILE: common.dfy ===
/**
 Shared vocabulary of the model: optional values, results of operations that
 can fail with a message (the source's thrown `Error`s and `{success:false,
 reason}` objects), and the dynamically typed values that the bot keeps in its
 session data and copies into order documents.
 */
module Common {

  datatype Option<T> = None | Some(value: T) {
    function GetOr(default: T): T {
      match this
      case Some(v) => v
      case None => default
    }
  }

  /** An operation that either yields a value or fails with the message of the
      error the source throws or returns. */
  datatype Result<T> = Ok(value: T) | Err(message: string)

  /** A JavaScript value as it is stored in a session or a document.
      `VUndefined` stands for a missing property; `VNaN` for the number NaN. */
  datatype Value =
    | VUndefined
    | VNull
    | VBool(b: bool)
    | VNum(n: int)
    | VNaN
    | VStr(s: string)
    | VObj(fields: map<string, Value>)

  /** Milliseconds since the epoch; the source stores dates or ISO strings of
      the same instant. */
  type Timestamp = int

  /** The message of the error the document store raises on `update` of a
      document that does not exist. */
  const NoDocument := "No document to update"

  /** A plain JavaScript object: property name to value. */
  type Record = map<string, Value>

  /** Property read `obj.key`: a missing key reads as undefined. */
  function Get(obj: Record, key: string): (v: Value)
    ensures key in obj ==> v == obj[key]
    ensures key !in obj ==> v == VUndefined
  {
    if key in obj then obj[key] else VUndefined
  }

  /** JavaScript truthiness. */
  predicate Truthy(v: Value) {
    match v
    case VUndefined => false
    case VNull => false
    case VBool(b) => b
    case VNum(n) => n != 0
    case VNaN => false
    case VStr(s) => |s| > 0
    case VObj(_) => true
  }

  /** The expression `v || default`: truthy exactly when one operand is; the
      first operand when it is truthy, the second otherwise. */
  function Or(v: Value, default: Value): (r: Value)
    ensures Truthy(r) <==> Truthy(v) || Truthy(default)
    ensures Truthy(v) ==> r == v
    ensures !Truthy(v) ==> r == default
  {
    if Truthy(v) then v else default
  }
}

=== FILE: engine.dfy ===
/**
 The customer conversation: a state machine over the session step
 WELCOME -> SELECTING_FOOD -> CONFIRM_ORDER -> PAYMENT -> ORDER_COMPLETE,
 with promo codes accepted at any step. Each incoming message is one
 transition of the world: the session store, the `orders` collection and the
 rider service's collections.

 The generated order id, the clock, whether the session database answers, and
 whether an order write fails for a reason outside the model are parameters.
 */
module Engine {
  import opened Common
  import opened Text
  import opened SessionStore
  import RiderService

  /** A document of the `orders` collection. */
  datatype OrderDoc = OrderDoc(
    orderId: string,
    phone: string,
    mealName: Value,
    mealId: Value,
    location: Value,
    price: Value,
    promoCode: Value,
    freeDelivery: Value,
    status: string,
    createdAt: Timestamp)

  datatype World = World(
    sessions: Sessions,
    orders: map<string, OrderDoc>,
    rider: RiderService.RiderDb)

  /** A failure of an order write that the model does not explain. */
  datatype OrderFault = NoFault | OrdersWriteFails | QueueWriteFails

  datatype Env = Env(now: Timestamp, orderId: string, sessionsUp: bool, fault: OrderFault)

  /** The messages the bot answers with (the template each names). */
  datatype Reply =
    | WelcomeButtons
    | MenuList
    | ConfirmOrderPrompt(meal: string, cost: int)
    | PaymentPrompt(mealText: Value, priceText: Value)
    | OrderConfirmation(orderId: string, mealLabel: Value, locationLabel: Value, priceLabel: Value)
    | Text(text: string)
    | PromoApplied(code: string)
    | GenericError

  const AccountSoon := "Your account info coming soon. For now, let's order lunch.\n\nReply: 1 to Order Lunch"
  const InvalidLocation := "Please enter a valid office building or location."
  const Cancelled := "Order cancelled. Ready for lunch? Reply: 1 to Order Lunch"

  /** The message of the document store when a document holds an undefined field. */
  const UndefinedField := "Cannot use \"undefined\" as a Firestore value"
  const WriteFailed := "Write failed"

  const DefaultPrice := 320

  // ---------------------------------------------------------------------------
  // Reading the input

  const Promos: set<string> := {"britam_grp", "roho_free", "nairobitech"}

  /** `isPromoCode`: the trimmed, lower-cased message is a known code. */
  predicate IsPromoCode(message: string) {
    Action(message) in Promos
  }

  /** The code test ignores case: the message as typed, lower-cased or
      upper-cased (the form `applyPromo` stores) is a code alike. */
  lemma PromoCodeIgnoresCase(message: string)
    ensures IsPromoCode(ToLower(message)) <==> IsPromoCode(message)
    ensures IsPromoCode(ToUpper(message)) <==> IsPromoCode(message)
  {
    ToLowerIdempotent(message);
    ToLowerAfterUpper(message);
  }

  predicate WantsOrder(action: string) {
    action == "1" || Contains(action, "order")
  }

  predicate WantsAccount(action: string) {
    action == "2" || Contains(action, "account")
  }

  predicate WantsConfirm(action: string) {
    action == "confirm" || action == "✅" || Contains(action, "confirm")
  }

  predicate WantsCancel(action: string) {
    action == "cancel" || action == "❌" || Contains(action, "cancel")
  }

  datatype Meal = Meal(id: string, name: string, price: int)

  const BeefMukimo := Meal("meal_beef_mukimo", "Beef & Mukimo", 320)
  const Chicken := Meal("meal_chicken", "Kienyeji Chicken", 320)
  const VeganBowl := Meal("meal_vegan", "Vegan Bowl", 320)

  const MealKeys: set<string> := {"1", "2", "3", "meal_beef_mukimo", "meal_chicken", "meal_vegan"}

  /** The meal table: a menu number or a meal id selects a meal. */
  function MealFor(input: string): Option<Meal> {
    if input == "1" || input == "meal_beef_mukimo" then Some(BeefMukimo)
    else if input == "2" || input == "meal_chicken" then Some(Chicken)
    else if input == "3" || input == "meal_vegan" then Some(VeganBowl)
    else None
  }

  /** Exactly the six keys of the table select a meal; every meal costs 320,
      and selecting by id picks the meal with that id. */
  lemma MealTable(input: string)
    ensures MealFor(input).Some? <==> input in MealKeys
    ensures MealFor(input).Some? ==> MealFor(input).value in {BeefMukimo, Chicken, VeganBowl} && MealFor(input).value.price == 320
    ensures MealFor(input).Some? ==> |MealFor(input).value.name| > 0
    ensures MealFor(input).Some? && input in {"meal_beef_mukimo", "meal_chicken", "meal_vegan"} ==> MealFor(input).value.id == input
  {
  }

  /** Selecting by number and by id picks the same meal. */
  lemma MenuNumbersMatchIds()
    ensures MealFor("1") == MealFor(BeefMukimo.id) == Some(BeefMukimo)
    ensures MealFor("2") == MealFor(Chicken.id) == Some(Chicken)
    ensures MealFor("3") == MealFor(VeganBowl.id) == Some(VeganBowl)
  {
  }

  // ---------------------------------------------------------------------------
  // Session data

  /** The session data a chosen meal leaves behind. */
  ghost predicate MealChosen(d: Record) {
    && Get(d, "selectedMeal").VStr?
    && Get(d, "mealName").VStr? && |Get(d, "mealName").s| > 0
    && Get(d, "price").VNum? && Get(d, "price").n > 0
  }

  /** The session data an accepted location leaves behind. */
  ghost predicate LocationGiven(d: Record) {
    Get(d, "location").VStr? && Utf16Length(Get(d, "location").s) >= 3
  }

  /** A session holds the data its step relies on: from CONFIRM_ORDER on, a
      meal; from PAYMENT on, a location too. */
  ghost predicate WellFormed(s: Session) {
    var d := s.data.GetOr(map[]);
    && (s.step == Some(ConfirmOrder) ==> MealChosen(d))
    && (s.step == Some(Payment) || s.step == Some(OrderComplete) ==> MealChosen(d) && LocationGiven(d))
  }

  ghost predicate AllWellFormed(db: Sessions) {
    forall p :: p in db ==> WellFormed(db[p])
  }

  // ---------------------------------------------------------------------------
  // Orders

  /** The order document `createOrder` builds from the session data. */
  function OrderFor(phone: string, d: Record, env: Env): (o: OrderDoc)
    ensures o.orderId == env.orderId && o.phone == phone && o.status == "pending_booking"
    ensures o.mealName == Get(d, "mealName") && o.mealId == Get(d, "selectedMeal")
    ensures o.location == Get(d, "location") && o.price == Get(d, "price")
    ensures o.promoCode == Or(Get(d, "promoCode"), VNull)
    ensures o.freeDelivery == Or(Get(d, "freeDelivery"), VBool(false))
  {
    OrderDoc(env.orderId, phone, Get(d, "mealName"), Get(d, "selectedMeal"), Get(d, "location"), Get(d, "price"),
             Or(Get(d, "promoCode"), VNull), Or(Get(d, "freeDelivery"), VBool(false)), "pending_booking", env.now)
  }

  /** Some field of the order is undefined, which the document store rejects. */
  predicate HasUndefined(o: OrderDoc) {
    o.mealName == VUndefined || o.mealId == VUndefined || o.location == VUndefined || o.price == VUndefined
  }

  /** `createOrder`: writes the order under the generated id, then queues it
      for riders under the same id. A failed write is an error; a failed
      queue write leaves the order written. */
  function CreateOrder(w: World, phone: string, env: Env): (out: (World, Result<string>))
    ensures out.0.sessions == w.sessions
    ensures out.1.Ok? <==> env.fault == NoFault && !HasUndefined(OrderFor(phone, GetSessionData(w.sessions, phone, env.sessionsUp), env))
    ensures out.1.Ok? ==>
              && out.1.value == env.orderId
              && out.0.orders == w.orders[env.orderId := OrderFor(phone, GetSessionData(w.sessions, phone, env.sessionsUp), env)]
              && env.orderId in RiderService.GetPendingOrders(out.0.rider)
              && out.0.rider.queue[env.orderId].customerPhone == phone
              && out.0.rider.bookings == w.rider.bookings && out.0.rider.payments == w.rider.payments
    ensures out.1.Err? && env.fault != QueueWriteFails ==> out.0 == w
  {
    var o := OrderFor(phone, GetSessionData(w.sessions, phone, env.sessionsUp), env);
    if env.fault == OrdersWriteFails then (w, Err(WriteFailed))
    else if HasUndefined(o) then (w, Err(UndefinedField))
    else
      var w1 := w.(orders := w.orders[env.orderId := o]);
      if env.fault == QueueWriteFails then (w1, Err(WriteFailed))
      else
        var d := RiderService.OrderData(phone, o.mealName, o.location, o.price);
        assert env.fault == NoFault;
        assert !HasUndefined(o);
        (w1.(rider := RiderService.AddToRiderQueue(w1.rider, env.orderId, d, env.now)), Ok(env.orderId))
  }

  /** The queue entry carries the order's own meal, location and price. */
  lemma QueueEntryMatchesOrder(w: World, phone: string, env: Env)
    requires CreateOrder(w, phone, env).1.Ok?
    ensures var w' := CreateOrder(w, phone, env).0;
            && w'.rider.queue[env.orderId].mealName == w'.orders[env.orderId].mealName
            && w'.rider.queue[env.orderId].location == w'.orders[env.orderId].location
            && w'.rider.queue[env.orderId].price == w'.orders[env.orderId].price
            && w'.orders[env.orderId].status == "pending_booking"
  {
  }

  // ---------------------------------------------------------------------------
  // The step handlers

  /** The step and the data a phone's session reads as. */
  function StepOf(db: Sessions, phone: string): Option<Step> {
    GetUserState(db, phone, true).step
  }

  function DataOf(db: Sessions, phone: string): Record {
    GetSessionData(db, phone, true)
  }

  /** What a handler reads from the message: lower-cased and trimmed. */
  function Action(message: string): string {
    Trim(ToLower(message))
  }

  /** The session data a promo code adds: the code upper-cased as typed (not
      trimmed) and free delivery. */
  function PromoData(message: string): Record {
    map["promoCode" := VStr(ToUpper(message)), "freeDelivery" := VBool(true)]
  }

  /** `applyPromo`: merges the promo data into the session. */
  function ApplyPromo(db: Sessions, phone: string, message: string, up: bool): (db': Sessions)
    ensures !up ==> db' == db
    ensures OthersUnchanged(db, db', phone)
  {
    MergeSessionData(db, phone, PromoData(message), up)
  }

  /** A promo code adds its data to the session and leaves the step as it was;
      a phone without a session gets a session with no step. */
  lemma PromoEffect(db: Sessions, phone: string, message: string)
    ensures var db' := ApplyPromo(db, phone, message, true);
            && DataOf(db', phone) == Stored(DataOf(db, phone) + PromoData(message))
            && phone in db'
            && db'[phone].step == (if phone in db then db[phone].step else None)
  {
    assert "freeDelivery" in Stored(PromoData(message));
  }

  /** WELCOME: "1" or anything mentioning "order" opens the menu with an empty
      cart; "2" or "account" answers with the account text; the rest shows
      the welcome buttons again. */
  function HandleWelcome(w: World, phone: string, message: string, up: bool): (out: (World, Reply))
    ensures out.0.orders == w.orders && out.0.rider == w.rider
  {
    var action := Action(message);
    if WantsOrder(action) then
      (w.(sessions := UpdateUserState(w.sessions, phone, SelectingFood, map["cart" := VObj(map[])], up)), MenuList)
    else if WantsAccount(action) then (w, Text(AccountSoon))
    else (w, WelcomeButtons)
  }

  /** "order" is tested first; only it changes the session. */
  lemma WelcomeEffect(w: World, phone: string, message: string, up: bool)
    ensures var out := HandleWelcome(w, phone, message, up);
            && OthersUnchanged(w.sessions, out.0.sessions, phone)
            && (!up || !WantsOrder(Action(message)) ==> out.0.sessions == w.sessions)
            && (up && WantsOrder(Action(message)) ==>
                  StepOf(out.0.sessions, phone) == Some(SelectingFood) && DataOf(out.0.sessions, phone) == map[])
            && (WantsOrder(Action(message)) <==> out.1 == MenuList)
            && (!WantsOrder(Action(message)) && WantsAccount(Action(message)) ==> out.1 == Text(AccountSoon))
            && (!WantsOrder(Action(message)) && !WantsAccount(Action(message)) ==> out.1 == WelcomeButtons)
  {
  }

  /** The session data a meal selection adds. */
  function MealData(meal: Meal): Record {
    map["selectedMeal" := VStr(meal.id), "mealName" := VStr(meal.name), "price" := VNum(meal.price)]
  }

  /** SELECTING_FOOD: a key of the meal table stores the meal and moves to
      CONFIRM_ORDER; anything else shows the menu again. */
  function HandleFoodSelection(w: World, phone: string, message: string, up: bool): (out: (World, Reply))
    ensures out.0.orders == w.orders && out.0.rider == w.rider
  {
    var m := MealFor(Action(message));
    if m.None? then (w, MenuList)
    else
      var meal := m.value;
      var db1 := MergeSessionData(w.sessions, phone, MealData(meal), up);
      (w.(sessions := UpdateUserState(db1, phone, ConfirmOrder, map[], up)), ConfirmOrderPrompt(meal.name, meal.price))
  }

  /** A selection stores the meal and moves on; anything else changes nothing. */
  lemma FoodSelectionEffect(w: World, phone: string, message: string, up: bool)
    ensures var out := HandleFoodSelection(w, phone, message, up);
            var m := MealFor(Action(message));
            && OthersUnchanged(w.sessions, out.0.sessions, phone)
            && (!up || m.None? ==> out.0.sessions == w.sessions)
            && (up && m.Some? ==>
                  && StepOf(out.0.sessions, phone) == Some(ConfirmOrder)
                  && DataOf(out.0.sessions, phone) == Stored(DataOf(w.sessions, phone) + MealData(m.value)))
            && (m.None? <==> out.1 == MenuList)
            && (m.Some? ==> out.1 == ConfirmOrderPrompt(m.value.name, m.value.price))
  {
    var m := MealFor(Action(message));
    if m.Some? {
      MergeThenStep(w.sessions, phone, MealData(m.value), ConfirmOrder);
    }
  }

  /** The payment prompt built from the session data. */
  function PromptFrom(d: Record): Reply {
    PaymentPrompt(Or(Get(d, "mealName"), VStr("Your meal")), Or(Get(d, "price"), VNum(DefaultPrice)))
  }

  /** The session data an accepted location adds. */
  function LocationData(location: string): Record {
    map["location" := VStr(location)]
  }

  /** CONFIRM_ORDER: a trimmed location at least three UTF-16 code units long
      (JavaScript's `length`) is stored and the step moves to PAYMENT; a
      shorter one is refused. */
  function HandleConfirmOrder(w: World, phone: string, message: string, up: bool): (out: (World, Reply))
    ensures out.0.orders == w.orders && out.0.rider == w.rider
  {
    var location := Trim(message);
    if Utf16Length(location) < 3 then (w, Text(InvalidLocation))
    else
      var db1 := MergeSessionData(w.sessions, phone, LocationData(location), up);
      var db2 := UpdateUserState(db1, phone, Payment, map[], up);
      (w.(sessions := db2), PromptFrom(GetSessionData(db2, phone, up)))
  }

  /** A location at least three UTF-16 code units long is stored and the step moves to
      PAYMENT; a shorter one changes nothing. */
  lemma ConfirmOrderEffect(w: World, phone: string, message: string, up: bool)
    ensures var out := HandleConfirmOrder(w, phone, message, up);
            && OthersUnchanged(w.sessions, out.0.sessions, phone)
            && (!up || Utf16Length(Trim(message)) < 3 ==> out.0.sessions == w.sessions)
            && (up && Utf16Length(Trim(message)) >= 3 ==>
                  && StepOf(out.0.sessions, phone) == Some(Payment)
                  && DataOf(out.0.sessions, phone) == Stored(DataOf(w.sessions, phone) + LocationData(Trim(message)))
                  && out.1 == PromptFrom(Stored(DataOf(w.sessions, phone) + LocationData(Trim(message)))))
            && (Utf16Length(Trim(message)) < 3 <==> out.1 == Text(InvalidLocation))
  {
    if Utf16Length(Trim(message)) >= 3 {
      MergeThenStep(w.sessions, phone, LocationData(Trim(message)), Payment);
    }
  }

  /** The confirmation the customer gets for a created order. */
  function ConfirmationFrom(orderId: string, d: Record): Reply {
    OrderConfirmation(orderId, Or(Get(d, "mealName"), VStr("Your meal")),
                      Or(Get(d, "location"), VStr("Your location")), Or(Get(d, "price"), VNum(DefaultPrice)))
  }

  /** PAYMENT: a confirmation (tested before a cancellation) creates the order
      and moves to ORDER_COMPLETE; a cancellation goes back to WELCOME;
      anything else repeats the prompt. */
  function HandlePayment(w: World, phone: string, message: string, env: Env): (out: (World, Reply))
    ensures !WantsConfirm(Action(message)) ==> out.0.orders == w.orders && out.0.rider == w.rider
    ensures WantsConfirm(Action(message)) ==> out.1 != Text(Cancelled)
    ensures !WantsConfirm(Action(message)) && WantsCancel(Action(message)) ==>
              out.1 == Text(Cancelled) && (env.sessionsUp ==> StepOf(out.0.sessions, phone) == Some(Welcome))
    ensures !WantsConfirm(Action(message)) && !WantsCancel(Action(message)) ==> out.0 == w
    ensures OthersUnchanged(w.sessions, out.0.sessions, phone)
  {
    var up := env.sessionsUp;
    var action := Action(message);
    if WantsConfirm(action) then
      var (w1, r) := CreateOrder(w, phone, env);
      if r.Err? then (w1, GenericError)
      else
        var db2 := UpdateUserState(w1.sessions, phone, OrderComplete, map[], up);
        (w1.(sessions := db2), ConfirmationFrom(r.value, GetSessionData(db2, phone, up)))
    else if WantsCancel(action) then
      (w.(sessions := UpdateUserState(w.sessions, phone, Welcome, map[], up)), Text(Cancelled))
    else (w, PromptFrom(GetSessionData(w.sessions, phone, up)))
  }

  /** A confirmation: a failed order write is answered with the generic error
      and leaves the sessions alone; otherwise the written order is confirmed
      and the session moves to ORDER_COMPLETE with its data kept. */
  lemma PaymentConfirmEffect(w: World, phone: string, message: string, env: Env)
    requires WantsConfirm(Action(message))
    ensures var out := HandlePayment(w, phone, message, env);
            var c := CreateOrder(w, phone, env);
            && OthersUnchanged(w.sessions, out.0.sessions, phone)
            && out.0.orders == c.0.orders && out.0.rider == c.0.rider
            && (out.1 == GenericError <==> c.1.Err?)
            && (c.1.Err? || !env.sessionsUp ==> out.0.sessions == w.sessions)
            && (env.sessionsUp && c.1.Ok? ==>
                  && StepOf(out.0.sessions, phone) == Some(OrderComplete)
                  && DataOf(out.0.sessions, phone) == DataOf(w.sessions, phone)
                  && out.1 == ConfirmationFrom(env.orderId, DataOf(w.sessions, phone)))
  {
  }

  /** A cancellation goes back to WELCOME with the data kept; any other input
      changes nothing and repeats the prompt. */
  lemma PaymentOtherEffect(w: World, phone: string, message: string, env: Env)
    requires !WantsConfirm(Action(message))
    ensures var out := HandlePayment(w, phone, message, env);
            && OthersUnchanged(w.sessions, out.0.sessions, phone)
            && out.0.orders == w.orders && out.0.rider == w.rider
            && (WantsCancel(Action(message)) ==> out.1 == Text(Cancelled))
            && (WantsCancel(Action(message)) && env.sessionsUp ==>
                  StepOf(out.0.sessions, phone) == Some(Welcome) && DataOf(out.0.sessions, phone) == DataOf(w.sessions, phone))
            && (!WantsCancel(Action(message)) || !env.sessionsUp ==> out.0.sessions == w.sessions)
            && (!WantsCancel(Action(message)) ==> out.1 == PromptFrom(GetSessionData(w.sessions, phone, env.sessionsUp)))
  {
  }

  /** `handleMessage`: promo codes first, then the handler of the current step;
      ORDER_COMPLETE, a missing step and any unknown step go back to WELCOME.
      The only error that reaches the outer handler is a failed order write,
      answered with the generic error message. */
  function HandleMessage(w: World, phone: string, message: string, env: Env): (out: (World, Reply))
    ensures IsPromoCode(message) ==>
              && out.1 == PromoApplied(message)
              && out.0.orders == w.orders && out.0.rider == w.rider
    ensures !IsPromoCode(message) && GetUserState(w.sessions, phone, env.sessionsUp).step !in
              {Some(Welcome), Some(SelectingFood), Some(ConfirmOrder), Some(Payment)} ==>
              && out.1 == WelcomeButtons
              && out.0.orders == w.orders && out.0.rider == w.rider
  {
    var up := env.sessionsUp;
    var step := GetUserState(w.sessions, phone, up).step;
    if IsPromoCode(message) then
      (w.(sessions := ApplyPromo(w.sessions, phone, message, up)), PromoApplied(message))
    else if step == Some(Welcome) then HandleWelcome(w, phone, message, up)
    else if step == Some(SelectingFood) then HandleFoodSelection(w, phone, message, up)
    else if step == Some(ConfirmOrder) then HandleConfirmOrder(w, phone, message, up)
    else if step == Some(Payment) then HandlePayment(w, phone, message, env)
    else (w.(sessions := UpdateUserState(w.sessions, phone, Welcome, map[], up)), WelcomeButtons)
  }

  /** The handler a message goes to. */
  lemma Dispatch(w: World, phone: string, message: string, env: Env)
    ensures var step := GetUserState(w.sessions, phone, env.sessionsUp).step;
            var out := HandleMessage(w, phone, message, env);
            && (IsPromoCode(message) ==>
                  out == (w.(sessions := ApplyPromo(w.sessions, phone, message, env.sessionsUp)), PromoApplied(message)))
            && (!IsPromoCode(message) && step == Some(Welcome) ==> out == HandleWelcome(w, phone, message, env.sessionsUp))
            && (!IsPromoCode(message) && step == Some(SelectingFood) ==> out == HandleFoodSelection(w, phone, message, env.sessionsUp))
            && (!IsPromoCode(message) && step == Some(ConfirmOrder) ==> out == HandleConfirmOrder(w, phone, message, env.sessionsUp))
            && (!IsPromoCode(message) && step == Some(Payment) ==> out == HandlePayment(w, phone, message, env))
  {
  }

  /** ORDER_COMPLETE, a session without a step and any unknown step answer
      with the welcome buttons and reset the step to WELCOME. */
  lemma OtherStepsWelcome(w: World, phone: string, message: string, env: Env)
    requires !IsPromoCode(message)
    requires GetUserState(w.sessions, phone, env.sessionsUp).step !in
               {Some(Welcome), Some(SelectingFood), Some(ConfirmOrder), Some(Payment)}
    ensures var out := HandleMessage(w, phone, message, env);
            && out.1 == WelcomeButtons
            && out.0.orders == w.orders && out.0.rider == w.rider
            && (env.sessionsUp ==> StepOf(out.0.sessions, phone) == Some(Welcome))
            && OthersUnchanged(w.sessions, out.0.sessions, phone)
  {
  }

  /** A message changes no other phone's session, touches the orders and the
      rider queue only at PAYMENT, and answers with the generic error only when
      the order write at PAYMENT failed, in which case no session changes. */
  lemma {:induction false} MessageEffect(w: World, phone: string, message: string, env: Env)
    ensures var out := HandleMessage(w, phone, message, env);
            var step := GetUserState(w.sessions, phone, env.sessionsUp).step;
            && OthersUnchanged(w.sessions, out.0.sessions, phone)
            && (out.0.orders != w.orders || out.0.rider != w.rider ==> !IsPromoCode(message) && step == Some(Payment))
            && (out.1 == GenericError ==>
                  && out.0.sessions == w.sessions
                  && !IsPromoCode(message) && step == Some(Payment)
                  && CreateOrder(w, phone, env).1.Err?)
  {
    var up := env.sessionsUp;
    var step := GetUserState(w.sessions, phone, up).step;
    Dispatch(w, phone, message, env);
    if IsPromoCode(message) {
    } else if step == Some(Welcome) {
      WelcomeEffect(w, phone, message, up);
    } else if step == Some(SelectingFood) {
      FoodSelectionEffect(w, phone, message, up);
    } else if step == Some(ConfirmOrder) {
      ConfirmOrderEffect(w, phone, message, up);
    } else if step == Some(Payment) {
      if WantsConfirm(Action(message)) {
        PaymentConfirmEffect(w, phone, message, env);
      } else {
        PaymentOtherEffect(w, phone, message, env);
      }
    } else {
      OtherStepsWelcome(w, phone, message, env);
    }
  }

  /** A location of at least three UTF-16 code units is accepted at order
      confirmation and moves the conversation to payment. */
  lemma LongLocationAccepted(w: World, phone: string, message: string)
    requires Utf16Length(Trim(message)) >= 3
    ensures HandleConfirmOrder(w, phone, message, true).1 != Text(InvalidLocation)
    ensures NextStep(Some(ConfirmOrder), message) == Some(Payment)
  {
    ConfirmOrderEffect(w, phone, message, true);
  }

  /** Two office-building emoji are two code points but four UTF-16 code
      units, so they pass the length check as a location. */
  lemma TwoEmojiLocationAccepted(w: World, phone: string)
    ensures Utf16Length(Trim("\U{1F3E2}\U{1F3E2}")) == 4
    ensures HandleConfirmOrder(w, phone, "\U{1F3E2}\U{1F3E2}", true).1 != Text(InvalidLocation)
    ensures NextStep(Some(ConfirmOrder), "\U{1F3E2}\U{1F3E2}") == Some(Payment)
  {
    var c := '\U{1F3E2}';
    var m := [c, c];
    assert Utf16Length(Trim(m)) == 4 by {
      assert !IsSpace(c);
      assert SkipSpace(m, 0) == 0;
      assert SkipSpaceBack(m, 0, 2) == 2;
      assert Trim(m) == m;
      assert m[1..] == [c] && [c][1..] == [];
    }
    LongLocationAccepted(w, phone, m);
  }

  // ---------------------------------------------------------------------------
  // The documented step diagram and the properties of a transition

  /** The step diagram: the step a (non-promo) message leads to. */
  function NextStep(step: Option<Step>, message: string): Option<Step> {
    var action := Action(message);
    if step == Some(Welcome) then (if WantsOrder(action) then Some(SelectingFood) else step)
    else if step == Some(SelectingFood) then (if MealFor(action).Some? then Some(ConfirmOrder) else step)
    else if step == Some(ConfirmOrder) then (if Utf16Length(Trim(message)) >= 3 then Some(Payment) else step)
    else if step == Some(Payment) then
      (if WantsConfirm(action) then Some(OrderComplete) else if WantsCancel(action) then Some(Welcome) else step)
    else Some(Welcome)
  }

  /** A confirmation from a well-formed PAYMENT session never trips over an
      undefined field: the order is created and queued. */
  lemma PaymentConfirmSucceeds(w: World, phone: string, env: Env)
    requires env.sessionsUp && env.fault == NoFault
    requires GetUserState(w.sessions, phone, true).step == Some(Payment)
    requires WellFormed(GetUserState(w.sessions, phone, true))
    ensures CreateOrder(w, phone, env).1 == Ok(env.orderId)
  {
    var d := GetSessionData(w.sessions, phone, true);
    assert MealChosen(d) && LocationGiven(d);
  }

  /** With the session store answering and no write failing, a message that
      is not a promo code moves a well-formed session exactly as the step
      diagram says. */
  lemma {:induction false} StepFollowsDiagram(w: World, phone: string, message: string, env: Env)
    requires env.sessionsUp && env.fault == NoFault
    requires WellFormed(GetUserState(w.sessions, phone, true))
    requires !IsPromoCode(message)
    ensures StepOf(HandleMessage(w, phone, message, env).0.sessions, phone) == NextStep(StepOf(w.sessions, phone), message)
  {
    var step := StepOf(w.sessions, phone);
    Dispatch(w, phone, message, env);
    if step == Some(Welcome) {
      WelcomeEffect(w, phone, message, true);
    } else if step == Some(SelectingFood) {
      FoodSelectionEffect(w, phone, message, true);
    } else if step == Some(ConfirmOrder) {
      ConfirmOrderEffect(w, phone, message, true);
    } else if step == Some(Payment) {
      if WantsConfirm(Action(message)) {
        PaymentConfirmSucceeds(w, phone, env);
        PaymentConfirmEffect(w, phone, message, env);
      } else {
        PaymentOtherEffect(w, phone, message, env);
      }
    } else {
      OtherStepsWelcome(w, phone, message, env);
    }
  }

  /** A promo code changes no step: a known session keeps its step, and it
      adds the code and free delivery to the session data. */
  lemma PromoKeepsStep(w: World, phone: string, message: string, env: Env)
    requires env.sessionsUp
    requires IsPromoCode(message)
    requires phone in w.sessions
    ensures var out := HandleMessage(w, phone, message, env);
            && StepOf(out.0.sessions, phone) == StepOf(w.sessions, phone)
            && Get(DataOf(out.0.sessions, phone), "promoCode") == VStr(ToUpper(message))
            && Get(DataOf(out.0.sessions, phone), "freeDelivery") == VBool(true)
            && out.0.orders == w.orders && out.0.rider == w.rider
            && out.1 == PromoApplied(message)
  {
    Dispatch(w, phone, message, env);
    PromoEffect(w.sessions, phone, message);
    var d := DataOf(w.sessions, phone);
    GetMerged(d, PromoData(message), "promoCode");
    GetMerged(d, PromoData(message), "freeDelivery");
    GetStored(d + PromoData(message), "promoCode");
    GetStored(d + PromoData(message), "freeDelivery");
  }

  /** A promo code from a phone without a session creates a session holding
      data but no step. */
  lemma PromoOnNewSessionLeavesNoStep(w: World, phone: string, message: string, env: Env)
    requires env.sessionsUp
    requires IsPromoCode(message)
    requires phone !in w.sessions
    ensures var w' := HandleMessage(w, phone, message, env).0;
            phone in w'.sessions && StepOf(w'.sessions, phone) == None
  {
    Dispatch(w, phone, message, env);
    PromoEffect(w.sessions, phone, message);
  }

  /** So the message after such a promo code is answered as from an unknown
      step: with the welcome buttons, whatever it says. */
  lemma AfterNewSessionPromo(w: World, phone: string, message: string, env: Env, next: string)
    requires env.sessionsUp
    requires IsPromoCode(message) && !IsPromoCode(next)
    requires phone !in w.sessions
    ensures HandleMessage(HandleMessage(w, phone, message, env).0, phone, next, env).1 == WelcomeButtons
  {
    PromoOnNewSessionLeavesNoStep(w, phone, message, env);
    OtherStepsWelcome(HandleMessage(w, phone, message, env).0, phone, next, env);
  }

  /** A transition that touches one session keeps the store well-formed when
      that session is. */
  lemma WellFormedElsewhere(db: Sessions, db': Sessions, phone: string)
    requires AllWellFormed(db) && OthersUnchanged(db, db', phone)
    requires phone in db' ==> WellFormed(db'[phone])
    ensures AllWellFormed(db')
  {
  }

  /** The session data of a stored session. */
  lemma DataOfStored(db: Sessions, phone: string)
    requires phone in db
    ensures DataOf(db, phone) == db[phone].data.GetOr(map[])
  {
  }

  /** Reading a property of a shallow merge: the new object wins. */
  lemma GetMerged(a: Record, b: Record, k: string)
    ensures Get(a + b, k) == if k in b then b[k] else Get(a, k)
  {
  }

  lemma WellFormedAfterWelcome(w: World, phone: string, message: string, up: bool)
    requires AllWellFormed(w.sessions)
    ensures AllWellFormed(HandleWelcome(w, phone, message, up).0.sessions)
  {
    WelcomeEffect(w, phone, message, up);
    WellFormedElsewhere(w.sessions, HandleWelcome(w, phone, message, up).0.sessions, phone);
  }

  /** Merging a meal's fields leaves a chosen meal behind. */
  lemma MealMergeChosen(d: Record, meal: Meal)
    requires |meal.name| > 0 && meal.price > 0
    ensures MealChosen(Stored(d + MealData(meal)))
  {
    var m := d + MealData(meal);
    GetMerged(d, MealData(meal), "selectedMeal");
    GetMerged(d, MealData(meal), "mealName");
    GetMerged(d, MealData(meal), "price");
    GetStored(m, "selectedMeal");
    GetStored(m, "mealName");
    GetStored(m, "price");
  }

  /** Merging an accepted location keeps the meal and gives the location. */
  lemma LocationMergeGiven(d: Record, location: string)
    requires MealChosen(d) && Utf16Length(location) >= 3
    ensures MealChosen(Stored(d + LocationData(location)))
    ensures LocationGiven(Stored(d + LocationData(location)))
  {
    var m := d + LocationData(location);
    GetMerged(d, LocationData(location), "selectedMeal");
    GetMerged(d, LocationData(location), "mealName");
    GetMerged(d, LocationData(location), "price");
    GetMerged(d, LocationData(location), "location");
    GetStored(m, "selectedMeal");
    GetStored(m, "mealName");
    GetStored(m, "price");
    GetStored(m, "location");
  }

  lemma WellFormedAfterFoodSelection(w: World, phone: string, message: string, up: bool)
    requires AllWellFormed(w.sessions)
    ensures AllWellFormed(HandleFoodSelection(w, phone, message, up).0.sessions)
  {
    FoodSelectionEffect(w, phone, message, up);
    var m := MealFor(Action(message));
    var db' := HandleFoodSelection(w, phone, message, up).0.sessions;
    if m.Some? && up {
      MealTable(Action(message));
      MealMergeChosen(DataOf(w.sessions, phone), m.value);
      DataOfStored(db', phone);
    }
    WellFormedElsewhere(w.sessions, db', phone);
  }

  lemma WellFormedAfterConfirmOrder(w: World, phone: string, message: string, up: bool)
    requires AllWellFormed(w.sessions)
    requires GetUserState(w.sessions, phone, up).step == Some(ConfirmOrder)
    ensures AllWellFormed(HandleConfirmOrder(w, phone, message, up).0.sessions)
  {
    ConfirmOrderEffect(w, phone, message, up);
    var db' := HandleConfirmOrder(w, phone, message, up).0.sessions;
    if Utf16Length(Trim(message)) >= 3 && up {
      DataOfStored(w.sessions, phone);
      LocationMergeGiven(DataOf(w.sessions, phone), Trim(message));
      DataOfStored(db', phone);
    }
    WellFormedElsewhere(w.sessions, db', phone);
  }

  lemma WellFormedAfterPayment(w: World, phone: string, message: string, env: Env)
    requires AllWellFormed(w.sessions)
    requires GetUserState(w.sessions, phone, env.sessionsUp).step == Some(Payment)
    ensures AllWellFormed(HandlePayment(w, phone, message, env).0.sessions)
  {
    var db' := HandlePayment(w, phone, message, env).0.sessions;
    if WantsConfirm(Action(message)) {
      PaymentConfirmEffect(w, phone, message, env);
    } else {
      PaymentOtherEffect(w, phone, message, env);
    }
    if db' != w.sessions {
      DataOfStored(w.sessions, phone);
      DataOfStored(db', phone);
    }
    WellFormedElsewhere(w.sessions, db', phone);
  }

  /** A property the merged object does not set survives the merge and the
      database's filtering when it holds a value the database keeps. */
  lemma GetOutsideMerge(d: Record, x: Record, k: string)
    requires k !in x && !Dropped(Get(d, k))
    ensures Get(Stored(d + x), k) == Get(d, k)
  {
    GetMerged(d, x, k);
    GetStored(d + x, k);
  }

  /** The promo fields are neither the meal's nor the location's, so a
      promo merge keeps both. */
  lemma PromoKeepsOrderData(d: Record, message: string)
    ensures MealChosen(d) ==> MealChosen(Stored(d + PromoData(message)))
    ensures LocationGiven(d) ==> LocationGiven(Stored(d + PromoData(message)))
  {
    var x := PromoData(message);
    if MealChosen(d) {
      GetOutsideMerge(d, x, "selectedMeal");
      GetOutsideMerge(d, x, "mealName");
      GetOutsideMerge(d, x, "price");
    }
    if LocationGiven(d) {
      GetOutsideMerge(d, x, "location");
    }
  }

  lemma WellFormedAfterPromo(w: World, phone: string, message: string, up: bool)
    requires AllWellFormed(w.sessions)
    ensures AllWellFormed(ApplyPromo(w.sessions, phone, message, up))
  {
    var db' := ApplyPromo(w.sessions, phone, message, up);
    if up {
      PromoEffect(w.sessions, phone, message);
      if phone in w.sessions {
        var d := DataOf(w.sessions, phone);
        var x := PromoData(message);
        DataOfStored(w.sessions, phone);
        DataOfStored(db', phone);
        assert db'[phone].step == w.sessions[phone].step;
        assert db'[phone].data.GetOr(map[]) == Stored(d + x);
        PromoKeepsOrderData(d, message);
        assert WellFormed(db'[phone]);
      }
    }
    WellFormedElsewhere(w.sessions, db', phone);
  }

  /** Every transition keeps every session well-formed. */
  lemma {:induction false} HandleMessagePreservesWellFormed(w: World, phone: string, message: string, env: Env)
    requires AllWellFormed(w.sessions)
    ensures AllWellFormed(HandleMessage(w, phone, message, env).0.sessions)
  {
    var up := env.sessionsUp;
    var step := GetUserState(w.sessions, phone, up).step;
    Dispatch(w, phone, message, env);
    if IsPromoCode(message) {
      WellFormedAfterPromo(w, phone, message, up);
    } else if step == Some(Welcome) {
      WellFormedAfterWelcome(w, phone, message, up);
    } else if step == Some(SelectingFood) {
      WellFormedAfterFoodSelection(w, phone, message, up);
    } else if step == Some(ConfirmOrder) {
      WellFormedAfterConfirmOrder(w, phone, message, up);
    } else if step == Some(Payment) {
      WellFormedAfterPayment(w, phone, message, env);
    } else {
      OtherStepsWelcome(w, phone, message, env);
      WellFormedElsewhere(w.sessions, HandleMessage(w, phone, message, env).0.sessions, phone);
    }
  }

  /** Completing the journey: from a well-formed PAYMENT session, a
      confirmation writes a pending order, queues it for riders under the same
      id and moves the session to ORDER_COMPLETE. */
  lemma ConfirmCreatesQueuedOrder(w: World, phone: string, message: string, env: Env)
    requires env.sessionsUp && env.fault == NoFault
    requires GetUserState(w.sessions, phone, true).step == Some(Payment)
    requires WellFormed(GetUserState(w.sessions, phone, true))
    requires !IsPromoCode(message) && WantsConfirm(Action(message))
    ensures var w' := HandleMessage(w, phone, message, env).0;
            && env.orderId in w'.orders
            && w'.orders[env.orderId].status == "pending_booking"
            && w'.orders[env.orderId].phone == phone
            && env.orderId in RiderService.GetPendingOrders(w'.rider)
            && StepOf(w'.sessions, phone) == Some(OrderComplete)
  {
    PaymentConfirmSucceeds(w, phone, env);
    Dispatch(w, phone, message, env);
    PaymentConfirmEffect(w, phone, message, env);
    var c := CreateOrder(w, phone, env).0;
    assert c.orders[env.orderId].status == "pending_booking" && c.orders[env.orderId].phone == phone;
  }

  /** The confirmation echoes the session's meal, location and price: a
      well-formed PAYMENT session never falls back to the placeholders. */
  lemma ConfirmationEchoesSession(w: World, phone: string, message: string, env: Env)
    requires env.sessionsUp && env.fault == NoFault
    requires GetUserState(w.sessions, phone, true).step == Some(Payment)
    requires WellFormed(GetUserState(w.sessions, phone, true))
    requires !IsPromoCode(message) && WantsConfirm(Action(message))
    ensures var d := DataOf(w.sessions, phone);
            HandleMessage(w, phone, message, env).1
            == OrderConfirmation(env.orderId, Get(d, "mealName"), Get(d, "location"), Get(d, "price"))
  {
    PaymentConfirmSucceeds(w, phone, env);
    Dispatch(w, phone, message, env);
    PaymentConfirmEffect(w, phone, message, env);
    var d := DataOf(w.sessions, phone);
    assert HandleMessage(w, phone, message, env).1 == ConfirmationFrom(env.orderId, d);
    assert MealChosen(d) && LocationGiven(d);
    ConfirmationWithoutPlaceholders(env.orderId, d);
  }

  lemma ConfirmationWithoutPlaceholders(orderId: string, d: Record)
    requires MealChosen(d) && LocationGiven(d)
    ensures ConfirmationFrom(orderId, d) == OrderConfirmation(orderId, Get(d, "mealName"), Get(d, "location"), Get(d, "price"))
  {
  }
}

=== FILE: firestore_user_store.dfy ===
/**
 The document-backed user store: the `users` collection as an ordered table
 (its order stands in for the database's document order, which the model does
 not compute) and the in-process set of order ids being booked. Queries are
 filters over the table; `update` of a missing document fails; a write batch
 applies all of its writes or none, and a write holding `undefined` is
 rejected. The clock reading is a parameter.
 */
module FirestoreUserStore {
  import opened Common
  import opened Users

  /** The `TypeError` raised when the chosen buyer has no location. */
  const NullArea := "Cannot read properties of null (reading 'area')"

  /** The start of the error a write raises when a value in it is
      `undefined`; the database keeps no such value. */
  const UndefinedValue := "Cannot use \"undefined\" as a Firestore value"

  /** A record every value of which the database can store. */
  predicate Storable(d: Record) {
    VUndefined !in d.Values
  }

  /** `getUser`: get-or-create. A new user is written and returned; for a known
      user the stored `lastInteraction` is refreshed but the record returned
      is the one read before that write. */
  function GetUser(s: Store, phone: string, now: Timestamp): (out: (Store, User))
    requires Valid(s.users)
    ensures Valid(out.0.users) && out.0.locks == s.locks
    ensures out.1.phone == phone
    ensures phone !in s.users.rows ==> out.1 == NewUser(phone, now) && out.0.users.rows == s.users.rows[phone := out.1]
    ensures phone in s.users.rows ==>
              && out.1 == s.users.rows[phone]
              && out.0.users.rows == s.users.rows[phone := out.1.(lastInteraction := now)]
  {
    if phone !in s.users.rows then
      var u := NewUser(phone, now);
      (Save(s, u), u)
    else
      var u := s.users.rows[phone];
      (Save(s, u.(lastInteraction := now)), u)
  }

  /** The record `getUser` returns lags one interaction behind the stored one. */
  lemma GetUserReturnsPreviousInteraction(s: Store, phone: string, earlier: Timestamp, now: Timestamp)
    requires Valid(s.users)
    ensures var s1 := GetUser(s, phone, earlier).0;
            && GetUser(s1, phone, now).1.lastInteraction == earlier
            && GetUser(s1, phone, now).0.users.rows[phone].lastInteraction == now
  {
  }

  /** The `{role, state}` that `setRole` returns. */
  datatype RoleState = RoleState(role: Role, state: string)

  /** `setRole`: rejects anything but buyer, seller and rider before writing;
      a user without a document cannot be updated. */
  function SetRole(s: Store, phone: string, role: string): (out: (Store, Result<RoleState>))
    requires Valid(s.users)
    ensures Valid(out.0.users) && out.0.locks == s.locks
    ensures role !in {"buyer", "seller", "rider"} ==> out == (s, Err(InvalidRole))
    ensures role in {"buyer", "seller", "rider"} && phone !in s.users.rows ==> out == (s, Err(NoDocument))
    ensures role in {"buyer", "seller", "rider"} && phone in s.users.rows ==>
              && out.1 == Ok(RoleState(ParseRole(role).value, StateForRole(ParseRole(role).value)))
              && RoleName(out.1.value.role) == role
              && out.0.users.rows == s.users.rows[phone := s.users.rows[phone].(role := Some(out.1.value.role),
                                                                               state := out.1.value.state)]
  {
    var r := ParseRole(role);
    if r.None? then (s, Err(InvalidRole))
    else if phone !in s.users.rows then (s, Err(NoDocument))
    else
      var st := StateForRole(r.value);
      (Save(s, s.users.rows[phone].(role := r, state := st)), Ok(RoleState(r.value, st)))
  }

  /** `setRiderArea` as written: the code is checked before anything is
      written, by a property read on the area table that also accepts the
      names every object inherits. */
  function SetRiderAreaAsWritten(s: Store, phone: string, code: string): (out: (Store, Result<string>))
    requires Valid(s.users)
    ensures Valid(out.0.users) && out.0.locks == s.locks
    ensures !AreaAcceptedAsWritten(code) ==> out == (s, Err(InvalidArea))
    ensures AreaAcceptedAsWritten(code) && phone !in s.users.rows ==> out == (s, Err(NoDocument))
    ensures AreaAcceptedAsWritten(code) && phone in s.users.rows ==>
              && out.1 == Ok(code)
              && out.0.users.rows == s.users.rows[phone := s.users.rows[phone].(preferredArea := Some(code),
                                                                               state := BrowsingMenu)]
  {
    if !AreaAcceptedAsWritten(code) then (s, Err(InvalidArea))
    else if phone !in s.users.rows then (s, Err(NoDocument))
    else (Save(s, s.users.rows[phone].(preferredArea := Some(code), state := BrowsingMenu)), Ok(code))
  }

  /** `setRiderArea`, corrected: only the area table's own keys are accepted. */
  function SetRiderArea(s: Store, phone: string, code: string): (out: (Store, Result<string>))
    requires Valid(s.users)
    ensures Valid(out.0.users) && out.0.locks == s.locks
    ensures !IsAreaCode(code) ==> out == (s, Err(InvalidArea))
    ensures IsAreaCode(code) && phone !in s.users.rows ==> out == (s, Err(NoDocument))
    ensures IsAreaCode(code) && phone in s.users.rows ==>
              && out.1 == Ok(code)
              && out.0.users.rows == s.users.rows[phone := s.users.rows[phone].(preferredArea := Some(code),
                                                                               state := BrowsingMenu)]
  {
    if !IsAreaCode(code) then (s, Err(InvalidArea))
    else if phone !in s.users.rows then (s, Err(NoDocument))
    else (Save(s, s.users.rows[phone].(preferredArea := Some(code), state := BrowsingMenu)), Ok(code))
  }

  /** The correction changes nothing for a real area code, nor for any code
      that is not an inherited property name. */
  lemma RiderAreaCorrectionAgrees(s: Store, phone: string, code: string)
    requires Valid(s.users)
    requires IsAreaCode(code) || code !in PrototypeKeys
    ensures SetRiderArea(s, phone, code) == SetRiderAreaAsWritten(s, phone, code)
  {
    AreaCheckRefines(code);
  }

  /** As written, "constructor" is stored as a known rider's area, so the
      collection no longer names only real areas; the corrected operation
      refuses it without a write. */
  lemma ConstructorStoredAsArea(s: Store, phone: string)
    requires Valid(s.users) && phone in s.users.rows
    ensures var out := SetRiderAreaAsWritten(s, phone, "constructor");
            && out.1 == Ok("constructor")
            && out.0.users.rows[phone].preferredArea == Some("constructor")
            && !AreasKnown(out.0.users)
    ensures SetRiderArea(s, phone, "constructor") == (s, Err(InvalidArea))
  {
    ConstructorAcceptedAsArea();
  }

  /** The corrected operation only ever stores a real area. */
  lemma SetRiderAreaKeepsAreasKnown(s: Store, phone: string, code: string)
    requires Valid(s.users) && AreasKnown(s.users)
    ensures AreasKnown(SetRiderArea(s, phone, code).0.users)
  {
  }

  /** The next `getUser` returns the document as the last update left it. */
  lemma StoredUserReadBack(s: Store, phone: string, later: Timestamp)
    requires Valid(s.users) && phone in s.users.rows
    ensures GetUser(s, phone, later).1 == s.users.rows[phone]
  {
  }

  /** After a rider picks an area, fetching the rider shows that area and the
      menu state. */
  lemma RiderAreaReadBack(s: Store, phone: string, code: string, later: Timestamp)
    requires Valid(s.users) && IsAreaCode(code) && phone in s.users.rows
    ensures var u := GetUser(SetRiderArea(s, phone, code).0, phone, later).1;
            u.preferredArea == Some(code) && u.state == BrowsingMenu
  {
    StoredUserReadBack(SetRiderArea(s, phone, code).0, phone, later);
  }

  /** `setState`: one `update` of the state and the patch, the patch's state
      winning; it returns the data written. A user without a document cannot
      be updated, and `lastInteraction` is left alone. */
  function SetState(s: Store, phone: string, state: string, patch: UserPatch): (out: (Store, Result<UserPatch>))
    requires Valid(s.users)
    ensures Valid(out.0.users) && out.0.locks == s.locks
    ensures phone !in s.users.rows ==> out == (s, Err(NoDocument))
    ensures phone in s.users.rows ==>
              && out.0.users.rows.Keys == s.users.rows.Keys
              && (forall k :: k in s.users.rows && k != phone ==> out.0.users.rows[k] == s.users.rows[k])
              && out.1 == Ok(patch.(state := Some(out.0.users.rows[phone].state)))
    ensures phone in s.users.rows ==>
              var u, u' := s.users.rows[phone], out.0.users.rows[phone];
              && u'.state == (if patch.state.Some? then patch.state.value else state)
              && u'.lastInteraction == u.lastInteraction && u'.phone == phone && u'.profileName == u.profileName
              && (patch.role.Some? ==> u'.role == patch.role.value) && (patch.role.None? ==> u'.role == u.role)
              && (patch.location.Some? ==> u'.location == patch.location.value)
              && (patch.location.None? ==> u'.location == u.location)
              && (patch.preferredArea.Some? ==> u'.preferredArea == patch.preferredArea.value)
              && (patch.preferredArea.None? ==> u'.preferredArea == u.preferredArea)
              && (patch.currentOrder.Some? ==> u'.currentOrder == patch.currentOrder.value)
              && (patch.currentOrder.None? ==> u'.currentOrder == u.currentOrder)
              && (patch.currentDelivery.Some? ==> u'.currentDelivery == patch.currentDelivery.value)
              && (patch.currentDelivery.None? ==> u'.currentDelivery == u.currentDelivery)
  {
    if phone !in s.users.rows then (s, Err(NoDocument))
    else
      var u' := Patched(s.users.rows[phone], state, patch);
      (Save(s, u'), Ok(patch.(state := Some(u'.state))))
  }

  /** The next `getUser` after `setState` shows the state and patch written. */
  lemma StateReadBack(s: Store, phone: string, state: string, patch: UserPatch, later: Timestamp)
    requires Valid(s.users) && phone in s.users.rows
    ensures GetUser(SetState(s, phone, state, patch).0, phone, later).1 == Patched(s.users.rows[phone], state, patch)
  {
    StoredUserReadBack(SetState(s, phone, state, patch).0, phone, later);
  }

  /** `setOrder`: a new order awaiting payment replaces the current one. */
  function SetOrder(s: Store, phone: string, mealId: string, mealName: string, price: int, now: Timestamp): (out: (Store, Result<Order>))
    requires Valid(s.users)
    ensures Valid(out.0.users) && out.0.locks == s.locks
    ensures phone !in s.users.rows ==> out == (s, Err(NoDocument))
    ensures phone in s.users.rows ==>
              && out.1 == Ok(NewOrder(mealId, mealName, price, now))
              && out.0.users.rows == s.users.rows[phone := s.users.rows[phone].(currentOrder := Some(out.1.value))]
  {
    if phone !in s.users.rows then (s, Err(NoDocument))
    else
      var o := NewOrder(mealId, mealName, price, now);
      (Save(s, s.users.rows[phone].(currentOrder := Some(o))), Ok(o))
  }

  /** The order after the dotted update of `confirmPayment`: the payment fields
      are merged into the current order, or form a new order of their own
      when there is none. */
  function Paid(prev: Option<Order>, transactionId: string, receiptNumber: string, now: Timestamp): (o: Order)
    ensures o.status == PaymentConfirmed && o.transactionId == Some(transactionId)
    ensures o.receiptNumber == Some(receiptNumber) && o.paidAt == Some(now)
    ensures prev.Some? ==> o.mealId == prev.value.mealId && o.mealName == prev.value.mealName && o.price == prev.value.price
    ensures prev.None? ==> o.mealId.None? && o.mealName.None? && o.price.None?
  {
    var base := if prev.Some? then prev.value else Order(None, None, None, None, PendingPayment, None, None, None, None, None);
    base.(status := PaymentConfirmed, transactionId := Some(transactionId), receiptNumber := Some(receiptNumber),
          paidAt := Some(now))
  }

  /** `confirmPayment`. */
  function ConfirmPayment(s: Store, phone: string, transactionId: string, receiptNumber: string, now: Timestamp): (out: (Store, Result<()>))
    requires Valid(s.users)
    ensures Valid(out.0.users) && out.0.locks == s.locks
    ensures phone !in s.users.rows ==> out == (s, Err(NoDocument))
    ensures phone in s.users.rows ==>
              && out.1.Ok?
              && var u := s.users.rows[phone];
                 out.0.users.rows == s.users.rows[phone := u.(currentOrder := Some(Paid(u.currentOrder, transactionId, receiptNumber, now)))]
  {
    if phone !in s.users.rows then (s, Err(NoDocument))
    else
      var u := s.users.rows[phone];
      (Save(s, u.(currentOrder := Some(Paid(u.currentOrder, transactionId, receiptNumber, now)))), Ok(()))
  }

  /** Setting then confirming an order leaves it paid for, with the meal kept. */
  lemma OrderThenPayment(s: Store, phone: string, mealId: string, mealName: string, price: int,
                         txn: string, receipt: string, now: Timestamp, later: Timestamp)
    requires Valid(s.users)
    requires phone in s.users.rows
    ensures var s1 := SetOrder(s, phone, mealId, mealName, price, now).0;
            var u := ConfirmPayment(s1, phone, txn, receipt, later).0.users.rows[phone];
            && IsConfirmed(u)
            && u.currentOrder.value.mealId == Some(mealId)
            && u.currentOrder.value.transactionId == Some(txn)
  {
  }

  /** `setLocation`: records the area and moves to `order_confirmed`. */
  function SetLocation(s: Store, phone: string, area: string, now: Timestamp): (out: (Store, Result<Location>))
    requires Valid(s.users)
    ensures Valid(out.0.users) && out.0.locks == s.locks
    ensures phone !in s.users.rows ==> out == (s, Err(NoDocument))
    ensures phone in s.users.rows ==>
              && out.1 == Ok(Location(None, Some(area), now))
              && out.0.users.rows == s.users.rows[phone := s.users.rows[phone].(location := Some(out.1.value),
                                                                               state := OrderConfirmed)]
  {
    if phone !in s.users.rows then (s, Err(NoDocument))
    else
      var l := Location(None, Some(area), now);
      (Save(s, s.users.rows[phone].(location := Some(l), state := OrderConfirmed)), Ok(l))
  }

  /** After a buyer gives an area, fetching the buyer shows the location
      returned. */
  lemma LocationReadBack(s: Store, phone: string, area: string, now: Timestamp, later: Timestamp)
    requires Valid(s.users) && phone in s.users.rows
    ensures var (s', r) := SetLocation(s, phone, area, now);
            var u := GetUser(s', phone, later).1;
            u.location == Some(r.value) && u.location.value.area == Some(area) && u.state == OrderConfirmed
  {
    StoredUserReadBack(SetLocation(s, phone, area, now).0, phone, later);
  }

  // ---------------------------------------------------------------------------
  // Queries

  /** An entry of `getActiveOrders`. */
  datatype ActiveOrder = ActiveOrder(order: Order, userPhone: string, location: Location, userName: Value)

  function ActiveOrderOf(u: User): Option<ActiveOrder> {
    if IsConfirmed(u) && u.location.Some? then
      Some(ActiveOrder(u.currentOrder.value, u.phone, u.location.value, DisplayName(u)))
    else None
  }

  /** `getActiveOrders`: paid orders of users who have given a location. */
  function GetActiveOrders(s: Store): (r: seq<ActiveOrder>)
    requires Valid(s.users)
    ensures forall a :: a in r <==> exists u :: u in Records(s.users) && ActiveOrderOf(u) == Some(a)
  {
    Collect(Records(s.users), ActiveOrderOf)
  }

  /** A stored user appears in `getActiveOrders` exactly when its order is paid
      and it has a location. */
  lemma ActiveOrdersExact(s: Store, phone: string)
    requires Valid(s.users)
    requires phone in s.users.rows
    ensures (exists a :: a in GetActiveOrders(s) && a.userPhone == phone)
            <==> IsConfirmed(s.users.rows[phone]) && s.users.rows[phone].location.Some?
  {
    var r := GetActiveOrders(s);
    var u := s.users.rows[phone];
    RecordsAreRows(s.users, u);
    if IsConfirmed(u) && u.location.Some? {
      assert ActiveOrderOf(u).value in r;
    }
    if a :| a in r && a.userPhone == phone {
      var v :| v in Records(s.users) && ActiveOrderOf(v) == Some(a);
      RecordsAreRows(s.users, v);
    }
  }

  /** An entry of `getAvailableDeliveries`. */
  datatype Offer = Offer(
    orderId: Option<string>,
    buyerPhone: string,
    buyerName: Value,
    meal: Option<string>,
    price: Option<int>,
    earnings: Value,
    location: Option<string>,
    status: string)

  /** A paid order of a buyer who has given a location. */
  predicate Deliverable(u: User) {
    u.role == Some(Buyer) && IsConfirmed(u) && u.location.Some?
  }

  function OfferOf(u: User): Option<Offer> {
    if Deliverable(u) then
      var o := u.currentOrder.value;
      Some(Offer(o.mealId, u.phone, DisplayName(u), o.mealName, o.price, Earnings(o.price),
                 u.location.value.area, "pending"))
    else None
  }

  /** `getAvailableDeliveries`: every deliverable order. The rider's phone the
      source takes is not used by it, so it is not a parameter here. */
  function GetAvailableDeliveries(s: Store): (r: seq<Offer>)
    requires Valid(s.users)
    ensures forall x :: x in r <==> exists u :: u in Records(s.users) && OfferOf(u) == Some(x)
  {
    Collect(Records(s.users), OfferOf)
  }

  /** Offers come from buyers only, and only from users with a location; an
      active order of a buyer is offered. */
  lemma OffersAreBuyersActiveOrders(s: Store, x: Offer)
    requires Valid(s.users)
    requires x in GetAvailableDeliveries(s)
    ensures x.buyerPhone in s.users.rows && Deliverable(s.users.rows[x.buyerPhone])
    ensures exists a :: a in GetActiveOrders(s) && a.userPhone == x.buyerPhone
  {
    var u :| u in Records(s.users) && OfferOf(u) == Some(x);
    RecordsAreRows(s.users, u);
    ActiveOrdersExact(s, x.buyerPhone);
  }

  /** An entry of `getOrdersByArea`. */
  datatype AreaOrder = AreaOrder(
    orderId: Option<string>,
    buyerPhone: string,
    meal: Option<string>,
    price: Option<int>,
    earnings: Value,
    location: Option<string>,
    area: string)

  function AreaOrderOf(code: string): User -> Option<AreaOrder> {
    (u: User) =>
      if Deliverable(u) && u.location.value.area == Some(code) then
        var o := u.currentOrder.value;
        Some(AreaOrder(o.mealId, u.phone, o.mealName, o.price, Earnings(o.price), u.location.value.area, code))
      else None
  }

  /** `getOrdersByArea`: the deliverable orders located in the given area. */
  function GetOrdersByArea(s: Store, code: string): (r: seq<AreaOrder>)
    requires Valid(s.users)
    ensures forall x :: x in r <==> exists u :: u in Records(s.users) && AreaOrderOf(code)(u) == Some(x)
  {
    Collect(Records(s.users), AreaOrderOf(code))
  }

  /** Every order of an area is offered as an available delivery located there. */
  lemma AreaOrderIsOffer(s: Store, code: string, x: AreaOrder)
    requires Valid(s.users)
    requires x in GetOrdersByArea(s, code)
    ensures exists y :: y in GetAvailableDeliveries(s) && y.buyerPhone == x.buyerPhone && y.location == Some(code)
  {
    var v :| v in Records(s.users) && AreaOrderOf(code)(v) == Some(x);
    assert OfferOf(v).value in GetAvailableDeliveries(s);
  }

  /** Every available delivery located in an area is among that area's orders. */
  lemma OfferInAreaIsAreaOrder(s: Store, code: string, y: Offer)
    requires Valid(s.users)
    requires y in GetAvailableDeliveries(s) && y.location == Some(code)
    ensures exists x :: x in GetOrdersByArea(s, code) && x.buyerPhone == y.buyerPhone
  {
    var v :| v in Records(s.users) && OfferOf(v) == Some(y);
    assert AreaOrderOf(code)(v).value in GetOrdersByArea(s, code);
  }

  /** The orders of an area are exactly the available deliveries whose
      location is that area. */
  lemma AreaOrdersAreOffers(s: Store, code: string, phone: string)
    requires Valid(s.users)
    ensures (exists x :: x in GetOrdersByArea(s, code) && x.buyerPhone == phone)
            <==> (exists y :: y in GetAvailableDeliveries(s) && y.buyerPhone == phone && y.location == Some(code))
  {
    if x :| x in GetOrdersByArea(s, code) && x.buyerPhone == phone {
      AreaOrderIsOffer(s, code, x);
    }
    if y :| y in GetAvailableDeliveries(s) && y.buyerPhone == phone && y.location == Some(code) {
      OfferInAreaIsAreaOrder(s, code, y);
    }
  }

  // ---------------------------------------------------------------------------
  // Booking

  /** The user holds a paid order for the meal id `orderId` (the query filters
      on the order alone, not on the role). */
  predicate Bookable(u: User, orderId: string) {
    IsConfirmed(u) && u.currentOrder.value.mealId == Some(orderId)
  }

  ghost function Bookables(t: Table, orderId: string): set<string> {
    set k | k in t.rows && Bookable(t.rows[k], orderId)
  }

  /** `b` is the first bookable user in enumeration order. */
  ghost predicate FirstBookable(t: Table, orderId: string, b: string) {
    exists i :: 0 <= i < |t.order| && t.order[i] == b && b in t.rows && Bookable(t.rows[b], orderId)
      && forall j :: 0 <= j < i ==> t.order[j] in t.rows && !Bookable(t.rows[t.order[j]], orderId)
  }

  /** The batch of a successful booking, in source order: the buyer's order
      is assigned, then the rider's delivery is set. */
  function Commit(s: Store, b: string, riderPhone: string, d: Record, now: Timestamp): (s': Store)
    requires Valid(s.users)
    requires b in s.users.rows && s.users.rows[b].currentOrder.Some? && riderPhone in s.users.rows
    ensures Valid(s'.users) && s'.locks == s.locks
    ensures s'.users.rows.Keys == s.users.rows.Keys
    ensures s'.users.rows[b].currentOrder
            == Some(AssignedTo(s.users.rows[b].currentOrder.value, riderPhone).(assignedAt := Some(now)))
    ensures s'.users.rows[riderPhone].currentDelivery == Some(d)
    ensures riderPhone != b ==> s'.users.rows[riderPhone] == s.users.rows[riderPhone].(currentDelivery := Some(d))
    ensures riderPhone != b ==> s'.users.rows[b] == s.users.rows[b].(currentOrder := s'.users.rows[b].currentOrder)
    ensures riderPhone == b ==>
              s'.users.rows[b] == s.users.rows[b].(currentOrder := s'.users.rows[b].currentOrder, currentDelivery := Some(d))
    ensures forall k :: k in s.users.rows && k != b && k != riderPhone ==> s'.users.rows[k] == s.users.rows[k]
  {
    var buyer := s.users.rows[b];
    var s2 := Save(s, buyer.(currentOrder := Some(AssignedTo(buyer.currentOrder.value, riderPhone).(assignedAt := Some(now)))));
    var rider := s2.users.rows[riderPhone];
    Save(s2, rider.(currentDelivery := Some(d)))
  }

  /** `bookOrder`: refuses an order id that is locked; otherwise takes the
      lock, picks the first user holding that paid order, and commits one
      batch assigning the order and setting the rider's delivery. A buyer
      without a location fails while the delivery is being built, a delivery
      holding an `undefined` value (a location without an area, say) is
      rejected when it is added to the batch, and a rider without a document
      makes the batch fail: none of these writes anything. The lock is
      released on every way out. */
  function BookOrder(s: Store, riderPhone: string, orderId: string, now: Timestamp): (out: (Store, BookResult))
    requires Valid(s.users)
    ensures Valid(out.0.users) && out.0.locks == s.locks
    ensures orderId in s.locks ==> out == (s, Refused(AlreadyBooking))
    ensures out.1.Refused? ==> out.0 == s
    ensures out.1.Booked? ==> riderPhone in s.users.rows && Storable(out.1.delivery)
  {
    if orderId in s.locks then (s, Refused(AlreadyBooking))
    else
      var held := s.(locks := s.locks + {orderId});
      var us := Records(s.users);
      var m := FirstMatch(us, (u: User) => Bookable(u, orderId));
      if m.None? then
        (held.(locks := held.locks - {orderId}), Refused(OrderNotFound))
      else
        var buyer := us[m.value];
        if buyer.location.None? then
          (held.(locks := held.locks - {orderId}), Refused(NullArea))
        else
          var area := OptStr(buyer.location.value.area);
          var d := DeliveryRecord(orderId, buyer, buyer.currentOrder.value, area, area, now);
          if !Storable(d) then
            (held.(locks := held.locks - {orderId}), Refused(UndefinedValue))
          else if riderPhone !in s.users.rows then
            (held.(locks := held.locks - {orderId}), Refused(NoDocument))
          else
            var s3 := Commit(held, buyer.phone, riderPhone, d, now);
            (s3.(locks := s3.locks - {orderId}), Booked(d))
  }

  /** `bookOrder` answers "not found" exactly when the order id is not locked
      and no user holds that paid order. */
  lemma NotFoundExact(s: Store, riderPhone: string, orderId: string, now: Timestamp)
    requires Valid(s.users)
    ensures BookOrder(s, riderPhone, orderId, now).1 == Refused(OrderNotFound)
            <==> orderId !in s.locks && Bookables(s.users, orderId) == {}
  {
    if orderId !in s.locks {
      var us := Records(s.users);
      var m := FirstMatch(us, (u: User) => Bookable(u, orderId));
      if m.None? {
        NoMatchNoBookables(s.users, orderId);
      } else {
        var buyer := us[m.value];
        RecordsAreRows(s.users, buyer);
        assert buyer.phone in Bookables(s.users, orderId);
      }
    }
  }

  lemma NoMatchNoBookables(t: Table, orderId: string)
    requires Valid(t)
    requires FirstMatch(Records(t), (u: User) => Bookable(u, orderId)).None?
    ensures Bookables(t, orderId) == {}
  {
    var us := Records(t);
    forall k | k in t.rows
      ensures !Bookable(t.rows[k], orderId)
    {
      RecordsAreRows(t, t.rows[k]);
      var i :| 0 <= i < |us| && us[i] == t.rows[k];
    }
  }

  /** The record `FirstMatch` finds is the first bookable user. */
  lemma FirstMatchIsFirstBookable(t: Table, orderId: string) returns (b: string)
    requires Valid(t)
    requires FirstMatch(Records(t), (u: User) => Bookable(u, orderId)).Some?
    ensures b == Records(t)[FirstMatch(Records(t), (u: User) => Bookable(u, orderId)).value].phone
    ensures FirstBookable(t, orderId, b)
  {
    var us := Records(t);
    var i := FirstMatch(us, (u: User) => Bookable(u, orderId)).value;
    b := us[i].phone;
    assert t.order[i] == b;
    assert forall j :: 0 <= j < i ==> t.order[j] in t.rows && !Bookable(t.rows[t.order[j]], orderId) by {
      forall j | 0 <= j < i ensures t.order[j] in t.rows && !Bookable(t.rows[t.order[j]], orderId) {
        assert us[j] == t.rows[t.order[j]];
      }
    }
  }

  lemma BookableAfterCommitAt(s: Store, b: string, riderPhone: string, d: Record, now: Timestamp, orderId: string, k: string)
    requires Valid(s.users)
    requires b in s.users.rows && Bookable(s.users.rows[b], orderId) && riderPhone in s.users.rows
    ensures var t' := Commit(s, b, riderPhone, d, now).users;
            k in t'.rows && Bookable(t'.rows[k], orderId) <==> k in s.users.rows && Bookable(s.users.rows[k], orderId) && k != b
  {
    var t := s.users;
    var t' := Commit(s, b, riderPhone, d, now).users;
    if k == b {
      assert t'.rows[b].currentOrder.value.status == AssignedToRider;
    } else if k == riderPhone {
      assert t'.rows[k].currentOrder == t.rows[k].currentOrder;
    } else if k in t.rows {
      assert t'.rows[k] == t.rows[k];
    }
  }

  /** After the batch of a booking, the buyer served is the only one whose
      bookability changed. */
  lemma BookablesAfterCommit(s: Store, b: string, riderPhone: string, d: Record, now: Timestamp, orderId: string)
    requires Valid(s.users)
    requires b in s.users.rows && Bookable(s.users.rows[b], orderId) && riderPhone in s.users.rows
    ensures Bookables(Commit(s, b, riderPhone, d, now).users, orderId) == Bookables(s.users, orderId) - {b}
  {
    var t' := Commit(s, b, riderPhone, d, now).users;
    forall k
      ensures k in Bookables(t', orderId) <==> k in Bookables(s.users, orderId) && k != b
    {
      BookableAfterCommitAt(s, b, riderPhone, d, now, orderId, k);
    }
  }

  /** The effect of a successful booking: the user chosen is the first
      bookable one, its order is assigned to the rider at `now`, the rider
      carries the delivery, and that user alone stops being bookable. */
  lemma BookingEffect(s: Store, riderPhone: string, orderId: string, now: Timestamp) returns (b: string)
    requires Valid(s.users)
    requires BookOrder(s, riderPhone, orderId, now).1.Booked?
    ensures FirstBookable(s.users, orderId, b)
    ensures var (s', r) := BookOrder(s, riderPhone, orderId, now);
            && Get(r.delivery, "buyerPhone") == VStr(b)
            && Get(r.delivery, "orderId") == VStr(orderId)
            && Get(r.delivery, "status") == VStr("assigned")
            && b in s'.users.rows && riderPhone in s'.users.rows
            && s'.users.rows[b].currentOrder
               == Some(AssignedTo(s.users.rows[b].currentOrder.value, riderPhone).(assignedAt := Some(now)))
            && s'.users.rows[riderPhone].currentDelivery == Some(r.delivery)
            && Bookables(s'.users, orderId) == Bookables(s.users, orderId) - {b}
            && s.users.rows[b].location.Some? && s.users.rows[b].location.value.area.Some?
            && Get(r.delivery, "area") == VStr(s.users.rows[b].location.value.area.value)
  {
    b := FirstMatchIsFirstBookable(s.users, orderId);
    var us := Records(s.users);
    var buyer := us[FirstMatch(us, (u: User) => Bookable(u, orderId)).value];
    var held := s.(locks := s.locks + {orderId});
    var area := OptStr(buyer.location.value.area);
    var d := DeliveryRecord(orderId, buyer, buyer.currentOrder.value, area, area, now);
    RecordsAreRows(s.users, buyer);
    assert buyer == s.users.rows[b];
    var s3 := Commit(held, b, riderPhone, d, now);
    assert BookOrder(s, riderPhone, orderId, now) == (s3.(locks := s3.locks - {orderId}), Booked(d));
    BookablesAfterCommit(held, b, riderPhone, d, now, orderId);
  }

  /** There is only one first bookable user. */
  lemma FirstBookableUnique(t: Table, orderId: string, b1: string, b2: string)
    requires Valid(t) && FirstBookable(t, orderId, b1) && FirstBookable(t, orderId, b2)
    ensures b1 == b2
  {
    var i :| 0 <= i < |t.order| && t.order[i] == b1 && b1 in t.rows && Bookable(t.rows[b1], orderId)
             && forall j :: 0 <= j < i ==> t.order[j] in t.rows && !Bookable(t.rows[t.order[j]], orderId);
    var k :| 0 <= k < |t.order| && t.order[k] == b2 && b2 in t.rows && Bookable(t.rows[b2], orderId)
             && forall j :: 0 <= j < k ==> t.order[j] in t.rows && !Bookable(t.rows[t.order[j]], orderId);
  }

  /** When the first user holding the paid order has a location without an
      area, the delivery would carry `undefined`: the booking is refused and
      nothing is written. */
  lemma UndefinedAreaRefused(s: Store, riderPhone: string, orderId: string, now: Timestamp, b: string)
    requires Valid(s.users) && orderId !in s.locks
    requires FirstBookable(s.users, orderId, b)
    requires s.users.rows[b].location.Some? && s.users.rows[b].location.value.area.None?
    ensures BookOrder(s, riderPhone, orderId, now) == (s, Refused(UndefinedValue))
  {
    var b' := FirstMatchIsFirstBookable(s.users, orderId);
    FirstBookableUnique(s.users, orderId, b, b');
    var buyer := s.users.rows[b];
    var d := DeliveryRecord(orderId, buyer, buyer.currentOrder.value, VUndefined, VUndefined, now);
    assert d["area"] == VUndefined;
  }

  /** When one user alone held the order, booking it a second time is refused
      as not found. */
  lemma RepeatBookingNotFound(s: Store, r1: string, r2: string, orderId: string, now: Timestamp, later: Timestamp)
    requires Valid(s.users)
    requires BookOrder(s, r1, orderId, now).1.Booked?
    requires |Bookables(s.users, orderId)| == 1
    ensures BookOrder(BookOrder(s, r1, orderId, now).0, r2, orderId, later).1 == Refused(OrderNotFound)
  {
    var b := BookingEffect(s, r1, orderId, now);
    NotFoundExact(BookOrder(s, r1, orderId, now).0, r2, orderId, later);
    var bs := Bookables(s.users, orderId);
    assert b in bs;
    assert bs - {b} == {} by {
      assert |bs - {b}| == |bs| - 1;
    }
  }

  /** An order created by `confirmPayment` on a user without one carries no
      meal id, so no booking can ever pick it. */
  lemma PaymentWithoutOrderIsNeverBookable(s: Store, phone: string, txn: string, receipt: string, now: Timestamp, orderId: string)
    requires Valid(s.users)
    requires phone in s.users.rows && s.users.rows[phone].currentOrder.None?
    ensures var u := ConfirmPayment(s, phone, txn, receipt, now).0.users.rows[phone];
            IsConfirmed(u) && !Bookable(u, orderId)
  {
  }
}

=== FILE: memory_user_store.dfy ===
/**
 The in-memory user store: a `Map` of users in insertion order and the set of
 order ids currently being booked. Every operation is a transition returning
 the new store and the operation's result; records are updated in place in
 the source, which here is a `Put` of the changed record under its phone.
 The clock reading and generated ids are parameters.
 */
module MemoryUserStore {
  import opened Common
  import opened Users

  /** One day in milliseconds, the age after which a session is dropped. */
  const Day := 24 * 60 * 60 * 1000

  /** The `TypeError` raised when the chosen buyer has no location. */
  const NullAddress := "Cannot read properties of null (reading 'address')"

  /** `getUser`: get-or-create. A known user is returned with only
      `lastInteraction` changed; an unknown phone gets a fresh record, placed
      last. */
  function GetUser(s: Store, phone: string, now: Timestamp): (out: (Store, User))
    requires Valid(s.users)
    ensures Valid(out.0.users) && out.0.locks == s.locks
    ensures out.1.phone == phone && out.1.lastInteraction == now
    ensures phone in s.users.rows ==> out.1 == s.users.rows[phone].(lastInteraction := now)
    ensures phone !in s.users.rows ==> out.1 == NewUser(phone, now)
    ensures out.0.users.rows == s.users.rows[phone := out.1]
  {
    var u := if phone in s.users.rows then s.users.rows[phone].(lastInteraction := now) else NewUser(phone, now);
    (s.(users := Put(s.users, u)), u)
  }

  /** Getting a user twice at the same instant is the same as getting it once. */
  lemma GetUserIdempotent(s: Store, phone: string, now: Timestamp)
    requires Valid(s.users)
    ensures GetUser(GetUser(s, phone, now).0, phone, now) == GetUser(s, phone, now)
  {
    var (s1, u) := GetUser(s, phone, now);
    assert s1.users.rows[phone := u] == s1.users.rows;
  }

  /** `setRole`: rejects anything but buyer, seller and rider before touching
      any user; otherwise sets the role and the role's first state. */
  function SetRole(s: Store, phone: string, role: string, now: Timestamp): (out: (Store, Result<User>))
    requires Valid(s.users)
    ensures Valid(out.0.users) && out.0.locks == s.locks
    ensures role !in {"buyer", "seller", "rider"} ==> out == (s, Err(InvalidRole))
    ensures role in {"buyer", "seller", "rider"} ==>
              && out.1.Ok?
              && out.1.value == GetUser(s, phone, now).1.(role := ParseRole(role), state := StateForRole(ParseRole(role).value))
              && out.0.users.rows == s.users.rows[phone := out.1.value]
  {
    var r := ParseRole(role);
    if r.None? then (s, Err(InvalidRole))
    else
      var (s1, u) := GetUser(s, phone, now);
      var u' := u.(role := r, state := StateForRole(r.value));
      (Save(s1, u'), Ok(u'))
  }

  /** `setRiderArea` as written: the user is fetched (and so possibly
      created) before the code is checked, and the check is a property read
      on the area table, which also accepts the names every object inherits;
      an accepted code is stored and the state becomes `browsing_menu`. */
  function SetRiderAreaAsWritten(s: Store, phone: string, code: string, now: Timestamp): (out: (Store, Result<User>))
    requires Valid(s.users)
    ensures Valid(out.0.users) && out.0.locks == s.locks
    ensures !AreaAcceptedAsWritten(code) ==> out == (GetUser(s, phone, now).0, Err(InvalidArea))
    ensures AreaAcceptedAsWritten(code) ==>
              && out.1.Ok?
              && out.1.value == GetUser(s, phone, now).1.(preferredArea := Some(code), state := BrowsingMenu)
              && out.0.users.rows == s.users.rows[phone := out.1.value]
  {
    var (s1, u) := GetUser(s, phone, now);
    if !AreaAcceptedAsWritten(code) then (s1, Err(InvalidArea))
    else
      var u' := u.(preferredArea := Some(code), state := BrowsingMenu);
      (Save(s1, u'), Ok(u'))
  }

  /** `setRiderArea`, corrected: only the area table's own keys are accepted. */
  function SetRiderArea(s: Store, phone: string, code: string, now: Timestamp): (out: (Store, Result<User>))
    requires Valid(s.users)
    ensures Valid(out.0.users) && out.0.locks == s.locks
    ensures !IsAreaCode(code) ==> out == (GetUser(s, phone, now).0, Err(InvalidArea))
    ensures IsAreaCode(code) ==>
              && out.1.Ok?
              && out.1.value == GetUser(s, phone, now).1.(preferredArea := Some(code), state := BrowsingMenu)
              && out.0.users.rows == s.users.rows[phone := out.1.value]
  {
    var (s1, u) := GetUser(s, phone, now);
    if !IsAreaCode(code) then (s1, Err(InvalidArea))
    else
      var u' := u.(preferredArea := Some(code), state := BrowsingMenu);
      (Save(s1, u'), Ok(u'))
  }

  /** The correction changes nothing for a real area code, nor for any code
      that is not an inherited property name. */
  lemma RiderAreaCorrectionAgrees(s: Store, phone: string, code: string, now: Timestamp)
    requires Valid(s.users)
    requires IsAreaCode(code) || code !in PrototypeKeys
    ensures SetRiderArea(s, phone, code, now) == SetRiderAreaAsWritten(s, phone, code, now)
  {
    AreaCheckRefines(code);
  }

  /** As written, "constructor" is accepted and stored as the rider's area,
      so the table no longer names only real areas; the corrected operation
      refuses it. */
  lemma ConstructorStoredAsArea(s: Store, phone: string, now: Timestamp)
    requires Valid(s.users)
    ensures var out := SetRiderAreaAsWritten(s, phone, "constructor", now);
            && out.1.Ok?
            && out.0.users.rows[phone].preferredArea == Some("constructor")
            && out.0.users.rows[phone].state == BrowsingMenu
            && !AreasKnown(out.0.users)
    ensures SetRiderArea(s, phone, "constructor", now).1 == Err(InvalidArea)
  {
    ConstructorAcceptedAsArea();
  }

  /** A fetched user keeps its area, and a new user has none. */
  lemma GetUserKeepsAreasKnown(s: Store, phone: string, now: Timestamp)
    requires Valid(s.users) && AreasKnown(s.users)
    ensures AreasKnown(GetUser(s, phone, now).0.users)
  {
  }

  /** The corrected operation only ever stores a real area. */
  lemma SetRiderAreaKeepsAreasKnown(s: Store, phone: string, code: string, now: Timestamp)
    requires Valid(s.users) && AreasKnown(s.users)
    ensures AreasKnown(SetRiderArea(s, phone, code, now).0.users)
  {
    GetUserKeepsAreasKnown(s, phone, now);
  }

  /** A record written back is what the next `getUser` returns, up to the
      refreshed `lastInteraction`. */
  lemma SavedUserReadBack(s: Store, u: User, later: Timestamp)
    requires Valid(s.users)
    ensures GetUser(Save(s, u), u.phone, later).1 == u.(lastInteraction := later)
  {
  }

  /** After a rider picks an area, fetching the rider shows that area and the
      menu state. */
  lemma RiderAreaReadBack(s: Store, phone: string, code: string, now: Timestamp, later: Timestamp)
    requires Valid(s.users) && IsAreaCode(code)
    ensures var u := GetUser(SetRiderArea(s, phone, code, now).0, phone, later).1;
            u.preferredArea == Some(code) && u.state == BrowsingMenu && u.lastInteraction == later
  {
    var (s1, u) := GetUser(s, phone, now);
    SavedUserReadBack(s1, u.(preferredArea := Some(code), state := BrowsingMenu), later);
  }

  /** `setState`: sets the state, then copies the patch over the user, so a
      state in the patch wins. */
  function SetState(s: Store, phone: string, state: string, patch: UserPatch, now: Timestamp): (out: (Store, User))
    requires Valid(s.users)
    ensures Valid(out.0.users) && out.0.locks == s.locks
    ensures out.0.users.rows == s.users.rows[phone := out.1]
    ensures out.1.state == (if patch.state.Some? then patch.state.value else state)
    ensures var u := GetUser(s, phone, now).1;
            && out.1.phone == phone && out.1.lastInteraction == now && out.1.profileName == u.profileName
            && out.1.createdAt == u.createdAt
            && (patch.role.None? ==> out.1.role == u.role)
            && (patch.currentOrder.None? ==> out.1.currentOrder == u.currentOrder)
            && (patch.currentDelivery.None? ==> out.1.currentDelivery == u.currentDelivery)
            && (patch.preferredArea.None? ==> out.1.preferredArea == u.preferredArea)
            && (patch.location.None? ==> out.1.location == u.location)
    ensures patch.role.Some? ==> out.1.role == patch.role.value
    ensures patch.currentOrder.Some? ==> out.1.currentOrder == patch.currentOrder.value
    ensures patch.currentDelivery.Some? ==> out.1.currentDelivery == patch.currentDelivery.value
    ensures patch.preferredArea.Some? ==> out.1.preferredArea == patch.preferredArea.value
    ensures patch.location.Some? ==> out.1.location == patch.location.value
  {
    var (s1, u) := GetUser(s, phone, now);
    var u' := Patched(u, state, patch);
    (Save(s1, u'), u')
  }

  /** What `setState` returns is what the next `getUser` returns. */
  lemma StateReadBack(s: Store, phone: string, state: string, patch: UserPatch, now: Timestamp, later: Timestamp)
    requires Valid(s.users)
    ensures var (s', u) := SetState(s, phone, state, patch, now);
            GetUser(s', phone, later).1 == u.(lastInteraction := later)
  {
    var (s1, u) := GetUser(s, phone, now);
    SavedUserReadBack(s1, Patched(u, state, patch), later);
  }

  /** `setOrder`: a new order awaiting payment replaces the current one. */
  function SetOrder(s: Store, phone: string, mealId: string, mealName: string, price: int, now: Timestamp): (out: (Store, User))
    requires Valid(s.users)
    ensures Valid(out.0.users) && out.0.locks == s.locks
    ensures out.0.users.rows == s.users.rows[phone := out.1]
    ensures out.1 == GetUser(s, phone, now).1.(currentOrder := Some(NewOrder(mealId, mealName, price, now)))
  {
    var (s1, u) := GetUser(s, phone, now);
    var u' := u.(currentOrder := Some(NewOrder(mealId, mealName, price, now)));
    (Save(s1, u'), u')
  }

  /** `confirmPayment`: marks the current order paid; a user without an order
      is left as `getUser` left it. */
  function ConfirmPayment(s: Store, phone: string, transactionId: string, receiptNumber: string, now: Timestamp): (out: (Store, User))
    requires Valid(s.users)
    ensures Valid(out.0.users) && out.0.locks == s.locks
    ensures out.0.users.rows == s.users.rows[phone := out.1]
    ensures GetUser(s, phone, now).1.currentOrder.None? ==> out == GetUser(s, phone, now)
    ensures var u := GetUser(s, phone, now).1;
            u.currentOrder.Some? ==>
              && out.1 == u.(currentOrder := out.1.currentOrder)
              && out.1.currentOrder.Some?
              && out.1.currentOrder.value == u.currentOrder.value.(status := PaymentConfirmed,
                   transactionId := Some(transactionId), receiptNumber := Some(receiptNumber), paidAt := Some(now))
  {
    var (s1, u) := GetUser(s, phone, now);
    if u.currentOrder.None? then (s1, u)
    else
      var o := u.currentOrder.value;
      var u' := u.(currentOrder := Some(o.(status := PaymentConfirmed, transactionId := Some(transactionId),
                                           receiptNumber := Some(receiptNumber), paidAt := Some(now))));
      (Save(s1, u'), u')
  }

  /** Setting then confirming an order leaves it paid for, with the meal kept. */
  lemma OrderThenPayment(s: Store, phone: string, mealId: string, mealName: string, price: int,
                         txn: string, receipt: string, now: Timestamp, later: Timestamp)
    requires Valid(s.users)
    ensures var s1 := SetOrder(s, phone, mealId, mealName, price, now).0;
            var u := ConfirmPayment(s1, phone, txn, receipt, later).1;
            && IsConfirmed(u)
            && u.currentOrder.value.mealId == Some(mealId)
            && u.currentOrder.value.transactionId == Some(txn)
  {
  }

  /** `setLocation`: records the address and moves to `order_confirmed`. */
  function SetLocation(s: Store, phone: string, address: string, now: Timestamp): (out: (Store, User))
    requires Valid(s.users)
    ensures Valid(out.0.users) && out.0.locks == s.locks
    ensures out.0.users.rows == s.users.rows[phone := out.1]
    ensures out.1 == GetUser(s, phone, now).1.(location := Some(Location(Some(address), None, now)), state := OrderConfirmed)
  {
    var (s1, u) := GetUser(s, phone, now);
    var u' := u.(location := Some(Location(Some(address), None, now)), state := OrderConfirmed);
    (Save(s1, u'), u')
  }

  /** After a buyer gives an address, fetching the buyer shows it. */
  lemma LocationReadBack(s: Store, phone: string, address: string, now: Timestamp, later: Timestamp)
    requires Valid(s.users)
    ensures var u := GetUser(SetLocation(s, phone, address, now).0, phone, later).1;
            u.location == Some(Location(Some(address), None, now)) && u.state == OrderConfirmed
  {
    var (s1, u) := GetUser(s, phone, now);
    SavedUserReadBack(s1, u.(location := Some(Location(Some(address), None, now)), state := OrderConfirmed), later);
  }

  // ---------------------------------------------------------------------------
  // Listings over all users

  /** An entry of `getActiveOrders`: the order, its user's phone and location. */
  datatype ActiveOrder = ActiveOrder(order: Order, userPhone: string, location: Option<Location>)

  function ActiveOrderOf(u: User): Option<ActiveOrder> {
    if IsConfirmed(u) then Some(ActiveOrder(u.currentOrder.value, u.phone, u.location)) else None
  }

  /** `getActiveOrders`: the orders whose payment is confirmed, in insertion order. */
  function GetActiveOrders(s: Store): (r: seq<ActiveOrder>)
    requires Valid(s.users)
    ensures forall a :: a in r <==> exists u :: u in Records(s.users) && ActiveOrderOf(u) == Some(a)
  {
    Collect(Records(s.users), ActiveOrderOf)
  }

  /** A stored user appears in `getActiveOrders` exactly when its current
      order's payment is confirmed. */
  lemma ActiveOrdersExact(s: Store, phone: string)
    requires Valid(s.users)
    requires phone in s.users.rows
    ensures (exists a :: a in GetActiveOrders(s) && a.userPhone == phone) <==> IsConfirmed(s.users.rows[phone])
  {
    var r := GetActiveOrders(s);
    var u := s.users.rows[phone];
    RecordsAreRows(s.users, u);
    if IsConfirmed(u) {
      assert ActiveOrderOf(u).value in r;
    }
    if a :| a in r && a.userPhone == phone {
      var v :| v in Records(s.users) && ActiveOrderOf(v) == Some(a);
      RecordsAreRows(s.users, v);
    }
  }

  /** The record `assignDelivery` stores: the rider and status always win, an
      `id` in the data wins over the generated one, and every other field of
      the data is kept. */
  function Assignment(data: Record, deliveryId: string, riderPhone: string, now: Timestamp): (d: Record)
    ensures Get(d, "riderId") == VStr(riderPhone)
    ensures Get(d, "status") == VStr("assigned")
    ensures Get(d, "assignedAt") == VNum(now)
    ensures Get(d, "id") == (if "id" in data then data["id"] else VStr(deliveryId))
    ensures forall k :: k in data && k !in {"riderId", "status", "assignedAt"} ==> Get(d, k) == data[k]
  {
    map["id" := VStr(deliveryId)] + data
    + map["riderId" := VStr(riderPhone), "status" := VStr("assigned"), "assignedAt" := VNum(now)]
  }

  /** `assignDelivery`: only a rider can take a delivery; the rider's record
      then carries the assignment. */
  function AssignDelivery(s: Store, riderPhone: string, data: Record, deliveryId: string, now: Timestamp): (out: (Store, Result<Record>))
    requires Valid(s.users)
    ensures Valid(out.0.users) && out.0.locks == s.locks
    ensures GetUser(s, riderPhone, now).1.role != Some(Rider) ==> out == (GetUser(s, riderPhone, now).0, Err(NotRider))
    ensures GetUser(s, riderPhone, now).1.role == Some(Rider) ==>
              && out.1 == Ok(Assignment(data, deliveryId, riderPhone, now))
              && out.0.users.rows == s.users.rows[riderPhone := GetUser(s, riderPhone, now).1.(currentDelivery := Some(out.1.value))]
  {
    var (s1, rider) := GetUser(s, riderPhone, now);
    if rider.role != Some(Rider) then (s1, Err(NotRider))
    else
      var d := Assignment(data, deliveryId, riderPhone, now);
      (Save(s1, rider.(currentDelivery := Some(d))), Ok(d))
  }

  /** After an assignment, fetching the rider shows the delivery returned. */
  lemma AssignmentReadBack(s: Store, riderPhone: string, data: Record, deliveryId: string, now: Timestamp, later: Timestamp)
    requires Valid(s.users)
    requires AssignDelivery(s, riderPhone, data, deliveryId, now).1.Ok?
    ensures var (s', r) := AssignDelivery(s, riderPhone, data, deliveryId, now);
            GetUser(s', riderPhone, later).1.currentDelivery == Some(r.value)
  {
    var (s1, rider) := GetUser(s, riderPhone, now);
    SavedUserReadBack(s1, rider.(currentDelivery := Some(Assignment(data, deliveryId, riderPhone, now))), later);
  }

  /** An entry of `getAvailableDeliveries`. */
  datatype Offer = Offer(
    orderId: Option<string>,
    buyerPhone: string,
    buyerName: Value,
    pickupLocation: string,
    dropoffLocation: Option<string>,
    area: Option<string>,
    meal: Option<string>,
    price: Option<int>,
    earnings: Value,
    status: string)

  /** A paid order of a buyer who has given a location. */
  predicate Deliverable(u: User) {
    u.role == Some(Buyer) && IsConfirmed(u) && u.location.Some?
  }

  function OfferOf(u: User): Option<Offer> {
    if Deliverable(u) then
      var o := u.currentOrder.value;
      Some(Offer(o.mealId, u.phone, DisplayName(u), "Roho Kitchen", u.location.value.address,
                 u.location.value.area, o.mealName, o.price, Earnings(o.price), "pending"))
    else None
  }

  /** `getAvailableDeliveries`: the rider is fetched first (and so possibly
      created), then every deliverable order is offered. */
  function GetAvailableDeliveries(s: Store, riderPhone: string, now: Timestamp): (out: (Store, seq<Offer>))
    requires Valid(s.users)
    ensures out.0 == GetUser(s, riderPhone, now).0
    ensures forall x :: x in out.1 <==> exists u :: u in Records(out.0.users) && OfferOf(u) == Some(x)
  {
    var (s1, _) := GetUser(s, riderPhone, now);
    (s1, Collect(Records(s1.users), OfferOf))
  }

  /** Every offer is the paid order of a buyer with a location, and its
      earnings are 15% of its price. */
  lemma OffersAreDeliverable(s: Store, riderPhone: string, now: Timestamp, x: Offer)
    requires Valid(s.users)
    requires x in GetAvailableDeliveries(s, riderPhone, now).1
    ensures x.buyerPhone in GetAvailableDeliveries(s, riderPhone, now).0.users.rows
    ensures Deliverable(GetAvailableDeliveries(s, riderPhone, now).0.users.rows[x.buyerPhone])
    ensures x.earnings == Earnings(x.price)
  {
    var t := GetAvailableDeliveries(s, riderPhone, now).0.users;
    var u :| u in Records(t) && OfferOf(u) == Some(x);
    RecordsAreRows(t, u);
  }

  /** An entry of `getOrdersByArea`. */
  datatype AreaOrder = AreaOrder(
    orderId: Option<string>,
    buyerPhone: string,
    meal: Option<string>,
    price: Option<int>,
    earnings: Value,
    location: Option<string>,
    area: string)

  function AreaOrderOf(code: string): User -> Option<AreaOrder> {
    (u: User) =>
      if Deliverable(u) && u.location.value.area == Some(code) then
        var o := u.currentOrder.value;
        Some(AreaOrder(o.mealId, u.phone, o.mealName, o.price, Earnings(o.price), u.location.value.address, code))
      else None
  }

  /** `getOrdersByArea`: the deliverable orders located in the given area. */
  function GetOrdersByArea(s: Store, code: string): (r: seq<AreaOrder>)
    requires Valid(s.users)
    ensures forall x :: x in r <==> exists u :: u in Records(s.users) && AreaOrderOf(code)(u) == Some(x)
  {
    Collect(Records(s.users), AreaOrderOf(code))
  }

  /** The orders of an area are among the available deliveries, narrowed to
      the users whose location names that area. */
  lemma AreaOrdersAreDeliverable(s: Store, code: string, x: AreaOrder)
    requires Valid(s.users)
    requires x in GetOrdersByArea(s, code)
    ensures x.buyerPhone in s.users.rows
    ensures Deliverable(s.users.rows[x.buyerPhone])
    ensures s.users.rows[x.buyerPhone].location.value.area == Some(code) && x.area == code
  {
    var u :| u in Records(s.users) && AreaOrderOf(code)(u) == Some(x);
    RecordsAreRows(s.users, u);
  }

  /** `cleanupOldSessions`: drops every user idle for more than a day. */
  function CleanupOldSessions(s: Store, now: Timestamp): (s': Store)
    requires Valid(s.users)
    ensures Valid(s'.users) && s'.locks == s.locks
    ensures forall k :: k in s'.users.rows <==> k in s.users.rows && s.users.rows[k].lastInteraction >= now - Day
    ensures forall k :: k in s'.users.rows ==> s'.users.rows[k] == s.users.rows[k]
  {
    s.(users := Filter(s.users, (u: User) => u.lastInteraction >= now - Day))
  }

  /** A user fetched now survives a cleanup at any time within the next day. */
  lemma FreshUserSurvivesCleanup(s: Store, phone: string, now: Timestamp, later: Timestamp)
    requires Valid(s.users)
    requires later <= now + Day
    ensures phone in CleanupOldSessions(GetUser(s, phone, now).0, later).users.rows
  {
  }

  // ---------------------------------------------------------------------------
  // Booking

  /** The buyer holds a paid order for the meal id `orderId`. */
  predicate Bookable(u: User, orderId: string) {
    u.role == Some(Buyer) && IsConfirmed(u) && u.currentOrder.value.mealId == Some(orderId)
  }

  /** Phones of the users `bookOrder` could pick for `orderId`. */
  ghost function Bookables(t: Table, orderId: string): set<string> {
    set k | k in t.rows && Bookable(t.rows[k], orderId)
  }

  /** `b` is the last bookable user in insertion order. */
  ghost predicate LastBookable(t: Table, orderId: string, b: string) {
    exists i :: 0 <= i < |t.order| && t.order[i] == b && b in t.rows && Bookable(t.rows[b], orderId)
      && forall j :: i < j < |t.order| ==> t.order[j] in t.rows && !Bookable(t.rows[t.order[j]], orderId)
  }

  /** The two writes of a successful booking, in source order: the rider's
      record (`rider`, already carrying the delivery) and then the order of
      buyer `b`, read back after the first write since the two may be the
      same user. */
  function Commit(s: Store, b: string, rider: User): (s': Store)
    requires Valid(s.users)
    requires b in s.users.rows && s.users.rows[b].currentOrder.Some?
    requires rider.phone == b ==> rider.currentOrder == s.users.rows[b].currentOrder
    ensures Valid(s'.users) && s'.locks == s.locks
    ensures forall k :: k in s'.users.rows <==> k in s.users.rows || k == rider.phone
    ensures s'.users.rows[b].currentOrder == Some(AssignedTo(s.users.rows[b].currentOrder.value, rider.phone))
    ensures s'.users.rows[rider.phone].currentDelivery == rider.currentDelivery
    ensures s'.users.rows[b] == (if rider.phone == b then rider else s.users.rows[b]).(currentOrder := s'.users.rows[b].currentOrder)
    ensures rider.phone != b ==> s'.users.rows[rider.phone] == rider
    ensures forall k :: k in s.users.rows && k != b && k != rider.phone ==> s'.users.rows[k] == s.users.rows[k]
  {
    var o := s.users.rows[b].currentOrder.value;
    var s2 := Save(s, rider);
    var b2 := s2.users.rows[b];
    Save(s2, b2.(currentOrder := Some(AssignedTo(o, rider.phone))))
  }

  /** `bookOrder`: refuses an order id that is locked; otherwise takes the
      lock, picks the last bookable buyer, gives the rider the delivery, marks
      the buyer's order assigned, and releases the lock on every way out. The
      rider is fetched before the buyer's address is read, so a buyer without
      a location fails after that fetch. */
  function BookOrder(s: Store, riderPhone: string, orderId: string, now: Timestamp): (out: (Store, BookResult))
    requires Valid(s.users)
    ensures Valid(out.0.users) && out.0.locks == s.locks
    ensures orderId in s.locks ==> out == (s, Refused(AlreadyBooking))
    ensures out.1 == Refused(OrderNotFound) ==> out.0 == s
  {
    if orderId in s.locks then (s, Refused(AlreadyBooking))
    else
      var held := s.(locks := s.locks + {orderId});
      var us := Records(s.users);
      var m := LastMatch(us, (u: User) => Bookable(u, orderId));
      if m.None? then
        (held.(locks := held.locks - {orderId}), Refused(OrderNotFound))
      else
        var buyer := us[m.value];
        var (s1, rider) := GetUser(held, riderPhone, now);
        if buyer.location.None? then
          (s1.(locks := s1.locks - {orderId}), Refused(NullAddress))
        else
          var d := DeliveryRecord(orderId, buyer, buyer.currentOrder.value, OptStr(buyer.location.value.address),
                                  OptStr(buyer.location.value.area), now);
          var s3 := Commit(s1, buyer.phone, rider.(currentDelivery := Some(d)));
          (s3.(locks := s3.locks - {orderId}), Booked(d))
  }

  /** `bookOrder` answers "not found" exactly when the order id is not locked
      and no user holds that paid order. */
  lemma NotFoundExact(s: Store, riderPhone: string, orderId: string, now: Timestamp)
    requires Valid(s.users)
    ensures BookOrder(s, riderPhone, orderId, now).1 == Refused(OrderNotFound)
            <==> orderId !in s.locks && Bookables(s.users, orderId) == {}
  {
    if orderId !in s.locks {
      var us := Records(s.users);
      var m := LastMatch(us, (u: User) => Bookable(u, orderId));
      if m.None? {
        NoMatchNoBookables(s.users, orderId);
      } else {
        var buyer := us[m.value];
        RecordsAreRows(s.users, buyer);
        assert buyer.phone in Bookables(s.users, orderId);
      }
    }
  }

  lemma NoMatchNoBookables(t: Table, orderId: string)
    requires Valid(t)
    requires LastMatch(Records(t), (u: User) => Bookable(u, orderId)).None?
    ensures Bookables(t, orderId) == {}
  {
    var us := Records(t);
    forall k | k in t.rows
      ensures !Bookable(t.rows[k], orderId)
    {
      RecordsAreRows(t, t.rows[k]);
      var i :| 0 <= i < |us| && us[i] == t.rows[k];
    }
  }

  /** After the writes of a booking, the buyer served is the only one whose
      bookability changed. */
  lemma BookablesAfterCommit(s: Store, b: string, rider: User, orderId: string)
    requires Valid(s.users)
    requires b in s.users.rows && Bookable(s.users.rows[b], orderId)
    requires rider.phone == b ==> rider.currentOrder == s.users.rows[b].currentOrder
    requires rider.phone in s.users.rows && rider.phone != b ==>
               rider.role == s.users.rows[rider.phone].role && rider.currentOrder == s.users.rows[rider.phone].currentOrder
    requires rider.phone !in s.users.rows ==> rider.currentOrder.None?
    ensures Bookables(Commit(s, b, rider).users, orderId) == Bookables(s.users, orderId) - {b}
  {
    BookabilityAfterCommit(s, b, rider, orderId);
    var after := Bookables(Commit(s, b, rider).users, orderId);
    var before := Bookables(s.users, orderId) - {b};
    assert forall k :: k in after <==> k in before;
  }

  lemma BookabilityAfterCommit(s: Store, b: string, rider: User, orderId: string)
    requires Valid(s.users)
    requires b in s.users.rows && Bookable(s.users.rows[b], orderId)
    requires rider.phone == b ==> rider.currentOrder == s.users.rows[b].currentOrder
    requires rider.phone in s.users.rows && rider.phone != b ==>
               rider.role == s.users.rows[rider.phone].role && rider.currentOrder == s.users.rows[rider.phone].currentOrder
    requires rider.phone !in s.users.rows ==> rider.currentOrder.None?
    ensures var t' := Commit(s, b, rider).users;
            forall k :: k in t'.rows && Bookable(t'.rows[k], orderId) <==> k in s.users.rows && Bookable(s.users.rows[k], orderId) && k != b
  {
    var t := s.users;
    var t' := Commit(s, b, rider).users;
    forall k
      ensures k in t'.rows && Bookable(t'.rows[k], orderId) <==> k in t.rows && Bookable(t.rows[k], orderId) && k != b
    {
      if k == b {
        assert t'.rows[b].currentOrder.value.status == AssignedToRider;
      } else if k == rider.phone {
        assert t'.rows[k] == rider;
      } else if k in t.rows {
        assert t'.rows[k] == t.rows[k];
      }
    }
  }

  /** The effect of a successful booking: the buyer chosen is the last
      bookable one, its order is assigned to the rider, the rider carries the
      delivery, and that buyer alone stops being bookable. */
  lemma BookingEffect(s: Store, riderPhone: string, orderId: string, now: Timestamp) returns (b: string)
    requires Valid(s.users)
    requires BookOrder(s, riderPhone, orderId, now).1.Booked?
    ensures LastBookable(s.users, orderId, b)
    ensures var (s', r) := BookOrder(s, riderPhone, orderId, now);
            && Get(r.delivery, "buyerPhone") == VStr(b)
            && Get(r.delivery, "orderId") == VStr(orderId)
            && Get(r.delivery, "status") == VStr("assigned")
            && b in s'.users.rows && riderPhone in s'.users.rows
            && s'.users.rows[b].currentOrder == Some(AssignedTo(s.users.rows[b].currentOrder.value, riderPhone))
            && s'.users.rows[riderPhone].currentDelivery == Some(r.delivery)
            && Bookables(s'.users, orderId) == Bookables(s.users, orderId) - {b}
  {
    b := LastMatchIsLastBookable(s.users, orderId);
    var us := Records(s.users);
    var buyer := us[LastMatch(us, (u: User) => Bookable(u, orderId)).value];
    var held := s.(locks := s.locks + {orderId});
    var (s1, rider) := GetUser(held, riderPhone, now);
    var d := DeliveryRecord(orderId, buyer, buyer.currentOrder.value, OptStr(buyer.location.value.address),
                            OptStr(buyer.location.value.area), now);
    var s3 := Commit(s1, b, rider.(currentDelivery := Some(d)));
    assert BookOrder(s, riderPhone, orderId, now) == (s3.(locks := s3.locks - {orderId}), Booked(d));
    GetUserKeepsBookables(held, riderPhone, now, orderId);
    BookablesAfterCommit(s1, b, rider.(currentDelivery := Some(d)), orderId);
  }

  /** The record `LastMatch` finds is the last bookable user. */
  lemma LastMatchIsLastBookable(t: Table, orderId: string) returns (b: string)
    requires Valid(t)
    requires LastMatch(Records(t), (u: User) => Bookable(u, orderId)).Some?
    ensures b == Records(t)[LastMatch(Records(t), (u: User) => Bookable(u, orderId)).value].phone
    ensures LastBookable(t, orderId, b)
  {
    var us := Records(t);
    var i := LastMatch(us, (u: User) => Bookable(u, orderId)).value;
    b := us[i].phone;
    assert t.order[i] == b;
    assert forall j :: i < j < |t.order| ==> t.order[j] in t.rows && !Bookable(t.rows[t.order[j]], orderId) by {
      forall j | i < j < |t.order| ensures t.order[j] in t.rows && !Bookable(t.rows[t.order[j]], orderId) {
        assert us[j] == t.rows[t.order[j]];
      }
    }
  }

  /** Fetching a user changes nobody's bookability. */
  lemma GetUserKeepsBookables(s: Store, phone: string, now: Timestamp, orderId: string)
    requires Valid(s.users)
    ensures Bookables(GetUser(s, phone, now).0.users, orderId) == Bookables(s.users, orderId)
  {
    var t' := GetUser(s, phone, now).0.users;
    forall k
      ensures k in Bookables(t', orderId) <==> k in Bookables(s.users, orderId)
    {
      if k == phone && k in s.users.rows {
        assert t'.rows[k] == s.users.rows[k].(lastInteraction := now);
      }
    }
  }

  /** Booking the same order id again cannot pick the buyer already served;
      when that buyer was the only candidate, the second attempt is refused
      as not found. */
  lemma RepeatBookingNotFound(s: Store, r1: string, r2: string, orderId: string, now: Timestamp, later: Timestamp)
    requires Valid(s.users)
    requires BookOrder(s, r1, orderId, now).1.Booked?
    requires |Bookables(s.users, orderId)| == 1
    ensures BookOrder(BookOrder(s, r1, orderId, now).0, r2, orderId, later).1 == Refused(OrderNotFound)
  {
    var b := BookingEffect(s, r1, orderId, now);
    NotFoundExact(BookOrder(s, r1, orderId, now).0, r2, orderId, later);
    var bs := Bookables(s.users, orderId);
    assert b in bs;
    assert bs - {b} == {} by {
      assert |bs - {b}| == |bs| - 1;
    }
  }

  /** A booking that fails on a buyer without a location changes no order
      and no delivery: only the rider's `lastInteraction` (or a new record for
      an unknown rider) differs. */
  lemma NullLocationWritesNothing(s: Store, riderPhone: string, orderId: string, now: Timestamp)
    requires Valid(s.users)
    requires BookOrder(s, riderPhone, orderId, now).1 == Refused(NullAddress)
    ensures BookOrder(s, riderPhone, orderId, now).0 == GetUser(s, riderPhone, now).0
    ensures forall k :: k in s.users.rows ==>
              && BookOrder(s, riderPhone, orderId, now).0.users.rows[k].currentOrder == s.users.rows[k].currentOrder
              && BookOrder(s, riderPhone, orderId, now).0.users.rows[k].currentDelivery == s.users.rows[k].currentDelivery
  {
  }
}

=== FILE: rider_bot.dfy ===
/**
 The rider command interpreter: a rider's WhatsApp text is lower-cased,
 trimmed and split on single spaces; the first token selects the action and
 the second, when present, is the order or booking id. Each handler runs the
 matching rider service operation and turns every failure into a reply, so
 handling a command never fails.

 Replies are data: the fixed texts are kept verbatim, the formatted ones
 (lists, confirmations) carry the values they display.
 */
module RiderBot {
  import opened Common
  import opened Text
  import opened RiderService

  datatype Reply =
    | Say(text: string)
    | PendingList(orders: map<string, QueueEntry>)
    | BookedReply(bookingId: string)
    | PickedUp(bookingId: string, location: Value)
    | DeliveryConfirmed(amount: Value)
    | ActiveList(bookings: map<string, Booking>)
    | PaymentInfo(bookingId: string, amount: Value, status: PaymentStatus)
    | ErrorReply(message: string)

  const UsageBook := "Usage: book ORD-12345"
  const UsagePickup := "Usage: pickup BOOK-12345"
  const UsageDelivered := "Usage: delivered BOOK-12345"
  const UsagePayment := "Usage: payment BOOK-12345"
  const HelpText := "Rider commands:\n\n\U{1F4CB} orders - View pending orders\n\U{1F4E6} book ORD-123 - Book an order\n"
                  + "\U{1F69A} pickup BOOK-123 - Confirm pickup\n\U{2705} delivered BOOK-123 - Confirm delivery & release funds\n"
                  + "\U{1F4B0} payment BOOK-123 - Check payment status\n\U{1F4CA} myorders - Your active orders"
  const NoPending := "No pending orders at the moment."
  const NotYours := "Booking not found or not yours."
  const NoActive := "No active bookings. Reply \"orders\" to see pending."

  /** The actions that take an id, with the usage text shown when it is missing. */
  const Usage: map<string, string> :=
    map["book" := UsageBook, "pickup" := UsagePickup, "delivered" := UsageDelivered, "payment" := UsagePayment]

  const Actions: set<string> := {"orders", "book", "pickup", "delivered", "myorders", "payment"}

  /** A parsed command: the action token and the id token, if any. */
  datatype Command = Command(action: string, arg: Option<string>)

  /** The fresh booking id and the clock reading a command may use. */
  datatype Env = Env(bookingId: string, now: Timestamp)

  /** Which `confirmPickup` the bot calls: the source's, which accepts a booking
      in any status, or the corrected one, which accepts only `booked`. */
  datatype Variant = AsWritten | Corrected

  function CommandOf(tokens: seq<string>): Command
    requires |tokens| >= 1
  {
    Command(tokens[0], if |tokens| >= 2 then Some(tokens[1]) else None)
  }

  /** A joined list of space-free tokens holds a space exactly when there are
      at least two tokens. */
  lemma SingleTokenIffNoSpace(tokens: seq<string>)
    requires |tokens| >= 1
    requires forall i :: 0 <= i < |tokens| ==> ' ' !in tokens[i]
    ensures |tokens| == 1 <==> ' ' !in Join(tokens, ' ')
  {
    if |tokens| >= 2 {
      assert Join(tokens, ' ')[|tokens[0]|] == ' ';
    }
  }

  /** The source's tokens, `command.toLowerCase().trim().split(' ')`, are the
      tokens of the trimmed command, each lower-cased. */
  lemma {:induction false} TokensAsWrittenAreLowered(command: string)
    ensures Split(Trim(ToLower(command)), ' ') == LowerAll(Split(Trim(command), ' '))
  {
    TrimLowerCommute(command);
    SplitSpaceLower(Trim(command));
  }

  /** Parsing as the source does it: both the action and the id are lower-cased. */
  function ParseCommandAsWritten(command: string): (c: Command)
    ensures c.action == ToLower(c.action) && ' ' !in c.action
    ensures c.arg.Some? ==> c.arg.value == ToLower(c.arg.value) && ' ' !in c.arg.value
    ensures c.arg.None? <==> ' ' !in Trim(ToLower(command))
  {
    var tokens := Split(Trim(ToLower(command)), ' ');
    TokensAsWrittenAreLowered(command);
    ToLowerIdempotent(Split(Trim(command), ' ')[0]);
    SingleTokenIffNoSpace(tokens);
    if |tokens| >= 2 then
      ToLowerIdempotent(Split(Trim(command), ' ')[1]);
      CommandOf(tokens)
    else
      CommandOf(tokens)
  }

  /** Parsing, corrected: the action is matched case-insensitively but the id
      keeps the case the rider typed, so generated ids such as `ORD-…` and
      `BOOK-…` are found. */
  function ParseCommand(command: string): (c: Command)
    ensures c.action == ToLower(c.action) && ' ' !in c.action
    ensures c.arg.Some? ==> ' ' !in c.arg.value
    ensures c.arg.None? <==> ' ' !in Trim(command)
  {
    var tokens := Split(Trim(command), ' ');
    ToLowerIdempotent(tokens[0]);
    SingleTokenIffNoSpace(tokens);
    LowerCharKeepsSpace(' ');
    Command(ToLower(tokens[0]), if |tokens| >= 2 then Some(tokens[1]) else None)
  }

  /** The two parsers agree on the action; the source's id is the corrected
      id lower-cased. */
  lemma ParseAgreesUpToIdCase(command: string)
    ensures ParseCommandAsWritten(command).action == ParseCommand(command).action
    ensures ParseCommandAsWritten(command).arg.Some? <==> ParseCommand(command).arg.Some?
    ensures ParseCommand(command).arg.Some? ==>
              ParseCommandAsWritten(command).arg.value == ToLower(ParseCommand(command).arg.value)
  {
    TokensAsWrittenAreLowered(command);
  }

  /** The caller is the rider the booking belongs to. */
  predicate Owns(db: RiderDb, riderId: string, bookingId: string) {
    bookingId in db.bookings && db.bookings[bookingId].riderId == riderId
  }

  /** `listPendingOrders`: "no pending orders" exactly when the queue has none. */
  function ListPendingOrders(db: RiderDb): (r: Reply)
    ensures |GetPendingOrders(db)| == 0 <==> r == Say(NoPending)
    ensures r != Say(NoPending) ==> r.PendingList? && |r.orders| > 0 && r.orders == GetPendingOrders(db)
  {
    var orders := GetPendingOrders(db);
    if |orders| == 0 then Say(NoPending) else PendingList(orders)
  }

  /** `handleBookOrder`: books the order and reports the booking id or the error. */
  function HandleBookOrder(db: RiderDb, riderId: string, orderId: string, env: Env): (out: (RiderDb, Reply))
    ensures out.0 == BookOrder(db, riderId, orderId, env.bookingId, env.now).0
    ensures out.1 == BookedReply(env.bookingId) <==> BookOrder(db, riderId, orderId, env.bookingId, env.now).1.Ok?
    ensures out.1 != BookedReply(env.bookingId) ==> out.0 == db && out.1.ErrorReply?
    ensures PathError(orderId).Some? ==> out == (db, ErrorReply(PathError(orderId).value))
    ensures PathError(orderId).None? && (orderId !in db.queue || db.queue[orderId].status != PendingBooking) ==>
              out == (db, ErrorReply(NotAvailable))
  {
    var (db', res) := BookOrder(db, riderId, orderId, env.bookingId, env.now);
    match res
    case Ok(b) => (db', BookedReply(b))
    case Err(m) => (db', ErrorReply(m))
  }

  /** `handlePickup`: only the booking's own rider gets as far as `confirmPickup`.
      As written, the owner's pickup always succeeds, whatever the booking's
      status; corrected, it succeeds only from `booked`. */
  function HandlePickup(db: RiderDb, riderId: string, bookingId: string, env: Env, v: Variant): (out: (RiderDb, Reply))
    ensures PathError(bookingId).Some? ==> out == (db, ErrorReply(PathError(bookingId).value))
    ensures PathError(bookingId).None? && !Owns(db, riderId, bookingId) ==> out == (db, Say(NotYours))
    ensures PathError(bookingId).None? && Owns(db, riderId, bookingId) && v == AsWritten ==>
              out == (ConfirmPickupAsWritten(db, bookingId, env.now).0, PickedUp(bookingId, db.bookings[bookingId].location))
    ensures PathError(bookingId).None? && Owns(db, riderId, bookingId) && v == Corrected ==>
              out.0 == ConfirmPickup(db, bookingId, env.now).0
    ensures PathError(bookingId).None? && Owns(db, riderId, bookingId) && v == Corrected
            && db.bookings[bookingId].status == Booked ==>
              out.1 == PickedUp(bookingId, db.bookings[bookingId].location)
    ensures PathError(bookingId).None? && Owns(db, riderId, bookingId) && v == Corrected
            && db.bookings[bookingId].status != Booked ==>
              out == (db, ErrorReply(NotAwaitingPickup))
  {
    if PathError(bookingId).Some? then (db, ErrorReply(PathError(bookingId).value))
    else if !Owns(db, riderId, bookingId) then (db, Say(NotYours))
    else
      var (db', res) := if v == AsWritten then ConfirmPickupAsWritten(db, bookingId, env.now)
                        else ConfirmPickup(db, bookingId, env.now);
      match res
      case Ok(_) => (db', PickedUp(bookingId, db.bookings[bookingId].location))
      case Err(m) => (db', ErrorReply(m))
  }

  /** `handleDeliveryConfirm`: the same ownership guard before `confirmDelivery`,
      so a rider can only release the payment of their own booking. */
  function HandleDeliveryConfirm(db: RiderDb, riderId: string, bookingId: string, env: Env): (out: (RiderDb, Reply))
    ensures PathError(bookingId).Some? ==> out == (db, ErrorReply(PathError(bookingId).value))
    ensures PathError(bookingId).None? && !Owns(db, riderId, bookingId) ==> out == (db, Say(NotYours))
    ensures PathError(bookingId).None? && Owns(db, riderId, bookingId) ==> out.0 == ConfirmDelivery(db, bookingId, env.now).0
    ensures PathError(bookingId).None? && Owns(db, riderId, bookingId) && bookingId in db.payments ==>
              out.1 == DeliveryConfirmed(db.bookings[bookingId].price)
    ensures PathError(bookingId).None? && Owns(db, riderId, bookingId) && bookingId !in db.payments ==>
              out.1 == ErrorReply(NoDocument)
  {
    if PathError(bookingId).Some? then (db, ErrorReply(PathError(bookingId).value))
    else if !Owns(db, riderId, bookingId) then (db, Say(NotYours))
    else
      var (db', res) := ConfirmDelivery(db, bookingId, env.now);
      match res
      case Ok(_) => (db', DeliveryConfirmed(db.bookings[bookingId].price))
      case Err(m) => (db', ErrorReply(m))
  }

  /** `listRiderActiveOrders`: the rider's active bookings, or a hint when none. */
  function ListRiderActiveOrders(db: RiderDb, riderId: string): (r: Reply)
    ensures |GetRiderBookings(db, riderId)| == 0 <==> r == Say(NoActive)
    ensures r != Say(NoActive) ==> r == ActiveList(GetRiderBookings(db, riderId))
  {
    var bookings := GetRiderBookings(db, riderId);
    if |bookings| == 0 then Say(NoActive) else ActiveList(bookings)
  }

  /** `checkPaymentStatus`: amount and status of the payment, or the error. */
  function CheckPaymentStatus(db: RiderDb, bookingId: string): (r: Reply)
    ensures PathError(bookingId).Some? ==> r == ErrorReply(PathError(bookingId).value)
    ensures PathError(bookingId).None? && bookingId in db.payments ==>
              r == PaymentInfo(bookingId, db.payments[bookingId].amount, db.payments[bookingId].status)
    ensures PathError(bookingId).None? && bookingId !in db.payments ==> r == ErrorReply(PaymentNotFound)
  {
    match GetPaymentStatus(db, bookingId)
    case Ok(p) => PaymentInfo(bookingId, p.amount, p.status)
    case Err(m) => ErrorReply(m)
  }

  /** The `switch (action)` of `handleRiderCommand`: which handler each action
      reaches, and which actions can change state. */
  function Dispatch(db: RiderDb, riderId: string, c: Command, env: Env, v: Variant): (out: (RiderDb, Reply))
    ensures c.action !in Actions ==> out == (db, Say(HelpText))
    ensures c.action in Usage && c.arg.None? ==> out == (db, Say(Usage[c.action]))
    ensures c.action !in {"book", "pickup", "delivered"} ==> out.0 == db
    ensures c.action == "orders" ==> out.1 == ListPendingOrders(db)
    ensures c.action == "myorders" ==> out.1 == ListRiderActiveOrders(db, riderId)
    ensures c.action == "book" && c.arg.Some? ==> out == HandleBookOrder(db, riderId, c.arg.value, env)
    ensures c.action == "pickup" && c.arg.Some? ==> out == HandlePickup(db, riderId, c.arg.value, env, v)
    ensures c.action == "delivered" && c.arg.Some? ==> out == HandleDeliveryConfirm(db, riderId, c.arg.value, env)
    ensures c.action == "payment" && c.arg.Some? ==> out.1 == CheckPaymentStatus(db, c.arg.value)
  {
    if c.action == "orders" then (db, ListPendingOrders(db))
    else if c.action == "myorders" then (db, ListRiderActiveOrders(db, riderId))
    else if c.action in Usage && c.arg.None? then (db, Say(Usage[c.action]))
    else if c.action == "book" then HandleBookOrder(db, riderId, c.arg.value, env)
    else if c.action == "pickup" then HandlePickup(db, riderId, c.arg.value, env, v)
    else if c.action == "delivered" then HandleDeliveryConfirm(db, riderId, c.arg.value, env)
    else if c.action == "payment" then (db, CheckPaymentStatus(db, c.arg.value))
    else (db, Say(HelpText))
  }

  /** `handleRiderCommand` as written: the whole command is lower-cased, so the
      order or booking id the rider typed reaches its handler lower-cased, and
      pickup accepts a booking in any status. */
  function HandleRiderCommandAsWritten(db: RiderDb, riderId: string, command: string, env: Env): (out: (RiderDb, Reply))
    ensures var c := ParseCommand(command);
            && (c.action !in Actions ==> out == (db, Say(HelpText)))
            && (c.action in Usage && c.arg.None? ==> out == (db, Say(Usage[c.action])))
            && (c.action == "orders" ==> out == (db, ListPendingOrders(db)))
            && (c.action == "myorders" ==> out == (db, ListRiderActiveOrders(db, riderId)))
            && (c.action == "book" && c.arg.Some? ==> out == HandleBookOrder(db, riderId, ToLower(c.arg.value), env))
            && (c.action == "pickup" && c.arg.Some? ==>
                  out == HandlePickup(db, riderId, ToLower(c.arg.value), env, AsWritten))
            && (c.action == "delivered" && c.arg.Some? ==>
                  out == HandleDeliveryConfirm(db, riderId, ToLower(c.arg.value), env))
            && (c.action == "payment" && c.arg.Some? ==> out == (db, CheckPaymentStatus(db, ToLower(c.arg.value))))
  {
    ParseAgreesUpToIdCase(command);
    Dispatch(db, riderId, ParseCommandAsWritten(command), env, AsWritten)
  }

  /** `handleRiderCommand` corrected: ids keep their case and pickup accepts
      only a booked booking. */
  function HandleRiderCommand(db: RiderDb, riderId: string, command: string, env: Env): (out: (RiderDb, Reply))
    ensures var c := ParseCommand(command);
            && (c.action !in Actions ==> out == (db, Say(HelpText)))
            && (' ' !in Trim(command) && c.action in Usage ==> out == (db, Say(Usage[c.action])))
            && (c.action == "orders" ==> out == (db, ListPendingOrders(db)))
            && (c.action == "myorders" ==> out == (db, ListRiderActiveOrders(db, riderId)))
            && (c.action == "book" && c.arg.Some? ==> out == HandleBookOrder(db, riderId, c.arg.value, env))
            && (c.action == "pickup" && c.arg.Some? ==> out == HandlePickup(db, riderId, c.arg.value, env, Corrected))
            && (c.action == "delivered" && c.arg.Some? ==> out == HandleDeliveryConfirm(db, riderId, c.arg.value, env))
            && (c.action == "payment" && c.arg.Some? ==> out == (db, CheckPaymentStatus(db, c.arg.value)))
  {
    Dispatch(db, riderId, ParseCommand(command), env, Corrected)
  }

  // ---------------------------------------------------------------------------
  // Properties

  /** No rider command writes the rider registry, so whoever is registered
      stays registered and nobody else becomes so. */
  lemma DispatchKeepsRegistry(db: RiderDb, riderId: string, c: Command, env: Env, v: Variant, phone: string, up: bool)
    ensures IsRegisteredRider(Dispatch(db, riderId, c, env, v).0, phone, up) == IsRegisteredRider(db, phone, up)
  {
  }

  /** No command from a rider other than the booking's own touches that booking
      or its payment; in particular only the owner can release the payment. */
  lemma NonOwnerCannotTouchBooking(db: RiderDb, riderId: string, c: Command, env: Env, v: Variant, b: string)
    requires b in db.bookings && db.bookings[b].riderId != riderId
    requires env.bookingId != b
    ensures var db' := Dispatch(db, riderId, c, env, v).0;
            && b in db'.bookings && db'.bookings[b] == db.bookings[b]
            && (b in db.payments ==> b in db'.payments && db'.payments[b] == db.payments[b])
  {
    if c.action == "book" && c.arg.Some? {
      var out := BookOrder(db, riderId, c.arg.value, env.bookingId, env.now);
      if out.1.Ok? {
        assert BookingCreated(db, out.0, riderId, c.arg.value, env.bookingId, env.now);
      }
    }
  }

  /** With the corrected pickup, every command keeps payments coupled to deliveries. */
  lemma DispatchPreservesCoupling(db: RiderDb, riderId: string, c: Command, env: Env)
    requires PaymentCoupled(db)
    ensures PaymentCoupled(Dispatch(db, riderId, c, env, Corrected).0)
  {
    if c.arg.Some? {
      var a := c.arg.value;
      if c.action == "book" {
        BookPreservesCoupling(db, riderId, a, env.bookingId, env.now);
      } else if c.action == "pickup" {
        PickupPreservesCoupling(db, a, env.now);
      } else if c.action == "delivered" {
        DeliveryPreservesCoupling(db, a, env.now);
      }
    }
  }

  /** As written, the owner's `pickup` of a delivered booking is answered
      "Picked up", puts the booking back in transit and leaves its payment
      released; the corrected bot refuses it and changes nothing. */
  lemma PickupAfterDeliveryAsWritten(db: RiderDb, riderId: string, b: string, env: Env)
    requires PaymentCoupled(db)
    requires DocId(b) && Owns(db, riderId, b) && db.bookings[b].status == Delivered
    ensures var out := Dispatch(db, riderId, Command("pickup", Some(b)), env, AsWritten);
            && out.1 == PickedUp(b, db.bookings[b].location)
            && out.0.bookings[b].status == InTransit
            && out.0.payments[b].status == Released
            && !PaymentCoupled(out.0)
    ensures Dispatch(db, riderId, Command("pickup", Some(b)), env, Corrected) == (db, ErrorReply(NotAwaitingPickup))
  {
    DocIdPasses(b);
    PickupAfterDeliveryBreaksCoupling(db, b, env.now);
  }

  /** Every command keeps bookings exclusive, given a fresh booking id. */
  lemma DispatchPreservesExclusive(db: RiderDb, riderId: string, c: Command, env: Env, v: Variant)
    requires BookingsExclusive(db)
    requires env.bookingId !in db.bookings
    ensures BookingsExclusive(Dispatch(db, riderId, c, env, v).0)
  {
    if c.arg.Some? {
      var a := c.arg.value;
      if c.action == "book" {
        BookPreservesExclusive(db, riderId, a, env.bookingId, env.now);
      } else if c.action == "pickup" {
        PickupPreservesExclusive(db, a, env.now);
        PickupAsWrittenPreservesExclusive(db, a, env.now);
      } else if c.action == "delivered" {
        DeliveryPreservesExclusive(db, a, env.now);
      }
    }
  }

  /** `payment` performs no ownership check: any rider sees the same reply. */
  lemma PaymentQueryIgnoresRider(db: RiderDb, r1: string, r2: string, bookingId: string, env: Env, v: Variant)
    ensures Dispatch(db, r1, Command("payment", Some(bookingId)), env, v)
         == Dispatch(db, r2, Command("payment", Some(bookingId)), env, v)
  {
  }

  /** A successful `book` shows up in the rider's `myorders` list and leaves the
      `orders` list. */
  lemma BookedOrderListed(db: RiderDb, riderId: string, orderId: string, env: Env, v: Variant)
    requires Dispatch(db, riderId, Command("book", Some(orderId)), env, v).1 == BookedReply(env.bookingId)
    ensures var db' := Dispatch(db, riderId, Command("book", Some(orderId)), env, v).0;
            var mine := Dispatch(db', riderId, Command("myorders", None), env, v).1;
            var pending := Dispatch(db', riderId, Command("orders", None), env, v).1;
            && mine.ActiveList? && env.bookingId in mine.bookings
            && mine.bookings[env.bookingId].orderId == orderId
            && (pending.PendingList? ==> orderId !in pending.orders)
  {
    BookedOrderIsActive(db, riderId, orderId, env.bookingId, env.now);
    var db' := BookOrder(db, riderId, orderId, env.bookingId, env.now).0;
    assert BookingCreated(db, db', riderId, orderId, env.bookingId, env.now);
  }

  /** A queued order is listed by `orders`. */
  lemma QueuedOrderListed(db: RiderDb, orderId: string, d: OrderData, now: Timestamp, riderId: string, env: Env, v: Variant)
    ensures var pending := Dispatch(AddToRiderQueue(db, orderId, d, now), riderId, Command("orders", None), env, v).1;
            pending.PendingList? && orderId in pending.orders
  {
    QueuedOrderIsPending(db, orderId, d, now);
  }

  /** After the owner's `delivered`, the booking leaves the rider's `myorders`
      list and `payment` reports it released. */
  lemma DeliveredOrderUnlisted(db: RiderDb, riderId: string, b: string, env: Env, v: Variant)
    requires DocId(b) && Owns(db, riderId, b) && b in db.payments
    ensures var db' := Dispatch(db, riderId, Command("delivered", Some(b)), env, v).0;
            var mine := Dispatch(db', riderId, Command("myorders", None), env, v).1;
            var pay := Dispatch(db', riderId, Command("payment", Some(b)), env, v).1;
            && (mine.ActiveList? ==> b !in mine.bookings)
            && pay.PaymentInfo? && pay.status == Released
  {
    DeliveredBookingLeavesActive(db, b, env.now, riderId);
  }

  lemma TrimKeepsUnpadded(s: string)
    requires |s| > 0 && !IsSpace(s[0]) && !IsSpace(s[|s| - 1])
    ensures Trim(s) == s
  {
  }

  /** A command that is already trimmed and made of at least two
      space-separated tokens parses to its first two tokens under both
      parsers; as written the id is lower-cased. */
  lemma ParseJoined(parts: seq<string>)
    requires |parts| >= 2
    requires forall i :: 0 <= i < |parts| ==> ' ' !in parts[i]
    requires Trim(Join(parts, ' ')) == Join(parts, ' ')
    ensures ParseCommand(Join(parts, ' ')) == Command(ToLower(parts[0]), Some(parts[1]))
    ensures ParseCommandAsWritten(Join(parts, ' ')) == Command(ToLower(parts[0]), Some(ToLower(parts[1])))
  {
    var command := Join(parts, ' ');
    SplitJoin(parts, ' ');
    assert Split(Trim(command), ' ') == parts;
    ParseAgreesUpToIdCase(command);
  }

  /** "book ORD-1" keeps its id under the corrected parser; as written the id
      comes out lower-cased and so no longer equals the id the rider typed. */
  lemma ParseBookOrd1AsWritten()
    ensures ParseCommand("book ORD-1") == Command("book", Some("ORD-1"))
    ensures ParseCommandAsWritten("book ORD-1") == Command("book", Some(ToLower("ORD-1")))
    ensures ToLower("ORD-1") != "ORD-1"
  {
    var command := "book ORD-1";
    var parts := ["book", "ORD-1"];
    assert Join(parts, ' ') == command by {
      assert parts[1..] == ["ORD-1"];
    }
    TrimKeepsUnpadded(command);
    ToLowerNoUpper("book");
    ParseJoined(parts);
    assert LowerChar("ORD-1"[0]) == 'o';
  }

  /** A well-formed order id is booked exactly when its order is pending. */
  lemma BookOutcome(db: RiderDb, riderId: string, orderId: string, env: Env)
    requires DocId(orderId) && DocId(env.bookingId)
    ensures orderId in db.queue && db.queue[orderId].status == PendingBooking ==>
              HandleBookOrder(db, riderId, orderId, env).1 == BookedReply(env.bookingId)
    ensures orderId !in db.queue ==> HandleBookOrder(db, riderId, orderId, env) == (db, ErrorReply(NotAvailable))
  {
    DocIdPasses(orderId);
    DocIdPasses(env.bookingId);
  }

  /** A book command with an id reaches `handleBookOrder`, with the id
      lower-cased as written. */
  lemma BookRoute(db: RiderDb, riderId: string, command: string, env: Env)
    requires ParseCommand(command).action == "book" && ParseCommand(command).arg.Some?
    ensures HandleRiderCommand(db, riderId, command, env)
            == HandleBookOrder(db, riderId, ParseCommand(command).arg.value, env)
    ensures HandleRiderCommandAsWritten(db, riderId, command, env)
            == HandleBookOrder(db, riderId, ToLower(ParseCommand(command).arg.value), env)
  {
  }

  /** A book command whose id names a pending order while its lower-cased
      form names none fails as written and books the order once the id keeps
      its case. */
  lemma BookCaseSensitive(db: RiderDb, riderId: string, command: string, env: Env)
    requires DocId(env.bookingId)
    requires ParseCommand(command).action == "book" && ParseCommand(command).arg.Some?
    requires DocId(ParseCommand(command).arg.value)
    requires ParseCommand(command).arg.value in db.queue
    requires db.queue[ParseCommand(command).arg.value].status == PendingBooking
    requires ToLower(ParseCommand(command).arg.value) !in db.queue
    ensures HandleRiderCommandAsWritten(db, riderId, command, env) == (db, ErrorReply(NotAvailable))
    ensures HandleRiderCommand(db, riderId, command, env).1 == BookedReply(env.bookingId)
  {
    var id := ParseCommand(command).arg.value;
    BookRoute(db, riderId, command, env);
    ToLowerKeepsNonLetter(id, '/');
    BookOutcome(db, riderId, ToLower(id), env);
    BookOutcome(db, riderId, id, env);
  }

  lemma Ord1IsDocId()
    ensures DocId("ORD-1")
  {
  }

  /** The id lower-casing in action: with `ORD-1` pending, "book ORD-1" fails
      as written and books the order once the id keeps its case. */
  lemma BookUppercaseId(riderId: string, env: Env)
    requires DocId(env.bookingId)
    ensures var e := QueueEntry("ORD-1", "buyer", VStr("Vegan Bowl"), VStr("Britam Tower"), VNum(320), 0,
                                PendingBooking, None, None);
            var db := RiderDb(map["ORD-1" := e], map[], map[], {riderId});
            && HandleRiderCommandAsWritten(db, riderId, "book ORD-1", env) == (db, ErrorReply(NotAvailable))
            && HandleRiderCommand(db, riderId, "book ORD-1", env).1 == BookedReply(env.bookingId)
  {
    var e := QueueEntry("ORD-1", "buyer", VStr("Vegan Bowl"), VStr("Britam Tower"), VNum(320), 0,
                        PendingBooking, None, None);
    var db := RiderDb(map["ORD-1" := e], map[], map[], {riderId});
    assert ParseCommand("book ORD-1") == Command("book", Some("ORD-1")) && ToLower("ORD-1") != "ORD-1" by {
      ParseBookOrd1AsWritten();
    }
    assert DocId("ORD-1") by {
      Ord1IsDocId();
    }
    BookCaseSensitive(db, riderId, "book ORD-1", env);
  }

  /** "book  ORD-1", with a doubled space, parses to the action and an empty id. */
  lemma ParseDoubledSpace()
    ensures ParseCommand("book  ORD-1") == Command("book", Some(""))
    ensures ParseCommandAsWritten("book  ORD-1") == Command("book", Some(""))
  {
    var command := "book  ORD-1";
    TrimKeepsUnpadded(command);
    var parts := ["book", "", "ORD-1"];
    assert Join(parts, ' ') == command by {
      assert parts[1..] == ["", "ORD-1"];
      assert Join(["", "ORD-1"], ' ') == " ORD-1";
    }
    ToLowerNoUpper("book");
    ToLowerNoUpper("");
    ParseJoined(parts);
  }

  /** A doubled space leaves an empty id token: "book  ORD-1" asks the client
      for the queue document "", which it refuses, and the rider is shown the
      client's message. Nothing is written. */
  lemma DoubledSpaceEmptyId(db: RiderDb, riderId: string, env: Env)
    ensures HandleRiderCommand(db, riderId, "book  ORD-1", env) == (db, ErrorReply(EmptyPath))
    ensures HandleRiderCommandAsWritten(db, riderId, "book  ORD-1", env) == (db, ErrorReply(EmptyPath))
  {
    ParseDoubledSpace();
    ToLowerNoUpper("");
    assert HandleBookOrder(db, riderId, "", env) == (db, ErrorReply(EmptyPath));
  }

  /** An id with one slash names a collection, not a document: every action
      that takes an id answers with the client's message and writes nothing,
      before any ownership check. */
  lemma SlashIdRefused(db: RiderDb, riderId: string, a: string, b: string, env: Env, v: Variant)
    requires DocId(a) && DocId(b)
    ensures var err := (db, ErrorReply(NotADocument(a + "/" + b)));
            && Dispatch(db, riderId, Command("book", Some(a + "/" + b)), env, v) == err
            && Dispatch(db, riderId, Command("pickup", Some(a + "/" + b)), env, v) == err
            && Dispatch(db, riderId, Command("delivered", Some(a + "/" + b)), env, v) == err
            && Dispatch(db, riderId, Command("payment", Some(a + "/" + b)), env, v) == err
  {
    OneSlashRefused(a, b);
  }
}

=== FILE: rider_service.dfy ===
/**
 The rider booking and payment lifecycle over three document collections:
 `rider_queue/{orderId}`, `rider_bookings/{bookingId}` and
 `rider_payments/{bookingId}`, plus the `riders/{phone}` registry.

 A queue entry moves `pending_booking -> booked`; a booking moves
 `booked -> in_transit -> delivered`; its payment moves `held -> released`.
 Generated booking ids and clock readings are parameters. A write to a
 document that does not exist fails as the document store's `update` does.
 Every `doc(id)` call first checks that the id completes a document path,
 and throws when it does not.
 */
module RiderService {
  import opened Common
  import opened Text

  datatype QueueStatus = PendingBooking | QueueBooked
  datatype BookingStatus = Booked | InTransit | Delivered
  datatype PaymentStatus = Held | Released

  /** The order details the conversation hands to the queue. */
  datatype OrderData = OrderData(phone: string, mealName: Value, location: Value, price: Value)

  datatype QueueEntry = QueueEntry(
    orderId: string,
    customerPhone: string,
    mealName: Value,
    location: Value,
    price: Value,
    createdAt: Timestamp,
    status: QueueStatus,
    bookingId: Option<string>,
    riderId: Option<string>)

  datatype Booking = Booking(
    bookingId: string,
    orderId: string,
    riderId: string,
    customerPhone: string,
    mealName: Value,
    location: Value,
    price: Value,
    status: BookingStatus,
    bookedAt: Timestamp,
    pickedUpAt: Option<Timestamp>,
    deliveredAt: Option<Timestamp>)

  datatype Payment = Payment(
    bookingId: string,
    orderId: string,
    riderId: string,
    amount: Value,
    status: PaymentStatus,
    createdAt: Timestamp,
    releasedAt: Option<Timestamp>)

  datatype RiderDb = RiderDb(
    queue: map<string, QueueEntry>,
    bookings: map<string, Booking>,
    payments: map<string, Payment>,
    riders: set<string>)

  const NotAvailable := "Order not available for booking"
  const PaymentNotFound := "Payment record not found"
  /** Message of the corrected pickup when the booking is past `booked`. */
  const NotAwaitingPickup := "Booking is not awaiting pickup"

  // ---------------------------------------------------------------------------
  // Document paths

  /** The messages the document store client throws from `collection(c).doc(id)`. */
  const EmptyPath := "Value for argument \"documentPath\" is not a valid resource path. Path must be a non-empty string."
  const DoubleSlash := "Value for argument \"documentPath\" is not a valid resource path. Paths must not contain //."

  function NotADocument(id: string): string {
    "Value for argument \"documentPath\" must point to a document, but was \"" + id
      + "\". Your path does not contain an even number of components."
  }

  /** The number of non-empty pieces: the client skips empty path segments. */
  function NonEmptyCount(parts: seq<string>): nat {
    if |parts| == 0 then 0 else (if parts[0] == "" then 0 else 1) + NonEmptyCount(parts[1..])
  }

  /** The client's check of `collection(c).doc(id)`: the message it throws, or
      `None` when `c/id` names a document, that is, when the id is non-empty,
      has no `//` and has an odd number of non-empty segments. */
  function PathError(id: string): (r: Option<string>)
    ensures r.None? ==> id != ""
  {
    if id == "" then Some(EmptyPath)
    else if Contains(id, "//") then Some(DoubleSlash)
    else if NonEmptyCount(Split(id, '/')) % 2 == 0 then Some(NotADocument(id))
    else None
  }

  /** An id that names a document of the collection itself: non-empty and
      without a slash. The generated ids (`ORD-…`, `BOOK-…`) are such ids. */
  predicate DocId(id: string) {
    id != "" && '/' !in id
  }

  /** A slash-free id passes the check exactly when it is non-empty. */
  lemma DocIdPasses(id: string)
    requires '/' !in id
    ensures PathError(id).None? <==> DocId(id)
  {
    if id != "" {
      ContainsSpec(id, "//");
      SplitNoSeparator(id, '/');
      assert NonEmptyCount([id]) == 1;
    }
  }

  /** An id made of two slash-free segments leaves a path of three segments,
      which names a collection, not a document: the client refuses it. */
  lemma OneSlashRefused(a: string, b: string)
    requires DocId(a) && DocId(b)
    ensures PathError(a + "/" + b) == Some(NotADocument(a + "/" + b))
  {
    var id := a + "/" + b;
    assert id == a + ['/'] + b;
    forall i | 0 <= i < |id| - 1
      ensures !(id[i] == '/' && id[i + 1] == '/')
    {
      if i < |a| {
        assert id[i] == a[i];
      } else {
        assert id[i + 1] == b[i - |a|];
      }
    }
    NoDoubledChar(id, '/');
    SplitAfterPiece(a, '/', b);
    SplitNoSeparator(b, '/');
    assert Split(id, '/') == [a, b];
    assert NonEmptyCount([a, b]) == 2 by {
      assert [a, b][1..] == [b] && [b][1..] == [];
      assert NonEmptyCount([b]) == 1;
    }
  }

  // ---------------------------------------------------------------------------
  // Bookings

  /** The central invariant: every booking has a payment and vice versa, and a
      payment is released exactly when its booking is delivered. */
  ghost predicate PaymentCoupled(db: RiderDb) {
    && db.bookings.Keys == db.payments.Keys
    && forall b :: b in db.bookings ==>
         (db.payments[b].status == Released <==> db.bookings[b].status == Delivered)
  }

  /** Bookings are exclusive: every booking is the one its queue entry names,
      so no two bookings share an order. */
  ghost predicate BookingsExclusive(db: RiderDb) {
    forall b :: b in db.bookings ==>
      && db.bookings[b].orderId in db.queue
      && db.queue[db.bookings[b].orderId].status == QueueBooked
      && db.queue[db.bookings[b].orderId].bookingId == Some(b)
  }

  /** `addToRiderQueue`: stores a pending entry under `orderId`. */
  function AddToRiderQueue(db: RiderDb, orderId: string, d: OrderData, now: Timestamp): (db': RiderDb)
    ensures orderId in db'.queue
    ensures db'.queue[orderId].status == PendingBooking
    ensures db'.queue[orderId].orderId == orderId && db'.queue[orderId].customerPhone == d.phone
    ensures db'.queue[orderId].mealName == d.mealName && db'.queue[orderId].location == d.location
    ensures db'.queue[orderId].price == d.price
    ensures forall o :: o != orderId && o in db.queue ==> o in db'.queue && db'.queue[o] == db.queue[o]
    ensures db'.queue.Keys == db.queue.Keys + {orderId}
    ensures db'.bookings == db.bookings && db'.payments == db.payments && db'.riders == db.riders
  {
    var entry := QueueEntry(orderId, d.phone, d.mealName, d.location, d.price, now, PendingBooking, None, None);
    db.(queue := db.queue[orderId := entry])
  }

  /** `getPendingOrders`: the queue entries still waiting for a rider, by order id. */
  function GetPendingOrders(db: RiderDb): (pending: map<string, QueueEntry>)
    ensures forall o :: o in pending <==> o in db.queue && db.queue[o].status == PendingBooking
    ensures forall o :: o in pending ==> pending[o] == db.queue[o]
  {
    map o | o in db.queue && db.queue[o].status == PendingBooking :: db.queue[o]
  }

  /** `bookOrder`: claims a pending order for `riderId` under the fresh id
      `bookingId`, holding the full price as the rider's payment. An order id
      the client refuses as a path fails first, with the client's message; a
      booking id it refuses fails before the first write. */
  function BookOrder(db: RiderDb, riderId: string, orderId: string, bookingId: string, now: Timestamp)
    : (out: (RiderDb, Result<string>))
    ensures PathError(orderId).Some? ==> out == (db, Err(PathError(orderId).value))
    ensures PathError(orderId).None? && (orderId !in db.queue || db.queue[orderId].status != PendingBooking) ==>
              out == (db, Err(NotAvailable))
    ensures out.1.Ok? <==> PathError(orderId).None? && orderId in db.queue
                           && db.queue[orderId].status == PendingBooking && PathError(bookingId).None?
    ensures out.1.Err? ==> out.0 == db
    ensures out.1.Ok? ==> out.1.value == bookingId
    ensures out.1.Ok? ==> BookingCreated(db, out.0, riderId, orderId, bookingId, now)
  {
    if PathError(orderId).Some? then (db, Err(PathError(orderId).value))
    else if orderId !in db.queue || db.queue[orderId].status != PendingBooking then
      (db, Err(NotAvailable))
    else if PathError(bookingId).Some? then (db, Err(PathError(bookingId).value))
    else
      var e := db.queue[orderId];
      var booking := Booking(bookingId, orderId, riderId, e.customerPhone, e.mealName, e.location,
                             e.price, Booked, now, None, None);
      var payment := Payment(bookingId, orderId, riderId, e.price, Held, now, None);
      var entry' := e.(status := QueueBooked, bookingId := Some(bookingId), riderId := Some(riderId));
      var db' := db.(bookings := db.bookings[bookingId := booking],
                     queue := db.queue[orderId := entry'],
                     payments := db.payments[bookingId := payment]);
      (db', Ok(bookingId))
  }

  /** The effect of a successful booking, field by field. */
  ghost predicate BookingCreated(db: RiderDb, db': RiderDb, riderId: string, orderId: string,
                                 bookingId: string, now: Timestamp) {
    && orderId in db.queue
    && bookingId in db'.bookings && bookingId in db'.payments && orderId in db'.queue
    && var e := db.queue[orderId];
    && var b := db'.bookings[bookingId];
    && var p := db'.payments[bookingId];
    && b.bookingId == bookingId && b.orderId == orderId && b.riderId == riderId
    && b.status == Booked && b.bookedAt == now && b.pickedUpAt == None && b.deliveredAt == None
    && b.customerPhone == e.customerPhone && b.mealName == e.mealName
    && b.location == e.location && b.price == e.price
    && p.bookingId == bookingId && p.orderId == orderId && p.riderId == riderId
    && p.amount == e.price && p.status == Held && p.releasedAt == None
    && db'.queue[orderId] == e.(status := QueueBooked, bookingId := Some(bookingId), riderId := Some(riderId))
    && db'.queue.Keys == db.queue.Keys
    && (forall o :: o in db.queue && o != orderId ==> db'.queue[o] == db.queue[o])
    && db'.bookings.Keys == db.bookings.Keys + {bookingId}
    && (forall k :: k in db.bookings && k != bookingId ==> db'.bookings[k] == db.bookings[k])
    && db'.payments.Keys == db.payments.Keys + {bookingId}
    && (forall k :: k in db.payments && k != bookingId ==> db'.payments[k] == db.payments[k])
    && db'.riders == db.riders
  }

  /** `confirmPickup` as written: sets `in_transit` and the pickup time whatever
      the booking's status, even after delivery. */
  function ConfirmPickupAsWritten(db: RiderDb, bookingId: string, now: Timestamp): (out: (RiderDb, Result<()>))
    ensures PathError(bookingId).Some? ==> out == (db, Err(PathError(bookingId).value))
    ensures PathError(bookingId).None? ==> (bookingId !in db.bookings <==> out.1.Err?)
    ensures PathError(bookingId).None? && out.1.Err? ==> out.0 == db && out.1.message == NoDocument
    ensures out.1.Ok? ==> out.0.bookings == db.bookings[bookingId :=
              db.bookings[bookingId].(status := InTransit, pickedUpAt := Some(now))]
    ensures out.0.queue == db.queue && out.0.payments == db.payments && out.0.riders == db.riders
  {
    if PathError(bookingId).Some? then (db, Err(PathError(bookingId).value))
    else if bookingId !in db.bookings then (db, Err(NoDocument))
    else
      var b := db.bookings[bookingId];
      (db.(bookings := db.bookings[bookingId := b.(status := InTransit, pickedUpAt := Some(now))]), Ok(()))
  }

  /** A pickup confirmed after delivery leaves a released payment on a booking
      that is no longer delivered. */
  lemma PickupAfterDeliveryBreaksCoupling(db: RiderDb, bookingId: string, now: Timestamp)
    requires PaymentCoupled(db)
    requires DocId(bookingId) && bookingId in db.bookings && db.bookings[bookingId].status == Delivered
    ensures !PaymentCoupled(ConfirmPickupAsWritten(db, bookingId, now).0)
  {
    DocIdPasses(bookingId);
    var db' := ConfirmPickupAsWritten(db, bookingId, now).0;
    assert db'.payments[bookingId].status == Released;
    assert db'.bookings[bookingId].status == InTransit;
  }

  /** `confirmPickup`, corrected: only a `booked` booking can be picked up, so
      the status never moves backwards. */
  function ConfirmPickup(db: RiderDb, bookingId: string, now: Timestamp): (out: (RiderDb, Result<()>))
    ensures PathError(bookingId).Some? ==> out == (db, Err(PathError(bookingId).value))
    ensures PathError(bookingId).None? && bookingId !in db.bookings ==> out == (db, Err(NoDocument))
    ensures PathError(bookingId).None? && bookingId in db.bookings && db.bookings[bookingId].status != Booked ==>
              out == (db, Err(NotAwaitingPickup))
    ensures out.1.Ok? <==> PathError(bookingId).None? && bookingId in db.bookings && db.bookings[bookingId].status == Booked
    ensures out.1.Ok? ==> out.0 == ConfirmPickupAsWritten(db, bookingId, now).0
    ensures out.0.queue == db.queue && out.0.payments == db.payments && out.0.riders == db.riders
  {
    if PathError(bookingId).Some? then (db, Err(PathError(bookingId).value))
    else if bookingId !in db.bookings then (db, Err(NoDocument))
    else if db.bookings[bookingId].status != Booked then (db, Err(NotAwaitingPickup))
    else ConfirmPickupAsWritten(db, bookingId, now)
  }

  /** `confirmDelivery`: marks the booking delivered, then releases its payment
      with the same timestamp. The two writes are separate: when the payment
      document is missing the booking is already delivered and the call fails. */
  function ConfirmDelivery(db: RiderDb, bookingId: string, now: Timestamp): (out: (RiderDb, Result<()>))
    ensures PathError(bookingId).Some? ==> out == (db, Err(PathError(bookingId).value))
    ensures PathError(bookingId).None? && bookingId !in db.bookings ==> out == (db, Err(NoDocument))
    ensures out.1.Ok? <==> PathError(bookingId).None? && bookingId in db.bookings && bookingId in db.payments
    ensures PathError(bookingId).None? && bookingId in db.bookings ==>
              && bookingId in out.0.bookings
              && out.0.bookings == db.bookings[bookingId :=
                   db.bookings[bookingId].(status := Delivered, deliveredAt := Some(now))]
    ensures out.1.Ok? ==> out.0.payments == db.payments[bookingId :=
              db.payments[bookingId].(status := Released, releasedAt := Some(now))]
    ensures out.1.Err? ==> out.0.payments == db.payments
    ensures out.0.queue == db.queue && out.0.riders == db.riders
  {
    if PathError(bookingId).Some? then (db, Err(PathError(bookingId).value))
    else if bookingId !in db.bookings then (db, Err(NoDocument))
    else
      var b := db.bookings[bookingId];
      var db1 := db.(bookings := db.bookings[bookingId := b.(status := Delivered, deliveredAt := Some(now))]);
      if bookingId !in db.payments then (db1, Err(NoDocument))
      else
        var p := db.payments[bookingId];
        (db1.(payments := db.payments[bookingId := p.(status := Released, releasedAt := Some(now))]), Ok(()))
  }

  /** `getRiderBookings`: the rider's bookings that are still active. */
  function GetRiderBookings(db: RiderDb, riderId: string): (active: map<string, Booking>)
    ensures forall b :: b in active <==>
              b in db.bookings && db.bookings[b].riderId == riderId && db.bookings[b].status in {Booked, InTransit}
    ensures forall b :: b in active ==> active[b] == db.bookings[b]
  {
    map b | b in db.bookings && db.bookings[b].riderId == riderId && db.bookings[b].status in {Booked, InTransit}
      :: db.bookings[b]
  }

  /** `getPaymentStatus`: the payment record, "Payment record not found", or
      the client's message for an id it refuses as a path. */
  function GetPaymentStatus(db: RiderDb, bookingId: string): (r: Result<Payment>)
    ensures PathError(bookingId).Some? ==> r == Err(PathError(bookingId).value)
    ensures PathError(bookingId).None? ==> (bookingId in db.payments <==> r.Ok?)
    ensures r.Ok? ==> r.value == db.payments[bookingId]
    ensures PathError(bookingId).None? && r.Err? ==> r.message == PaymentNotFound
  {
    if PathError(bookingId).Some? then Err(PathError(bookingId).value)
    else if bookingId in db.payments then Ok(db.payments[bookingId])
    else Err(PaymentNotFound)
  }

  /** `isRegisteredRider`: the phone has a document in the rider registry;
      a failed read (`up` false) is caught and answers no. */
  function IsRegisteredRider(db: RiderDb, phone: string, up: bool): (r: bool)
    ensures r ==> up && phone in db.riders
    ensures up && phone in db.riders ==> r
  {
    up && phone in db.riders
  }

  // ---------------------------------------------------------------------------
  // Properties across operations

  /** Every operation keeps payments coupled to deliveries. */
  lemma AddPreservesCoupling(db: RiderDb, orderId: string, d: OrderData, now: Timestamp)
    requires PaymentCoupled(db)
    ensures PaymentCoupled(AddToRiderQueue(db, orderId, d, now))
  {
  }

  lemma BookPreservesCoupling(db: RiderDb, riderId: string, orderId: string, bookingId: string, now: Timestamp)
    requires PaymentCoupled(db)
    ensures PaymentCoupled(BookOrder(db, riderId, orderId, bookingId, now).0)
  {
    var out := BookOrder(db, riderId, orderId, bookingId, now);
    if out.1.Ok? {
      var db' := out.0;
      assert db'.bookings.Keys == db'.payments.Keys;
      forall b | b in db'.bookings
        ensures db'.payments[b].status == Released <==> db'.bookings[b].status == Delivered
      {
        if b != bookingId {
          assert db'.bookings[b] == db.bookings[b] && db'.payments[b] == db.payments[b];
        }
      }
    }
  }

  lemma PickupPreservesCoupling(db: RiderDb, bookingId: string, now: Timestamp)
    requires PaymentCoupled(db)
    ensures PaymentCoupled(ConfirmPickup(db, bookingId, now).0)
  {
    var db' := ConfirmPickup(db, bookingId, now).0;
    forall b | b in db'.bookings
      ensures db'.payments[b].status == Released <==> db'.bookings[b].status == Delivered
    {
      if b != bookingId {
        assert db'.bookings[b] == db.bookings[b];
      }
    }
  }

  lemma DeliveryPreservesCoupling(db: RiderDb, bookingId: string, now: Timestamp)
    requires PaymentCoupled(db)
    ensures PaymentCoupled(ConfirmDelivery(db, bookingId, now).0)
  {
    var db' := ConfirmDelivery(db, bookingId, now).0;
    forall b | b in db'.bookings
      ensures db'.payments[b].status == Released <==> db'.bookings[b].status == Delivered
    {
      if b != bookingId {
        assert db'.bookings[b] == db.bookings[b] && db'.payments[b] == db.payments[b];
      }
    }
  }

  /** After a successful delivery the payment is released iff delivered, with
      the delivery's timestamp, whatever state it started from. */
  lemma DeliveryReleasesPayment(db: RiderDb, bookingId: string, now: Timestamp)
    requires DocId(bookingId) && bookingId in db.bookings && bookingId in db.payments
    ensures var db' := ConfirmDelivery(db, bookingId, now).0;
            && db'.bookings[bookingId].status == Delivered
            && db'.payments[bookingId].status == Released
            && db'.payments[bookingId].releasedAt == db'.bookings[bookingId].deliveredAt == Some(now)
  {
    DocIdPasses(bookingId);
  }

  /** Exclusivity is kept by queueing a new order id and by booking under a
      fresh booking id. */
  lemma AddPreservesExclusive(db: RiderDb, orderId: string, d: OrderData, now: Timestamp)
    requires BookingsExclusive(db)
    requires orderId !in db.queue
    ensures BookingsExclusive(AddToRiderQueue(db, orderId, d, now))
  {
  }

  lemma BookPreservesExclusive(db: RiderDb, riderId: string, orderId: string, bookingId: string, now: Timestamp)
    requires BookingsExclusive(db)
    requires bookingId !in db.bookings
    ensures BookingsExclusive(BookOrder(db, riderId, orderId, bookingId, now).0)
  {
    var out := BookOrder(db, riderId, orderId, bookingId, now);
    if out.1.Ok? {
      var db' := out.0;
      forall b | b in db'.bookings
        ensures db'.bookings[b].orderId in db'.queue
        ensures db'.queue[db'.bookings[b].orderId].status == QueueBooked
        ensures db'.queue[db'.bookings[b].orderId].bookingId == Some(b)
      {
        if b != bookingId {
          var o := db.bookings[b].orderId;
          assert o != orderId;
        }
      }
    }
  }

  lemma PickupPreservesExclusive(db: RiderDb, bookingId: string, now: Timestamp)
    requires BookingsExclusive(db)
    ensures BookingsExclusive(ConfirmPickup(db, bookingId, now).0)
  {
  }

  /** The as-written pickup changes only a booking's status and pickup time,
      so it keeps exclusivity even though it breaks the coupling. */
  lemma PickupAsWrittenPreservesExclusive(db: RiderDb, bookingId: string, now: Timestamp)
    requires BookingsExclusive(db)
    ensures BookingsExclusive(ConfirmPickupAsWritten(db, bookingId, now).0)
  {
  }

  lemma DeliveryPreservesExclusive(db: RiderDb, bookingId: string, now: Timestamp)
    requires BookingsExclusive(db)
    ensures BookingsExclusive(ConfirmDelivery(db, bookingId, now).0)
  {
  }

  /** Under the exclusivity invariant no two bookings are for the same order. */
  lemma AtMostOneBookingPerOrder(db: RiderDb, b1: string, b2: string)
    requires BookingsExclusive(db)
    requires b1 in db.bookings && b2 in db.bookings
    requires db.bookings[b1].orderId == db.bookings[b2].orderId
    ensures b1 == b2
  {
  }

  /** A second booking of the same order, by any rider, fails and writes nothing. */
  lemma SecondBookingFails(db: RiderDb, r1: string, r2: string, orderId: string,
                           b1: string, b2: string, t1: Timestamp, t2: Timestamp)
    requires BookOrder(db, r1, orderId, b1, t1).1.Ok?
    ensures var db1 := BookOrder(db, r1, orderId, b1, t1).0;
            BookOrder(db1, r2, orderId, b2, t2) == (db1, Err(NotAvailable))
  {
  }

  // ---------------------------------------------------------------------------
  // What the queries see after each write

  /** A queued order is listed as pending. */
  lemma QueuedOrderIsPending(db: RiderDb, orderId: string, d: OrderData, now: Timestamp)
    ensures var pending := GetPendingOrders(AddToRiderQueue(db, orderId, d, now));
            && orderId in pending
            && pending[orderId].customerPhone == d.phone && pending[orderId].price == d.price
  {
  }

  /** After a booking the order leaves the pending list, the booking is among
      the rider's active bookings, and its payment reads as held for the price. */
  lemma BookedOrderIsActive(db: RiderDb, riderId: string, orderId: string, bookingId: string, now: Timestamp)
    requires BookOrder(db, riderId, orderId, bookingId, now).1.Ok?
    ensures var db' := BookOrder(db, riderId, orderId, bookingId, now).0;
            && orderId !in GetPendingOrders(db')
            && bookingId in GetRiderBookings(db', riderId)
            && GetRiderBookings(db', riderId)[bookingId].status == Booked
            && GetPaymentStatus(db', bookingId).Ok?
            && GetPaymentStatus(db', bookingId).value.status == Held
            && GetPaymentStatus(db', bookingId).value.amount == db.queue[orderId].price
  {
    var db' := BookOrder(db, riderId, orderId, bookingId, now).0;
    assert BookingCreated(db, db', riderId, orderId, bookingId, now);
  }

  /** A picked-up booking stays among its rider's active bookings, in transit. */
  lemma PickedUpBookingStaysActive(db: RiderDb, bookingId: string, now: Timestamp)
    requires ConfirmPickup(db, bookingId, now).1.Ok?
    ensures var db' := ConfirmPickup(db, bookingId, now).0;
            var r := db.bookings[bookingId].riderId;
            && bookingId in GetRiderBookings(db', r)
            && GetRiderBookings(db', r)[bookingId].status == InTransit
  {
  }

  /** A delivered booking is no rider's active booking any more, and its
      payment, if any, reads as released. */
  lemma DeliveredBookingLeavesActive(db: RiderDb, bookingId: string, now: Timestamp, riderId: string)
    requires DocId(bookingId) && bookingId in db.bookings
    ensures var db' := ConfirmDelivery(db, bookingId, now).0;
            && bookingId !in GetRiderBookings(db', riderId)
            && (bookingId in db.payments ==>
                  GetPaymentStatus(db', bookingId).Ok? && GetPaymentStatus(db', bookingId).value.status == Released)
  {
    DocIdPasses(bookingId);
  }

  /** The whole lifecycle: book, pick up, deliver. The payment is the full
      price, held after booking and released, with the delivery time, at the end. */
  lemma {:induction false} Lifecycle(db: RiderDb, riderId: string, orderId: string, bookingId: string,
                                     t1: Timestamp, t2: Timestamp, t3: Timestamp)
    requires DocId(orderId) && DocId(bookingId)
    requires orderId in db.queue && db.queue[orderId].status == PendingBooking
    ensures var (db1, r1) := BookOrder(db, riderId, orderId, bookingId, t1);
            var (db2, r2) := ConfirmPickup(db1, bookingId, t2);
            var (db3, r3) := ConfirmDelivery(db2, bookingId, t3);
            && r1 == Ok(bookingId) && r2.Ok? && r3.Ok?
            && db1.payments[bookingId].status == Held
            && db2.bookings[bookingId].status == InTransit
            && db3.bookings[bookingId].status == Delivered
            && db3.bookings[bookingId].pickedUpAt == Some(t2)
            && db3.payments[bookingId].status == Released
            && db3.payments[bookingId].amount == db.queue[orderId].price
            && db3.payments[bookingId].releasedAt == Some(t3)
            && db3.queue[orderId].status == QueueBooked
  {
    DocIdPasses(orderId);
    DocIdPasses(bookingId);
    var (db1, r1) := BookOrder(db, riderId, orderId, bookingId, t1);
    assert BookingCreated(db, db1, riderId, orderId, bookingId, t1);
    var (db2, r2) := ConfirmPickup(db1, bookingId, t2);
    assert db2.bookings[bookingId].status == InTransit;
  }
}

=== FILE: session_store.dfy ===
/**
 The per-user conversation session kept in the realtime database under
 `sessions/{phone}`: the current step of the customer conversation and a free
 form data object (cart, selected meal, location, promo code).

 The database is a map from phone to session. Every operation takes `up`, which
 says whether the database call succeeds; a failed read yields the default
 session and a failed write is swallowed, as in the source. Timestamps
 (`createdAt`, `lastUpdated`) are never read back and are not modelled.

 The database keeps no `null` and no empty object: writing either at a key
 deletes the key, and a node left without children disappears. `Stored` is
 what a data write leaves behind.
 */
module SessionStore {
  import opened Common

  /** The step names the customer conversation stores (WELCOME,
      SELECTING_FOOD, CONFIRM_ORDER, PAYMENT, ORDER_COMPLETE); `Other` is any
      other name a session may hold. */
  datatype Step = Welcome | SelectingFood | ConfirmOrder | Payment | OrderComplete | Other(name: string)

  /** A stored session. Either field can be absent: a data merge on a phone
      without a session creates a node that holds data but no step. */
  datatype Session = Session(step: Option<Step>, data: Option<Record>)

  type Sessions = map<string, Session>

  /** What a new user starts with. */
  function NewSession(): Session {
    Session(Some(Welcome), Some(map[]))
  }

  /** Nothing but the session of `phone` differs between `db` and `db'`. */
  ghost predicate OthersUnchanged(db: Sessions, db': Sessions, phone: string) {
    forall q :: q != phone ==> (q in db' <==> q in db) && (q in db ==> db'[q] == db[q])
  }

  /** A value the database does not keep: `null` or an empty object. */
  predicate Dropped(v: Value) {
    v == VNull || v == VObj(map[])
  }

  /** What the database keeps of a data object written to it. */
  function Stored(d: Record): Record {
    map k | k in d && !Dropped(d[k]) :: d[k]
  }

  /** The data node a write leaves behind: absent when nothing is kept. */
  function Node(d: Record): Option<Record> {
    if |Stored(d)| == 0 then None else Some(Stored(d))
  }

  /** No value of `d` is one the database drops. */
  ghost predicate Kept(d: Record) {
    forall k :: k in d ==> !Dropped(d[k])
  }

  /** The database as it can be: every stored data object is non-empty and
      holds only values the database keeps. */
  ghost predicate Normal(db: Sessions) {
    forall p :: p in db && db[p].data.Some? ==> |db[p].data.value| > 0 && Kept(db[p].data.value)
  }

  /** A write keeps exactly the values that are not dropped, so writing what
      is already stored changes nothing, and a data object is stored as given
      exactly when it holds no dropped value. */
  lemma StoredSpec(d: Record)
    ensures forall k :: k in Stored(d) <==> k in d && !Dropped(d[k])
    ensures forall k :: k in Stored(d) ==> Stored(d)[k] == d[k]
    ensures Kept(Stored(d))
    ensures Stored(Stored(d)) == Stored(d)
    ensures Stored(d) == d <==> Kept(d)
  {
  }

  /** Reading a property that holds a kept value (or none at all) gives the
      same value before and after the database drops what it drops. */
  lemma GetStored(d: Record, k: string)
    requires !Dropped(Get(d, k))
    ensures Get(Stored(d), k) == Get(d, k)
  {
  }

  /** Merging kept values into a stored object: only the old part is
      filtered. */
  lemma StoredUnion(a: Record, b: Record)
    requires Kept(b)
    ensures Stored(a + b) == Stored(a) + b
  {
  }

  /** A merge keeps at least the kept values of the new data. */
  lemma StoredKeepsNewKept(a: Record, b: Record)
    ensures |Stored(b)| > 0 ==> |Stored(a + b)| > 0
  {
    if |Stored(b)| > 0 {
      var k :| k in Stored(b);
      assert k in Stored(a + b);
    }
  }

  /** `getUserState`: the stored session, or a fresh WELCOME session when none
      is stored or the read fails. */
  function GetUserState(db: Sessions, phone: string, up: bool): (s: Session)
    ensures up && phone in db ==> s == db[phone]
    ensures !up || phone !in db ==> s.step == Some(Welcome) && s.data == Some(map[])
  {
    if up && phone in db then db[phone] else NewSession()
  }

  /** `updateUserState`: sets the step; replaces the data object only when the
      given one has at least one key, and then by what the database keeps of
      it; a failed write changes nothing. */
  function UpdateUserState(db: Sessions, phone: string, newStep: Step, data: Record, up: bool): (db': Sessions)
    ensures !up ==> db' == db
    ensures up ==> phone in db' && db'[phone].step == Some(newStep)
    ensures up && |data| > 0 ==> db'[phone].data == Node(data)
    ensures up && |data| > 0 && Kept(data) ==> db'[phone].data == Some(data)
    ensures up && |data| == 0 && phone in db ==> db'[phone].data == db[phone].data
    ensures up && |data| == 0 && phone !in db ==> db'[phone].data == None
    ensures OthersUnchanged(db, db', phone)
  {
    if !up then db
    else
      var prev := if phone in db then db[phone] else Session(None, None);
      var data' := if |data| > 0 then Node(data) else prev.data;
      StoredSpec(data);
      db[phone := Session(Some(newStep), data')]
  }

  /** `getSessionData`: the data object of the session, `{}` when absent. */
  function GetSessionData(db: Sessions, phone: string, up: bool): (d: Record)
    ensures up && phone in db && db[phone].data.Some? ==> d == db[phone].data.value
    ensures !(up && phone in db && db[phone].data.Some?) ==> d == map[]
  {
    GetUserState(db, phone, up).data.GetOr(map[])
  }

  /** `mergeSessionData`: a shallow merge in which the new values win and the
      old keys are kept, written back as the database keeps it. The step is
      left alone. An empty merge writes nothing. */
  function MergeSessionData(db: Sessions, phone: string, newData: Record, up: bool): (db': Sessions)
    ensures !up ==> db' == db
    ensures up ==> GetSessionData(db', phone, true) == Stored(GetSessionData(db, phone, true) + newData)
    ensures up ==> forall k :: k in newData && !Dropped(newData[k]) ==> GetSessionData(db', phone, true)[k] == newData[k]
    ensures up ==> forall k :: k in newData && Dropped(newData[k]) ==> k !in GetSessionData(db', phone, true)
    ensures up && phone in db && db[phone].step.Some? ==> phone in db' && db'[phone].step == db[phone].step
    ensures up && |Stored(newData)| > 0 ==>
              phone in db' && db'[phone].step == (if phone in db then db[phone].step else None)
    ensures OthersUnchanged(db, db', phone)
  {
    if !up then db
    else
      var merged := GetSessionData(db, phone, up) + newData;
      if |merged| == 0 then db
      else
        var prev := if phone in db then db[phone] else Session(None, None);
        var next := prev.(data := Node(merged));
        StoredKeepsNewKept(GetSessionData(db, phone, up), newData);
        if next == Session(None, None) then db - {phone} else db[phone := next]
  }

  /** `clearSession`: removes the session; a failed delete changes nothing. */
  function ClearSession(db: Sessions, phone: string, up: bool): (db': Sessions)
    ensures !up ==> db' == db
    ensures up ==> phone !in db'
    ensures OthersUnchanged(db, db', phone)
  {
    if up then db - {phone} else db
  }

  /** After an update the session reads back at the new step, with what the
      database kept of non-empty new data. */
  lemma UpdateThenRead(db: Sessions, phone: string, newStep: Step, data: Record)
    ensures GetUserState(UpdateUserState(db, phone, newStep, data, true), phone, true).step == Some(newStep)
    ensures |data| > 0 ==> GetSessionData(UpdateUserState(db, phone, newStep, data, true), phone, true) == Stored(data)
    ensures |data| == 0 ==> GetSessionData(UpdateUserState(db, phone, newStep, data, true), phone, true)
                            == GetSessionData(db, phone, true)
  {
  }

  /** A merge followed by a step change without data, as the conversation does
      on each accepted answer: the session sits at the new step and holds the
      merged data. */
  lemma MergeThenStep(db: Sessions, phone: string, newData: Record, newStep: Step)
    ensures var db' := UpdateUserState(MergeSessionData(db, phone, newData, true), phone, newStep, map[], true);
            && GetUserState(db', phone, true).step == Some(newStep)
            && GetSessionData(db', phone, true) == Stored(GetSessionData(db, phone, true) + newData)
  {
  }

  /** After a clear the user starts over with a fresh WELCOME session. */
  lemma ClearThenRead(db: Sessions, phone: string)
    ensures GetUserState(ClearSession(db, phone, true), phone, true) == NewSession()
    ensures GetSessionData(ClearSession(db, phone, true), phone, true) == map[]
  {
  }

  /** Merging the same data twice is the same as merging it once. */
  lemma MergeIdempotent(db: Sessions, phone: string, newData: Record)
    ensures GetSessionData(MergeSessionData(MergeSessionData(db, phone, newData, true), phone, newData, true), phone, true)
         == GetSessionData(MergeSessionData(db, phone, newData, true), phone, true)
  {
    var once := MergeSessionData(db, phone, newData, true);
    assert GetSessionData(once, phone, true) == Stored(GetSessionData(db, phone, true) + newData);
    StoredMergeTwice(GetSessionData(db, phone, true), newData);
  }

  lemma StoredMergeTwice(d: Record, x: Record)
    ensures Stored(Stored(d + x) + x) == Stored(d + x)
  {
    var a := Stored(d + x);
    var b := Stored(a + x);
    forall k ensures k in b <==> k in a {
    }
    forall k | k in b ensures b[k] == a[k] {
    }
  }

  /** Every session write leaves the database as it can be. */
  lemma UpdateKeepsNormal(db: Sessions, phone: string, newStep: Step, data: Record, up: bool)
    requires Normal(db)
    ensures Normal(UpdateUserState(db, phone, newStep, data, up))
  {
    StoredSpec(data);
  }

  lemma MergeKeepsNormal(db: Sessions, phone: string, newData: Record, up: bool)
    requires Normal(db)
    ensures Normal(MergeSessionData(db, phone, newData, up))
  {
    var merged := GetSessionData(db, phone, up) + newData;
    StoredSpec(merged);
    var db' := MergeSessionData(db, phone, newData, up);
    forall p | p in db' && db'[p].data.Some?
      ensures |db'[p].data.value| > 0 && Kept(db'[p].data.value)
    {
      if p != phone || !up || |merged| == 0 {
        assert p in db && db'[p] == db[p];
      } else {
        assert db'[p].data == Node(merged);
      }
    }
  }

  lemma ClearKeepsNormal(db: Sessions, phone: string, up: bool)
    requires Normal(db)
    ensures Normal(ClearSession(db, phone, up))
  {
  }

  /** In a database as it can be, merging values it keeps is the plain
      shallow merge. */
  lemma MergeKeptData(db: Sessions, phone: string, newData: Record)
    requires Normal(db) && Kept(newData)
    ensures GetSessionData(MergeSessionData(db, phone, newData, true), phone, true)
         == GetSessionData(db, phone, true) + newData
  {
    var d := GetSessionData(db, phone, true);
    StoredUnion(d, newData);
    StoredSpec(d);
  }
}

=== FILE: text.dfy ===
/**
 The JavaScript string operations the bot applies to incoming message text:
 `toLowerCase`, `toUpperCase`, `trim`, `split` on a one-character separator and
 `includes`. Case mapping is modelled for ASCII letters only; `trim` removes
 exactly the ECMAScript WhiteSpace and LineTerminator code points.
 */
module Text {

  predicate IsUpper(c: char) { 'A' <= c <= 'Z' }

  predicate IsLower(c: char) { 'a' <= c <= 'z' }

  /** ECMAScript WhiteSpace and LineTerminator code points (what `trim` strips). */
  const Spaces: set<char> := {
    '\t', '\n', '\r', ' ', '\U{000B}', '\U{000C}', '\U{00A0}', '\U{1680}',
    '\U{2000}', '\U{2001}', '\U{2002}', '\U{2003}', '\U{2004}', '\U{2005}',
    '\U{2006}', '\U{2007}', '\U{2008}', '\U{2009}', '\U{200A}',
    '\U{2028}', '\U{2029}', '\U{202F}', '\U{205F}', '\U{3000}', '\U{FEFF}'
  }

  predicate IsSpace(c: char) { c in Spaces }

  function LowerChar(c: char): (d: char)
    ensures IsUpper(c) ==> IsLower(d) && d as int == c as int + 32
    ensures !IsUpper(c) ==> d == c
  {
    if IsUpper(c) then (c as int + 32) as char else c
  }

  function UpperChar(c: char): (d: char)
    ensures IsLower(c) ==> IsUpper(d) && d as int == c as int - 32
    ensures !IsLower(c) ==> d == c
  {
    if IsLower(c) then (c as int - 32) as char else c
  }

  /** `s.toLowerCase()` (ASCII letters). */
  function ToLower(s: string): (r: string)
    ensures |r| == |s|
    ensures forall i :: 0 <= i < |s| ==> r[i] == LowerChar(s[i])
  {
    seq(|s|, i requires 0 <= i < |s| => LowerChar(s[i]))
  }

  /** `s.toUpperCase()` (ASCII letters). */
  function ToUpper(s: string): (r: string)
    ensures |r| == |s|
    ensures forall i :: 0 <= i < |s| ==> r[i] == UpperChar(s[i])
  {
    seq(|s|, i requires 0 <= i < |s| => UpperChar(s[i]))
  }

  /** Lower-casing never creates or removes white space, so it commutes with
      `trim` and with splitting on a space. */
  lemma LowerCharKeepsSpace(c: char)
    ensures IsSpace(LowerChar(c)) <==> IsSpace(c)
    ensures LowerChar(c) == ' ' <==> c == ' '
  {
  }

  /** Lower-casing a lower-cased string changes nothing. */
  lemma ToLowerIdempotent(s: string)
    ensures ToLower(ToLower(s)) == ToLower(s)
  {
    assert forall i :: 0 <= i < |s| ==> LowerChar(LowerChar(s[i])) == LowerChar(s[i]);
  }

  /** Only white space in `s[lo..hi]`. */
  ghost predicate SpaceBetween(s: string, lo: int, hi: int) {
    0 <= lo <= hi <= |s| && forall k :: lo <= k < hi ==> IsSpace(s[k])
  }

  /** The first index at or after `i` that does not hold white space, or `|s|`. */
  function SkipSpace(s: string, i: nat): (k: nat)
    requires i <= |s|
    ensures i <= k <= |s|
    decreases |s| - i
  {
    if i < |s| && IsSpace(s[i]) then SkipSpace(s, i + 1) else i
  }

  /** The end of `s[lo..hi]` with its trailing white space cut off. */
  function SkipSpaceBack(s: string, lo: nat, hi: nat): (k: nat)
    requires lo <= hi <= |s|
    ensures lo <= k <= hi
    decreases hi - lo
  {
    if lo < hi && IsSpace(s[hi - 1]) then SkipSpaceBack(s, lo, hi - 1) else hi
  }

  /** `SkipSpace` passes exactly a run of white space. */
  lemma {:induction false} SkipSpaceSpec(s: string, i: nat)
    requires i <= |s|
    ensures SpaceBetween(s, i, SkipSpace(s, i))
    ensures SkipSpace(s, i) < |s| ==> !IsSpace(s[SkipSpace(s, i)])
    decreases |s| - i
  {
    if i < |s| && IsSpace(s[i]) {
      SkipSpaceSpec(s, i + 1);
    }
  }

  /** `SkipSpaceBack` passes exactly a run of white space, backwards. */
  lemma {:induction false} SkipSpaceBackSpec(s: string, lo: nat, hi: nat)
    requires lo <= hi <= |s|
    ensures SpaceBetween(s, SkipSpaceBack(s, lo, hi), hi)
    ensures SkipSpaceBack(s, lo, hi) > lo ==> !IsSpace(s[SkipSpaceBack(s, lo, hi) - 1])
    decreases hi - lo
  {
    if lo < hi && IsSpace(s[hi - 1]) {
      SkipSpaceBackSpec(s, lo, hi - 1);
    }
  }

  /** `r` is what is left of `s` at offset `i` once white space on both sides is cut. */
  ghost predicate TrimmedAt(s: string, r: string, i: int) {
    0 <= i && i + |r| <= |s| && s[i..i + |r|] == r && SpaceBetween(s, 0, i) && SpaceBetween(s, i + |r|, |s|)
  }

  /** `s.trim()`. */
  function Trim(s: string): (r: string)
    ensures |r| <= |s|
  {
    var i := SkipSpace(s, 0);
    s[i..SkipSpaceBack(s, i, |s|)]
  }

  /** `trim` cuts exactly the white space on both sides and nothing else. */
  lemma TrimSpec(s: string)
    ensures TrimmedAt(s, Trim(s), SkipSpace(s, 0))
    ensures |Trim(s)| > 0 ==> !IsSpace(Trim(s)[0]) && !IsSpace(Trim(s)[|Trim(s)| - 1])
  {
    var i := SkipSpace(s, 0);
    SkipSpaceSpec(s, 0);
    SkipSpaceBackSpec(s, i, |s|);
  }

  lemma {:induction false} SkipSpaceLower(s: string, i: nat)
    requires i <= |s|
    ensures SkipSpace(ToLower(s), i) == SkipSpace(s, i)
    decreases |s| - i
  {
    if i < |s| {
      LowerCharKeepsSpace(s[i]);
      SkipSpaceLower(s, i + 1);
    }
  }

  lemma {:induction false} SkipSpaceBackLower(s: string, lo: nat, hi: nat)
    requires lo <= hi <= |s|
    ensures SkipSpaceBack(ToLower(s), lo, hi) == SkipSpaceBack(s, lo, hi)
    decreases hi - lo
  {
    if lo < hi {
      LowerCharKeepsSpace(s[hi - 1]);
      SkipSpaceBackLower(s, lo, hi - 1);
    }
  }

  lemma ToLowerSlice(s: string, i: int, j: int)
    requires 0 <= i <= j <= |s|
    ensures ToLower(s)[i..j] == ToLower(s[i..j])
  {
  }

  /** Lower-casing after upper-casing is plain lower-casing. */
  lemma ToLowerAfterUpper(s: string)
    ensures ToLower(ToUpper(s)) == ToLower(s)
  {
    assert forall i :: 0 <= i < |s| ==> LowerChar(UpperChar(s[i])) == LowerChar(s[i]);
  }

  /** A string without upper-case letters is its own lower case. */
  lemma ToLowerNoUpper(s: string)
    requires forall i :: 0 <= i < |s| ==> !IsUpper(s[i])
    ensures ToLower(s) == s
  {
  }

  /** Lower-casing neither adds nor removes a character that is not a letter. */
  lemma ToLowerKeepsNonLetter(s: string, c: char)
    requires !IsUpper(c) && !IsLower(c)
    ensures c in ToLower(s) <==> c in s
  {
    if c in ToLower(s) {
      var i :| 0 <= i < |s| && ToLower(s)[i] == c;
      assert s[i] == c;
    }
    if c in s {
      var i :| 0 <= i < |s| && s[i] == c;
      assert ToLower(s)[i] == c;
    }
  }

  /** Trimming before or after lower-casing gives the same string. */
  lemma {:induction false} TrimLowerCommute(s: string)
    ensures Trim(ToLower(s)) == ToLower(Trim(s))
  {
    SkipSpaceLower(s, 0);
    var i := SkipSpace(s, 0);
    SkipSpaceBackLower(s, i, |s|);
    ToLowerSlice(s, i, SkipSpaceBack(s, i, |s|));
  }

  /** `parts.join(sep)`. */
  function Join(parts: seq<string>, sep: char): string
  {
    if |parts| == 0 then ""
    else if |parts| == 1 then parts[0]
    else parts[0] + [sep] + Join(parts[1..], sep)
  }

  /** `s.split(sep)` for a one-character separator: the pieces between
      separators, empty pieces included, never an empty list. */
  function Split(s: string, sep: char): (parts: seq<string>)
    ensures |parts| >= 1
    ensures forall i :: 0 <= i < |parts| ==> sep !in parts[i]
    ensures Join(parts, sep) == s
  {
    if |s| == 0 then [""]
    else
      var rest := Split(s[1..], sep);
      if s[0] == sep then
        assert ([""] + rest)[1..] == rest;
        [""] + rest
      else
        var parts := [[s[0]] + rest[0]] + rest[1..];
        assert parts[1..] == rest[1..];
        assert s == [s[0]] + s[1..];
        parts
  }

  /** A string without the separator splits into itself. */
  lemma {:induction false} SplitNoSeparator(p: string, sep: char)
    requires sep !in p
    ensures Split(p, sep) == [p]
    decreases |p|
  {
    if |p| > 0 {
      SplitNoSeparator(p[1..], sep);
      assert p == [p[0]] + p[1..];
    }
  }

  /** Splitting `p + sep + t`, where `p` holds no separator, yields `p` followed
      by the pieces of `t`. */
  lemma {:induction false} SplitAfterPiece(p: string, sep: char, t: string)
    requires sep !in p
    ensures Split(p + [sep] + t, sep) == [p] + Split(t, sep)
    decreases |p|
  {
    var s := p + [sep] + t;
    if |p| == 0 {
      assert s[1..] == t;
    } else {
      assert s[1..] == p[1..] + [sep] + t;
      SplitAfterPiece(p[1..], sep, t);
      assert p == [p[0]] + p[1..];
    }
  }

  /** Round trip: joining pieces that hold no separator and splitting the
      result gives the pieces back. */
  lemma {:induction false} SplitJoin(parts: seq<string>, sep: char)
    requires |parts| >= 1
    requires forall i :: 0 <= i < |parts| ==> sep !in parts[i]
    ensures Split(Join(parts, sep), sep) == parts
    decreases |parts|
  {
    if |parts| == 1 {
      SplitNoSeparator(parts[0], sep);
    } else {
      SplitJoin(parts[1..], sep);
      SplitAfterPiece(parts[0], sep, Join(parts[1..], sep));
      assert parts == [parts[0]] + parts[1..];
    }
  }

  /** Every piece lower-cased. */
  function LowerAll(parts: seq<string>): (r: seq<string>)
    ensures |r| == |parts|
    ensures forall i :: 0 <= i < |parts| ==> r[i] == ToLower(parts[i])
  {
    if |parts| == 0 then [] else [ToLower(parts[0])] + LowerAll(parts[1..])
  }

  /** The step of `SplitSpaceLower` at a leading space. */
  lemma SplitLowerAtSpace(s: string)
    requires |s| > 0 && s[0] == ' '
    requires Split(ToLower(s[1..]), ' ') == LowerAll(Split(s[1..], ' '))
    ensures Split(ToLower(s), ' ') == LowerAll(Split(s, ' '))
  {
    var l := ToLower(s);
    assert l[1..] == ToLower(s[1..]);
    var rest := Split(s[1..], ' ');
    assert Split(s, ' ') == [""] + rest;
    assert Split(l, ' ') == [""] + LowerAll(rest);
  }

  lemma ToLowerCons(c: char, t: string)
    ensures ToLower([c] + t) == [LowerChar(c)] + ToLower(t)
  {
    var x := ToLower([c] + t);
    var y := [LowerChar(c)] + ToLower(t);
    forall i | 0 <= i < |x|
      ensures x[i] == y[i]
    {
      if i > 0 {
        assert ([c] + t)[i] == t[i - 1];
      }
    }
  }

  /** A leading non-separator joins the first piece of the rest. */
  lemma SplitHead(s: string, sep: char)
    requires |s| > 0 && s[0] != sep
    ensures Split(s, sep) == [[s[0]] + Split(s[1..], sep)[0]] + Split(s[1..], sep)[1..]
  {
  }

  lemma LowerAllCons(x: string, xs: seq<string>)
    ensures LowerAll([x] + xs) == [ToLower(x)] + LowerAll(xs)
  {
    assert ([x] + xs)[1..] == xs;
  }

  lemma LowerAllTail(xs: seq<string>)
    requires |xs| > 0
    ensures LowerAll(xs[1..]) == LowerAll(xs)[1..]
  {
  }

  /** The step of `SplitSpaceLower` at a leading non-space. */
  lemma SplitLowerAtOther(s: string)
    requires |s| > 0 && s[0] != ' '
    requires Split(ToLower(s[1..]), ' ') == LowerAll(Split(s[1..], ' '))
    ensures Split(ToLower(s), ' ') == LowerAll(Split(s, ' '))
  {
    var l := ToLower(s);
    assert l[1..] == ToLower(s[1..]);
    LowerCharKeepsSpace(s[0]);
    var rest := Split(s[1..], ' ');
    SplitHead(s, ' ');
    SplitHead(l, ' ');
    LowerAllCons([s[0]] + rest[0], rest[1..]);
    ToLowerCons(s[0], rest[0]);
    LowerAllTail(rest);
  }

  /** Splitting on a space commutes with lower-casing. */
  lemma {:induction false} SplitSpaceLower(s: string)
    ensures Split(ToLower(s), ' ') == LowerAll(Split(s, ' '))
    decreases |s|
  {
    if |s| > 0 {
      SplitSpaceLower(s[1..]);
      if s[0] == ' ' {
        SplitLowerAtSpace(s);
      } else {
        SplitLowerAtOther(s);
      }
    }
  }

  /** The UTF-16 code units JavaScript stores for `c`: a code point above
      U+FFFF takes a surrogate pair. */
  function Utf16Units(c: char): (n: nat)
    ensures n == 1 || n == 2
    ensures n == 2 <==> c as int > 0xFFFF
  {
    if c as int > 0xFFFF then 2 else 1
  }

  /** `s.length`, which counts UTF-16 code units rather than code points. */
  function Utf16Length(s: string): (n: nat)
    ensures |s| <= n <= 2 * |s|
  {
    if |s| == 0 then 0 else Utf16Units(s[0]) + Utf16Length(s[1..])
  }

  /** The length of a concatenation is the sum of the lengths. */
  lemma {:induction false} Utf16LengthAppend(a: string, b: string)
    ensures Utf16Length(a + b) == Utf16Length(a) + Utf16Length(b)
    decreases |a|
  {
    if |a| == 0 {
      assert a + b == b;
    } else {
      assert (a + b)[0] == a[0] && (a + b)[1..] == a[1..] + b;
      Utf16LengthAppend(a[1..], b);
    }
  }

  /** `s.length` counts the code points exactly when none of them lies above
      U+FFFF. */
  lemma {:induction false} Utf16LengthBmp(s: string)
    ensures Utf16Length(s) == |s| <==> forall i :: 0 <= i < |s| ==> s[i] as int <= 0xFFFF
    decreases |s|
  {
    if |s| > 0 {
      Utf16LengthBmp(s[1..]);
      assert forall i :: 1 <= i < |s| ==> s[i] == s[1..][i - 1];
    }
  }

  /** `t` occurs in `s` starting at index `i`. */
  ghost predicate OccursAt(s: string, t: string, i: int) {
    0 <= i && i + |t| <= |s| && s[i..i + |t|] == t
  }

  /** An occurrence in `s` is either at index 0 or an occurrence in `s[1..]`
      shifted by one. */
  lemma OccursShift(s: string, t: string)
    requires |s| > 0
    ensures (exists i :: OccursAt(s, t, i)) <==> OccursAt(s, t, 0) || exists i :: OccursAt(s[1..], t, i)
  {
    if i :| OccursAt(s[1..], t, i) {
      assert OccursAt(s, t, i + 1);
    }
    if i :| OccursAt(s, t, i) && i != 0 {
      assert OccursAt(s[1..], t, i - 1);
    }
  }

  /** `s.includes(t)`. */
  function Contains(s: string, t: string): bool
    decreases |s|
  {
    if |t| > |s| then false
    else if s[..|t|] == t then true
    else Contains(s[1..], t)
  }

  /** A string in which `c` never follows itself does not include `cc`. */
  lemma {:induction false} NoDoubledChar(s: string, c: char)
    requires forall i :: 0 <= i < |s| - 1 ==> !(s[i] == c && s[i + 1] == c)
    ensures !Contains(s, [c, c])
    decreases |s|
  {
    if |s| >= 2 {
      assert s[..2] != [c, c] by {
        assert s[..2][0] == s[0] && s[..2][1] == s[1];
      }
      NoDoubledChar(s[1..], c);
    }
  }

  /** `includes` finds `t` exactly when `t` occurs somewhere in `s`. */
  lemma {:induction false} ContainsSpec(s: string, t: string)
    ensures Contains(s, t) <==> exists i :: OccursAt(s, t, i)
    decreases |s|
  {
    if |t| <= |s| {
      if s[..|t|] == t {
        assert OccursAt(s, t, 0);
      } else {
        OccursShift(s, t);
        ContainsSpec(s[1..], t);
      }
    }
  }
}

=== FILE: users.dfy ===
/**
 The user records shared by the two user stores (the in-memory `UserStore` and
 the document-backed `FirestoreUserStore`): roles, the order a buyer is paying
 for, the delivery a rider carries, the service areas, and an ordered table of
 users keyed by phone number.

 The table keeps an enumeration order. For the in-memory `Map` it is the
 insertion order. For the document store it stands in for the order the
 database returns documents in (document-id order for an unordered query),
 which the model does not compute. Latitude and longitude are not modelled.
 */
module Users {
  import opened Common

  datatype Role = Buyer | Seller | Rider

  function RoleName(r: Role): string {
    match r
    case Buyer => "buyer"
    case Seller => "seller"
    case Rider => "rider"
  }

  /** The role check `['buyer', 'seller', 'rider'].includes(role)`. */
  function ParseRole(s: string): (r: Option<Role>)
    ensures r.Some? <==> s in {"buyer", "seller", "rider"}
    ensures r.Some? ==> RoleName(r.value) == s
  {
    if s == "buyer" then Some(Buyer)
    else if s == "seller" then Some(Seller)
    else if s == "rider" then Some(Rider)
    else None
  }

  /** Every role name parses back to its role. */
  lemma ParseRoleName(r: Role)
    ensures ParseRole(RoleName(r)) == Some(r)
  {
  }

  /** Conversation states the stores write. */
  const Idle := "idle"
  const Onboarding := "onboarding"
  const AwaitingLocation := "awaiting_location_selection"
  const BrowsingMenu := "browsing_menu"
  const OrderConfirmed := "order_confirmed"

  /** Error and refusal messages. */
  const InvalidRole := "Invalid role"
  const InvalidArea := "Invalid area code"
  const NotRider := "User is not a rider"
  const AlreadyBooking := "Order already being booked"
  const OrderNotFound := "Order not found or already assigned"

  /** The state a role starts in: riders first choose a delivery area. */
  function StateForRole(r: Role): (st: string)
    ensures st == AwaitingLocation <==> r == Rider
    ensures st == Onboarding <==> r != Rider
  {
    if r == Rider then AwaitingLocation else Onboarding
  }

  datatype OrderStatus = PendingPayment | PaymentConfirmed | AssignedToRider

  /** A buyer's `currentOrder`. Every field but the status can be absent: a
      dotted update on a user without an order creates one holding only the
      payment fields. */
  datatype Order = Order(
    mealId: Option<string>,
    mealName: Option<string>,
    price: Option<int>,
    createdAt: Option<Timestamp>,
    status: OrderStatus,
    transactionId: Option<string>,
    receiptNumber: Option<string>,
    paidAt: Option<Timestamp>,
    assignedRider: Option<string>,
    assignedAt: Option<Timestamp>)

  /** A fresh order as `setOrder` writes it. */
  function NewOrder(mealId: string, mealName: string, price: int, now: Timestamp): (o: Order)
    ensures o.status == PendingPayment && o.mealId == Some(mealId)
    ensures o.transactionId.None? && o.assignedRider.None?
  {
    Order(Some(mealId), Some(mealName), Some(price), Some(now), PendingPayment, None, None, None, None, None)
  }

  /** A delivery location: the in-memory store records an address, the
      document store an area. */
  datatype Location = Location(address: Option<string>, area: Option<string>, setAt: Timestamp)

  datatype User = User(
    phone: string,
    role: Option<Role>,
    state: string,
    currentOrder: Option<Order>,
    currentDelivery: Option<Record>,
    preferredArea: Option<string>,
    location: Option<Location>,
    profileName: Option<string>,
    lastInteraction: Timestamp,
    createdAt: Timestamp)

  /** The record a first contact creates. */
  function NewUser(phone: string, now: Timestamp): (u: User)
    ensures u.phone == phone && u.role.None? && u.state == Idle
    ensures u.currentOrder.None? && u.currentDelivery.None? && u.location.None?
  {
    User(phone, None, Idle, None, None, None, None, None, now, now)
  }

  /** The user holds an order whose payment is confirmed. */
  predicate IsConfirmed(u: User) {
    u.currentOrder.Some? && u.currentOrder.value.status == PaymentConfirmed
  }

  /** `profile.name || 'Customer'`. */
  function DisplayName(u: User): (v: Value)
    ensures u.profileName.Some? && |u.profileName.value| > 0 ==> v == VStr(u.profileName.value)
    ensures !(u.profileName.Some? && |u.profileName.value| > 0) ==> v == VStr("Customer")
  {
    Or(OptStr(u.profileName), VStr("Customer"))
  }

  function OptStr(o: Option<string>): (v: Value)
    ensures o.Some? ==> v == VStr(o.value)
    ensures o.None? ==> v == VUndefined
  {
    if o.Some? then VStr(o.value) else VUndefined
  }

  function OptNum(o: Option<int>): (v: Value)
    ensures o.Some? ==> v == VNum(o.value)
    ensures o.None? ==> v == VUndefined
  {
    if o.Some? then VNum(o.value) else VUndefined
  }

  // ---------------------------------------------------------------------------
  // Rider earnings

  /** `Math.round(price * 0.15)`, computed on exact rationals: the nearest
      integer to 15% of the price, halves rounded up. A missing price gives
      NaN. The source computes in floating point; see the README. */
  function Earnings(price: Option<int>): (e: Value)
    ensures price.None? ==> e == VNaN
    ensures price.Some? ==> e.VNum? && 100 * e.n - 50 <= 15 * price.value < 100 * e.n + 50
  {
    if price.Some? then VNum((15 * price.value + 50) / 100) else VNaN
  }

  /** Earnings are the unique integer within half a unit of 15% of the price. */
  lemma EarningsUnique(p: int, n: int)
    requires 100 * n - 50 <= 15 * p < 100 * n + 50
    ensures Earnings(Some(p)) == VNum(n)
  {
  }

  /** Earnings never exceed the price of a non-negative order. */
  lemma EarningsBounded(p: int)
    requires p >= 0
    ensures 0 <= Earnings(Some(p)).n <= p
  {
  }

  // ---------------------------------------------------------------------------
  // Service areas

  /** The area table's own keys, in declaration order, and their names. */
  const AreaCodes: seq<string> := ["westlands", "kilimani", "upperhill", "karen"]
  const AreaNames: seq<string> := ["Westlands", "Kilimani", "Upper Hill", "Karen"]

  datatype AreaChoice = AreaChoice(code: string, name: string)

  /** The area check, corrected: only the table's own keys are codes. */
  predicate IsAreaCode(code: string) {
    code in AreaCodes
  }

  /** The names of the properties every plain JavaScript object inherits from
      `Object.prototype`; reading any of them yields a truthy value. */
  const PrototypeKeys: set<string> := {
    "constructor", "hasOwnProperty", "isPrototypeOf", "propertyIsEnumerable",
    "toString", "toLocaleString", "valueOf", "__proto__",
    "__defineGetter__", "__defineSetter__", "__lookupGetter__", "__lookupSetter__"
  }

  /** The area check as written, `!this.areas[areaCode]`: a property read on a
      plain object, which also finds the inherited properties. */
  predicate AreaAcceptedAsWritten(code: string) {
    code in AreaCodes || code in PrototypeKeys
  }

  /** The check as written accepts "constructor", which is no area. */
  lemma ConstructorAcceptedAsArea()
    ensures AreaAcceptedAsWritten("constructor") && !IsAreaCode("constructor")
  {
    assert "constructor" != AreaCodes[0] && "constructor" != AreaCodes[1];
    assert "constructor" != AreaCodes[2] && "constructor" != AreaCodes[3];
  }

  /** The corrected check accepts a subset of what the check as written accepts,
      and they agree on every name that is not an inherited property. */
  lemma AreaCheckRefines(code: string)
    ensures IsAreaCode(code) ==> AreaAcceptedAsWritten(code)
    ensures code !in PrototypeKeys ==> (IsAreaCode(code) <==> AreaAcceptedAsWritten(code))
  {
  }

  /** `getAreas()`: one `{code, name}` per area, in declaration order. */
  function GetAreas(): (r: seq<AreaChoice>)
    ensures |r| == |AreaCodes|
    ensures forall i :: 0 <= i < |r| ==> r[i] == AreaChoice(AreaCodes[i], AreaNames[i])
    ensures forall c :: IsAreaCode(c) <==> exists i :: 0 <= i < |r| && r[i].code == c
  {
    seq(|AreaCodes|, i requires 0 <= i < |AreaCodes| => AreaChoice(AreaCodes[i], AreaNames[i]))
  }

  // ---------------------------------------------------------------------------
  // The ordered user table

  datatype Table = Table(order: seq<string>, rows: map<string, User>)

  /** Keys are distinct, the order lists exactly the stored keys, and each
      record is stored under its own phone number. */
  ghost predicate Valid(t: Table) {
    && (forall i, j :: 0 <= i < j < |t.order| ==> t.order[i] != t.order[j])
    && (forall k :: k in t.rows <==> k in t.order)
    && (forall k :: k in t.rows ==> t.rows[k].phone == k)
  }

  /** Stores `u` under its phone: an existing user keeps its place, a new one
      goes last, as `Map.set` does. For the document store the table's order
      only stands in for the database's. */
  function Put(t: Table, u: User): (t': Table)
    requires Valid(t)
    ensures Valid(t')
    ensures t'.rows == t.rows[u.phone := u]
    ensures u.phone in t.rows ==> t'.order == t.order
    ensures u.phone !in t.rows ==> t'.order == t.order + [u.phone]
  {
    if u.phone in t.rows then Table(t.order, t.rows[u.phone := u])
    else Table(t.order + [u.phone], t.rows[u.phone := u])
  }

  /** The records in enumeration order. */
  function Records(t: Table): (us: seq<User>)
    requires Valid(t)
    ensures |us| == |t.order|
    ensures forall i :: 0 <= i < |us| ==> us[i] == t.rows[t.order[i]]
  {
    seq(|t.order|, i requires 0 <= i < |t.order| && Valid(t) => t.rows[t.order[i]])
  }

  /** Every stored record appears in `Records`, and nothing else does. */
  lemma RecordsAreRows(t: Table, u: User)
    requires Valid(t)
    ensures u in Records(t) <==> u.phone in t.rows && t.rows[u.phone] == u
  {
    var us := Records(t);
    if u in us {
      var i :| 0 <= i < |us| && us[i] == u;
      assert t.order[i] in t.rows;
    }
    if u.phone in t.rows && t.rows[u.phone] == u {
      var i :| 0 <= i < |t.order| && t.order[i] == u.phone;
      assert us[i] == u;
    }
  }

  /** The table without its last record. */
  function DropLast(t: Table): (t': Table)
    requires Valid(t) && |t.order| > 0
    ensures Valid(t')
    ensures t'.rows == t.rows - {t.order[|t.order| - 1]}
    ensures |t'.order| == |t.order| - 1
  {
    var last := t.order[|t.order| - 1];
    var rest := Table(t.order[..|t.order| - 1], t.rows - {last});
    forall k ensures k in rest.rows <==> k in rest.order {
      if k in rest.order {
        var i :| 0 <= i < |rest.order| && rest.order[i] == k;
        assert t.order[i] == k;
      }
      if k in t.order && k != last {
        var i :| 0 <= i < |t.order| && t.order[i] == k;
        assert i < |t.order| - 1;
        assert rest.order[i] == k;
      }
    }
    rest
  }

  /** Keeps the records satisfying `keep`, in order. */
  function Filter(t: Table, keep: User -> bool): (t': Table)
    requires Valid(t)
    ensures Valid(t')
    ensures forall k :: k in t'.rows <==> k in t.rows && keep(t.rows[k])
    ensures forall k :: k in t'.rows ==> t'.rows[k] == t.rows[k]
    decreases |t.order|
  {
    if |t.order| == 0 then t
    else
      var last := t.order[|t.order| - 1];
      var rest := DropLast(t);
      var r := Filter(rest, keep);
      if keep(t.rows[last]) then
        assert last !in r.rows;
        Put(r, t.rows[last])
      else r
  }

  /** Every preferred area stored in the table is one of the area table's keys. */
  predicate AreasKnown(t: Table) {
    forall k :: k in t.rows && t.rows[k].preferredArea.Some? ==> IsAreaCode(t.rows[k].preferredArea.value)
  }

  // ---------------------------------------------------------------------------
  // State patches

  /** The properties `setState` may copy onto a user; `None` leaves a
      property alone. */
  datatype UserPatch = UserPatch(
    role: Option<Option<Role>>,
    state: Option<string>,
    currentOrder: Option<Option<Order>>,
    currentDelivery: Option<Option<Record>>,
    preferredArea: Option<Option<string>>,
    location: Option<Option<Location>>)

  function Assign<T>(field: T, p: Option<T>): (r: T)
    ensures p.Some? ==> r == p.value
    ensures p.None? ==> r == field
  {
    if p.Some? then p.value else field
  }

  /** `u` with `state` set and then the patch copied over it, so a state in
      the patch wins; the properties the patch leaves alone are kept. */
  function Patched(u: User, state: string, patch: UserPatch): (u': User)
    ensures u'.state == Assign(state, patch.state)
    ensures u' == u.(state := u'.state, role := u'.role, currentOrder := u'.currentOrder,
                     currentDelivery := u'.currentDelivery, preferredArea := u'.preferredArea, location := u'.location)
    ensures u'.role == Assign(u.role, patch.role) && u'.currentOrder == Assign(u.currentOrder, patch.currentOrder)
    ensures u'.currentDelivery == Assign(u.currentDelivery, patch.currentDelivery)
    ensures u'.preferredArea == Assign(u.preferredArea, patch.preferredArea) && u'.location == Assign(u.location, patch.location)
  {
    u.(state := Assign(state, patch.state),
       role := Assign(u.role, patch.role),
       currentOrder := Assign(u.currentOrder, patch.currentOrder),
       currentDelivery := Assign(u.currentDelivery, patch.currentDelivery),
       preferredArea := Assign(u.preferredArea, patch.preferredArea),
       location := Assign(u.location, patch.location))
  }

  // ---------------------------------------------------------------------------
  // Store state

  /** A user store: the users and the order ids whose booking is under way. */
  datatype Store = Store(users: Table, locks: set<string>)

  /** Writes the changed record of a user back. */
  function Save(s: Store, u: User): (s': Store)
    requires Valid(s.users)
    ensures Valid(s'.users) && s'.locks == s.locks
    ensures s'.users.rows == s.users.rows[u.phone := u]
  {
    s.(users := Put(s.users, u))
  }

  /** What `bookOrder` returns: `{success: true, delivery}` or
      `{success: false, reason}`. */
  datatype BookResult = Booked(delivery: Record) | Refused(reason: string)

  /** The order `o` handed to `riderPhone`. */
  function AssignedTo(o: Order, riderPhone: string): (o': Order)
    ensures o'.status == AssignedToRider && o'.assignedRider == Some(riderPhone)
    ensures o'.mealId == o.mealId && o'.price == o.price && o'.transactionId == o.transactionId
  {
    o.(status := AssignedToRider, assignedRider := Some(riderPhone))
  }

  // ---------------------------------------------------------------------------
  // Searches over the records, in enumeration order

  /** Index of the last record satisfying `p` (a `forEach` that keeps
      overwriting its target). */
  function LastMatch(us: seq<User>, p: User -> bool): (i: Option<nat>)
    ensures i.Some? ==> i.value < |us| && p(us[i.value])
    ensures i.Some? ==> forall j :: i.value < j < |us| ==> !p(us[j])
    ensures i.None? ==> forall j :: 0 <= j < |us| ==> !p(us[j])
    decreases |us|
  {
    if |us| == 0 then None
    else if p(us[|us| - 1]) then Some(|us| - 1)
    else LastMatch(us[..|us| - 1], p)
  }

  /** Index of the first record satisfying `p` (a query with `limit(1)`). */
  function FirstMatch(us: seq<User>, p: User -> bool): (i: Option<nat>)
    ensures i.Some? ==> i.value < |us| && p(us[i.value])
    ensures i.Some? ==> forall j :: 0 <= j < i.value ==> !p(us[j])
    ensures i.None? ==> forall j :: 0 <= j < |us| ==> !p(us[j])
    decreases |us|
  {
    if |us| == 0 then None
    else if p(us[0]) then Some(0)
    else
      var i := FirstMatch(us[1..], p);
      if i.Some? then Some(i.value + 1) else None
  }

  /** The results `f` yields for the records, in order, skipping those for
      which it yields nothing (a `forEach` that pushes selectively). */
  function Collect<R(!new)>(us: seq<User>, f: User -> Option<R>): (r: seq<R>)
    ensures |r| <= |us|
    ensures forall x :: x in r <==> exists u :: u in us && f(u) == Some(x)
    decreases |us|
  {
    if |us| == 0 then []
    else
      var rest := Collect(us[1..], f);
      assert forall u :: u in us <==> u == us[0] || u in us[1..];
      if f(us[0]).Some? then [f(us[0]).value] + rest else rest
  }

  /** Collecting visits every record: its length is the number of records
      that yield something. */
  function CountYields<R(!new)>(us: seq<User>, f: User -> Option<R>): nat
    decreases |us|
  {
    if |us| == 0 then 0 else (if f(us[0]).Some? then 1 else 0) + CountYields(us[1..], f)
  }

  lemma {:induction false} CollectLength<R(!new)>(us: seq<User>, f: User -> Option<R>)
    ensures |Collect(us, f)| == CountYields(us, f)
    decreases |us|
  {
    if |us| > 0 {
      CollectLength(us[1..], f);
    }
  }

  // ---------------------------------------------------------------------------
  // Delivery records

  /** The `delivery` object `bookOrder` gives the rider. */
  function DeliveryRecord(orderId: string, buyer: User, o: Order, dropoff: Value, area: Value, now: Timestamp): (d: Record)
    ensures Get(d, "id") == VStr(orderId) && Get(d, "orderId") == VStr(orderId)
    ensures Get(d, "status") == VStr("assigned") && Get(d, "buyerPhone") == VStr(buyer.phone)
    ensures Get(d, "buyerName") == DisplayName(buyer) && Get(d, "earnings") == Earnings(o.price)
    ensures Get(d, "dropoffLocation") == dropoff && Get(d, "area") == area
  {
    map[
      "id" := VStr(orderId),
      "orderId" := VStr(orderId),
      "buyerPhone" := VStr(buyer.phone),
      "buyerName" := DisplayName(buyer),
      "meal" := OptStr(o.mealName),
      "price" := OptNum(o.price),
      "earnings" := Earnings(o.price),
      "status" := VStr("assigned"),
      "assignedAt" := VNum(now),
      "dropoffLocation" := dropoff,
      "area" := area
    ]
  }
}
